=== FILE: README.md ===
# parakeetv2API core in Dafny

This project models the request core of parakeetv2API. That is an
OpenAI-compatible HTTP transcription service in front of a single NVIDIA
Parakeet speech model. The model covers:

- the upload validators: extension, size, filename sanitising, and
  normalising transcripts for comparison;
- the audio processor: validation through ffprobe, the decision to convert,
  conversion through ffmpeg, temporary uploads and their cleanup;
- the transcription service, which coordinates validate, save, convert,
  transcribe and cleanup, and always cleans up in its `finally` step;
- the model manager's load, warmup, transcribe and unload lifecycle;
- the exception taxonomy, the error envelope and status mapping, and the
  circuit breaker;
- request validation for the transcription form and the response models
  with the model catalogue;
- the audio and model services;
- the sliding-window rate limiter and its middleware;
- settings validation and the two header dependencies.

Every operation is a pure function or a small method over immutable
datatypes. Anything outside the process becomes a parameter that stands
for its result:

- the file system is a `Disk`, a set of existing paths plus the paths that
  refuse deletion;
- an ffprobe run, an ffmpeg run and an upload write are each an outcome
  value; a failed ffmpeg run or write also says whether it had already
  created its output file;
- a NeMo transcription run and a model load are each an outcome value;
- the clock is a `now` argument;
- the random hex token of an upload is a `token` argument.

The transcription service also returns a trace of the files it saved,
converted, transcribed and cleaned, and of the files a failed step created
and left behind ("stranded"). The cleanup guarantees are stated over that
trace.

The services model the code as written, so they sanitise with
`SanitizeFilenameAsWritten`. The corrected sanitiser and the corrected
service that discards stranded files sit beside them, with their intended
properties proved (see Findings).

Modules follow the source files:

| module | file |
|---|---|
| `Validators` | `src/utils/validators.py` |
| `AudioProcessor` | `src/core/audio_processor.py` |
| `Transcription` | `src/services/transcription.py` |
| `ModelManager` | `src/core/model_manager.py` |
| `Exceptions` | `src/core/exceptions.py` |
| `ErrorHandler` | `src/core/error_handler.py` |
| `CircuitBreaker` | the breaker class in `src/core/error_handler.py` |
| `Requests` | `src/models/requests.py` |
| `Responses` | `src/models/responses.py` |
| `AudioService` | `src/services/audio.py` |
| `ModelService` | `src/services/model.py` |
| `RateLimiter` | `src/api/rate_limiter.py` |
| `Config` | `src/config.py` |
| `Dependencies` | `src/api/dependencies.py` |
| `Routes` | the request-validation stage of `src/api/routes/transcription.py` |

`Paths`, `Text` and `Wrappers` hold the parts of `pathlib` and `str` that the
code relies on (`Path.name`, `Path.suffix`, `Path.stem`, `lower`, `upper`,
`strip`, `join`) and the `Option`/`Result` types.

In two places the code falls short of what its own tests and comments
expect. The model follows the code and proves the corrected behaviour
beside it (see Findings).

- An `UnsupportedParameterError` carries status 400
  (`src/core/exceptions.py:64-77`), and the route tests expect 400 for a
  refused language, response format, stream or timestamp request
  (`tests/integration/test_api_routes.py:71-123`). The route answers
  `get_status_code(e)` (`src/api/routes/transcription.py:155-158`), and that
  ladder (`src/core/error_handler.py:100-111`) does not list the class, so
  the answer is 500 (`Routes.UnsupportedAnswered500`).
- The sanitiser's comments say it limits the length and preserves the
  extension (`src/utils/validators.py:82-85`), and the unit test expects at
  most 255 characters (`tests/unit/test_validators.py:108-113`). With an
  extension of 255 or more characters the code returns a longer name
  (`Validators.AsWrittenBoundCounterexample`).

Two further mappings are as the code has them and are not treated as
mistakes: `ModelNotLoadedError` carries 500 but is answered 503, and the
request model accepts any model id, not only the four aliases of the
catalogue (`ModelService.UnknownModelAccepted`).

## Model

| member | source | states |
|---|---|---|
| Validators.ValidateFileExtension | src/utils/validators.py:12-40 | the accepted extension is the lower-cased suffix of the base name; a name without a suffix gets the "No file extension found" error listing the formats; any other refusal is an unsupported-format validation error |
| Validators.AcceptsExactlySupported | src/utils/validators.py:34-40 | a filename is accepted if and only if the lower-cased suffix of its base name is one of the nine supported formats |
| Validators.ExtensionCaseInsensitive | src/utils/validators.py:25-40 | a supported extension is accepted in any letter case and reported in lower case |
| Validators.ValidateFileSize | src/utils/validators.py:43-58 | a size passes exactly when it does not exceed the limit; otherwise the error is a validation error |
| Validators.ReplaceUnsafe | src/utils/validators.py:76 | the result has the same length, uses only letters, digits, dot, underscore and hyphen, keeps every dot where it was and changes nothing in an already safe name |
| Validators.Untruncated | src/utils/validators.py:72-80 | before truncation the name is safe, contains a dot and has at least two characters |
| Validators.NoDotGetsAudioSuffix | src/utils/validators.py:79-80 | a short safe base name without a dot comes back with ".audio" appended |
| Validators.TraversalExample | src/utils/validators.py:72-80 | "../../../etc/passwd" sanitises to "passwd.audio", with no directory part left |
| Validators.SafeHasNoSlash | src/utils/validators.py:72-76 | a sanitised name cannot contain a path separator |
| Validators.ExtensionAfterLastDot | src/utils/validators.py:86 | the extension from `rsplit('.', 1)` is dot-free, ends the name and follows its last dot |
| Validators.PyPrefix | src/utils/validators.py:88 | Python's `name[:k]` is a prefix of the name: k characters for k >= 0, and all but the last -k characters for negative k |
| Validators.LimitLengthAsWritten | src/utils/validators.py:83-88 | the length limit as written leaves names of at most 255 characters alone, and with an extension of 255 or more characters it returns a name longer than that extension |
| Validators.LimitLength | src/utils/validators.py:83-88 | the corrected length limit always yields a safe dotted name of 2 to 255 characters and leaves names within the limit unchanged |
| Validators.LimitLengthKeepsExtension | src/utils/validators.py:83-88 | for an extension shorter than 255 characters the truncated name still ends in "." plus that extension |
| Validators.LimitLengthAgreesAsWritten | src/utils/validators.py:83-88 | for extensions shorter than 255 characters the corrected limit and the code as written give the same name |
| Validators.SanitizeFilenameAsWritten | src/utils/validators.py:61-90 | the sanitiser as written always returns a safe name containing a dot |
| Validators.SanitizeFilename | src/utils/validators.py:61-90 | the sanitised name is safe, contains a dot, has 2 to 255 characters, and equals the untruncated name whenever that fits |
| Validators.SanitizeKeepsExtension | src/utils/validators.py:83-88 | truncation preserves the final extension: the result ends in "." plus the original extension |
| Validators.SanitizeKeepsFinalExtension | src/utils/validators.py:61-90 | the extension read back from a sanitised name is the one the input had |
| Validators.LimitLengthKeepsFinalExtension | src/utils/validators.py:83-88 | for an extension shorter than 255 characters the limited name reads back the same final extension |
| Validators.AsWrittenAgreesForShortExtensions | src/utils/validators.py:61-90 | for extensions shorter than 255 characters the code as written computes the corrected sanitiser |
| Validators.SanitizedIsFixed | src/utils/validators.py:61-90 | a safe dotted name of 2 to 255 characters is returned unchanged |
| Validators.SanitizeIdempotent | src/utils/validators.py:61-90 | sanitising twice gives the same name as sanitising once |
| Validators.AsWrittenShortExtensionProperties | src/utils/validators.py:61-90 | with an extension shorter than 255 characters the code as written respects the 255 limit and is idempotent |
| Validators.AsWrittenLongExtensionOverflows | src/utils/validators.py:83-88 | with an extension of 255 or more characters the code as written returns a name longer than 255 |
| Validators.AsWrittenOnLongName | src/utils/validators.py:83-88 | on an over-long safe name the code keeps a Python prefix of the stem of length 255 minus the extension minus one, which is negative for long extensions, followed by the extension |
| Validators.AsWrittenBoundCounterexample | src/utils/validators.py:83-88 | "." followed by 255 letters sanitises to a name of 256 characters |
| Validators.AsWrittenNotIdempotent | src/utils/validators.py:83-88 | whenever the extension is at least 255 characters long and the stem survives the first pass, a second pass changes the name again |
| Validators.AsWrittenIdempotenceCounterexample | src/utils/validators.py:61-90 | "ab." followed by 255 letters is not a fixed point of the code as written |
| Validators.CleanChar | src/utils/validators.py:104-108 | after lower-casing and the punctuation substitution every character is a lower-case letter, a digit or a space; a character that is a word character once lower-cased becomes that lower-case character, every other character becomes a space, and a lower-case letter or digit is kept |
| Validators.SplitWords | src/utils/validators.py:111 | `split()` yields only non-empty words of letters and digits |
| Validators.NormalizeTranscription | src/utils/validators.py:93-113 | a normalised transcript holds only lower-case letters, digits and single inner spaces, and neither starts nor ends with a space |
| Validators.NormalizeIdempotent | src/utils/validators.py:93-113 | normalising a normalised transcript changes nothing |
| Validators.NormalFormIsFixed | src/utils/validators.py:93-113 | every string of lower-case words separated by single spaces is returned unchanged, so the normal forms are exactly the fixed points |
| Validators.SplitJoinKeepsChars | src/utils/validators.py:111-113 | splitting on spaces and joining with one space keeps every non-space character, in order |
| Validators.NormalizeKeepsWordChars | src/utils/validators.py:93-113 | normalising keeps every letter and digit of the lower-cased text in order and drops only punctuation and spacing |
| Validators.NormalizeExample | src/utils/validators.py:93-113 | "Hello, World!" normalises to "hello world": the comma and the exclamation mark go and the case is lowered |
| Validators.NormalizeIgnoresCase | src/utils/validators.py:104 | upper-casing the text first does not change the normal form |
| Validators.CompareIsEquivalence | src/utils/validators.py:116-131 | comparison is reflexive, symmetric and transitive in both modes, and a strict match implies a lenient one |
| Validators.CompareWithNormalized | src/utils/validators.py:116-131 | a transcript matches its own normal form and its upper-cased form in lenient mode |
| Paths.BaseName | src/utils/validators.py:72 | `Path(...).name` has no separator, is never ".", and is the name itself when it has neither |
| Paths.Suffix | src/utils/validators.py:25-26 | `Path.suffix` is empty or a dot followed by at least one character that is not a dot, and ends the name |
| Paths.Stem | src/core/audio_processor.py:150 | `Path.stem` followed by the suffix gives back the name |
| AudioProcessor.NameExtension | src/core/audio_processor.py:55 | the lower-cased extension is empty exactly when there is no suffix, and otherwise it is the text after the name's last dot |
| AudioProcessor.MetadataOf | src/core/audio_processor.py:95-101 | a missing sample rate or channel count reads as 0 |
| AudioProcessor.ValidateAudioFile | src/core/audio_processor.py:38-109 | a file passes exactly when it exists, has a supported extension and ffprobe exits 0 with at least one audio stream, and then the first stream's metadata is returned; a missing file gives "File not found"; for an existing file with a supported extension, a non-zero ffprobe exit gives "Invalid audio file: " and the stripped stderr (or "Unknown error"), a zero exit without streams gives "No audio stream found in file", and a raising ffprobe gives "Failed to validate audio file: " and its message; only the existence check can raise an untyped error |
| AudioProcessor.ProbeNotConsulted | src/core/audio_processor.py:51-60 | a missing file or an unsupported extension fails without regard to the ffprobe run |
| AudioProcessor.ConvertedPath | src/core/audio_processor.py:148-150 | the default conversion target lies in the temporary directory, differs from the input and ends in ".wav" |
| AudioProcessor.ConvertAudio | src/core/audio_processor.py:130-184 | conversion succeeds exactly when ffmpeg exits 0, and then creates the requested or default output; any failure is a processing error, and the disk then holds the output exactly when ffmpeg created it before failing (it runs with `-y` and is not cleaned up on failure) |
| AudioProcessor.ProcessAudioFile | src/core/audio_processor.py:186-210 | validation errors pass through unchanged; a valid file is converted exactly when it needs conversion; on success only the converted file is new, and a failure leaves behind at most the partial output of a conversion that ffmpeg started |
| AudioProcessor.CleanupTempFile | src/core/audio_processor.py:212-224 | only paths in the temporary directory are deleted, nothing else is touched, a deletable temporary file is gone afterwards, and a missing or undeletable path leaves the disk exactly as it was |
| AudioProcessor.CleanupIdempotent | src/core/audio_processor.py:219-221 | cleaning a path twice is the same as cleaning it once |
| AudioProcessor.SaveUploadedFile | src/core/audio_processor.py:226-249 | the upload is saved exactly when the write succeeds, as the file "token_basename" in the temporary directory; a failed write is a processing error "Failed to save uploaded file: ...", and the file then exists exactly when `open` created it before the write failed |
| AudioProcessor.ConvertedOutputIsTarget | src/core/audio_processor.py:123-128 | a conversion output at 16 kHz mono needs no further conversion |
| AudioProcessor.MissingFieldsNeedConversion | src/core/audio_processor.py:96-97 | a stream without a sample rate or channel count always needs conversion |
| AudioProcessor.NeedsConversionCases | src/core/audio_processor.py:123-128 | conversion is skipped exactly for .wav or .flac files, in any case, at 16000 Hz and 1 channel |
| AudioService.FormatsAgree | src/services/audio.py:20-22 | the service's format set is the processor's |
| AudioService.FormatCheckAgreesWithValidator | src/services/audio.py:175-185 | `is_format_supported` answers yes exactly when the upload validator accepts a file with that extension, which it then reports in lower case |
| AudioService.GetSupportedFormats | src/services/audio.py:187-194 | the list holds the nine supported formats, each once |
| AudioService.ValidateAndSaveFile | src/services/audio.py:24-79 | with the sanitiser as written, an upload is saved exactly when its sanitised name has a supported extension, its size is within the limit and the write succeeds; extension and size refusals are validation errors that leave the disk unchanged; a failed write is a processing error that leaves a partial file exactly when one was created |
| AudioService.UploadKeepsExtension | src/core/audio_processor.py:238-239 | the saved upload's extension is the one the validator accepted |
| AudioService.SavedUploadReachesProbe | src/services/transcription.py:79-95 | after a successful save, the later file validation depends only on ffprobe's result |
| AudioService.ProcessForTranscription | src/services/audio.py:81-123 | success implies the file validated; an unconverted result is the input path; a converted result is a new file in the temporary directory; a failure changes the disk only by the partial output of a failed conversion of a valid file |
| AudioService.GetAudioMetadata | src/services/audio.py:125-153 | metadata is returned under exactly the conditions of file validation, and is that of the first stream |
| AudioService.ValidateAudioContent | src/services/audio.py:196-223 | the answer is never `False`: it is `True` exactly when the metadata can be read, and otherwise the same error |
| AudioService.CleanupFile | src/services/audio.py:155-173 | cleanup removes at most the given path and never anything outside the temporary directory |
| AudioService.SaveThenCleanupRestores | src/services/audio.py:155-173 | saving a new upload and cleaning it up leaves the disk as it was |
| AudioService.TranscriptionValidatesLikeService | src/services/transcription.py:58-85 | the transcription service gets past validation and save exactly when the audio service would, saves the same path, and otherwise fails with the same error and leaves the same disk |
| Transcription.SupportedModelsAreCatalogue | src/services/transcription.py:161-185 | the supported model list is the catalogue's ids in the catalogue's order |
| Transcription.Reraise | src/services/transcription.py:119-124 | the four expected error kinds pass through unchanged; anything else becomes a model error "Transcription failed: ..." |
| Transcription.AskModel | src/services/transcription.py:101-117 | without a loaded model the answer is ModelNotLoadedError and no transcription happens; otherwise success is the engine returning, and the response text is the first normalised output, or "" if there is none |
| Transcription.ProcessAndTranscribe | src/services/transcription.py:91-124 | every error is one of the expected kinds; the processed file is the upload or a new converted file, and it is set exactly when processing succeeded; without a loaded model the attempt fails, with ModelNotLoadedError once the file was processed; when processing fails the processed path stays unset, nothing is marked for cleanup, and a partial conversion output is recorded as stranded exactly when it is new on disk |
| Transcription.CleanupFiles | src/services/transcription.py:130-159 | the upload is always cleaned, and so is the converted file when there is one; only those two are cleaned, each once, and no file is deleted unless it was cleaned |
| Transcription.Finish | src/services/transcription.py:126-128 | the `finally` step keeps the outcome, and the trace starts with the save |
| Transcription.Admit | src/services/transcription.py:58-85 | with the sanitiser as written, the request gets past admission exactly when the sanitised extension is supported, the size fits and the write succeeds, and the upload then exists; extension errors pass through verbatim; validation refusals leave the disk unchanged; a failed write leaves the upload exactly when `open` created it |
| Transcription.TranscribeAudio | src/services/transcription.py:28-128 | every error is one of the expected kinds; a refused admission fails with its error, leaves the disk admission left, and records the upload as stranded exactly when a failed write created it; otherwise the first event saves the admitted path |
| Transcription.ValidationFailureTouchesNothing | src/services/transcription.py:58-75 | with the sanitiser as written, a refused extension or size gives a validation error before any file exists |
| Transcription.EveryCreatedFileCleanedOnce | src/services/transcription.py:88-159 | on every path through the service each saved or converted file is cleaned exactly once, nothing else is cleaned, and cleaning comes last |
| Transcription.NoTemporaryFileLeaks | src/services/transcription.py:126-156 | afterwards no file exists that did not exist before, except ones that refused deletion and ones the trace records as stranded, and every removed file was created by the request |
| Transcription.StrandedFilesOutliveRequest | src/services/transcription.py:77-128 | a stranded file is new, lies in the temporary directory, is never cleaned and remains on disk, and the request failed |
| Transcription.PartialUploadLeaks | src/services/transcription.py:77-85 | a write that fails after creating the upload leaves that upload on disk: the save sits before the `try`, so the `finally` clause never cleans it |
| Transcription.PartialConversionLeaks | src/services/transcription.py:91-128 | an ffmpeg run that fails after creating its output leaves that file on disk: the processed path is still unset, so the `finally` clause cleans only the upload |
| Transcription.StrandedPaths | src/services/transcription.py:126-128 | the stranded paths are exactly those the trace records as stranded |
| Transcription.CleanupEach | src/services/transcription.py:130-159 | corrected cleanup of a list of paths: one cleaning event per path, only listed paths are removed, and every deletable temporary path in the list is gone |
| Transcription.TranscribeAudioDiscarding | src/services/transcription.py:28-128 | corrected service, which also discards stranded files: the response is that of the code as written, and each stranded file is cleaned after it |
| Transcription.DiscardingLeavesNothing | src/services/transcription.py:126-156 | with stranded files discarded, no new file survives except ones that refused deletion, every removed file was created by the request, and every stranded file is cleaned |
| Transcription.NotLoadedNeverTranscribes | src/services/transcription.py:101-103 | without a loaded model the request fails and no transcription is attempted; once admission and processing succeeded, the error is ModelNotLoadedError |
| Transcription.SuccessIsFirstTranscription | src/services/transcription.py:106-117 | a request succeeds exactly when admission, processing, a loaded model and the engine all succeed, and the response text is the first normalised transcription |
| Transcription.FinishCleansOnce | src/services/transcription.py:126-156 | for every shape an attempt can take, the final trace cleans each created file exactly once |
| ModelManager.Initial | src/core/model_manager.py:31-41 | a new manager has no model and is not loaded |
| ModelManager.PathStrings | src/core/model_manager.py:151-155 | one path or a list of paths is handed to the engine as strings, in order |
| ModelManager.NormaliseOutput | src/core/model_manager.py:167-194 | a list output keeps its length and order, each item read as its text; a single output gives one text |
| ModelManager.Transcribe | src/core/model_manager.py:128-198 | an unloaded manager raises ModelNotLoadedError without calling the engine; a loaded one passes the paths, wraps an engine failure as "Transcription failed: ...", and otherwise returns the normalised output |
| ModelManager.NotLoadedIgnoresEngine | src/core/model_manager.py:147-148 | when not loaded the result does not depend on the engine and no input reaches it |
| ModelManager.OutputLengthFollowsRaw | src/core/model_manager.py:167-194 | a loaded manager returns one text per raw output item |
| ModelManager.ExistingFiles | src/core/model_manager.py:115 | the warmup uses exactly the fixture files that exist |
| ModelManager.Warmup | src/core/model_manager.py:102-126 | warmup is skipped exactly when no fixture exists, completes exactly when one exists and the engine returns, and a failure only reports the engine's message |
| ModelManager.LoadModel | src/core/model_manager.py:63-100 | loading an already loaded manager is a no-op; a successful load marks the model loaded before warmup; a failed load stays unloaded and reports "Failed to load model ..." |
| ModelManager.LoadIdempotent | src/core/model_manager.py:65-68 | a second load after a successful one changes nothing and does not call the loader |
| ModelManager.RetryAfterFailure | src/core/model_manager.py:98-100 | after a failed load, a later successful load loads the model |
| ModelManager.LoadedModelTranscribes | src/core/model_manager.py:90-94 | after a successful load, transcription reaches the engine whatever the warmup did |
| ModelManager.Unload | src/core/model_manager.py:200-213 | unloading leaves no model and no loaded flag, keeps the name, and changes nothing when no model is held |
| ModelManager.UnloadThenReload | src/core/model_manager.py:200-213 | after unloading, transcription raises ModelNotLoadedError and the next load calls the loader again |
| Exceptions.Message | src/core/exceptions.py:9-77 | ModelNotLoadedError and UnsupportedParameterError build their fixed messages; every other error keeps the message it was raised with |
| Exceptions.StatusCode | src/core/exceptions.py:9-77 | the status each exception class carries: 400 for validation and unsupported parameters, 500 for processing, model and not-loaded errors |
| Exceptions.DetailsOf | src/core/exceptions.py:9-77 | ModelNotLoadedError carries its error code; UnsupportedParameterError carries exactly its parameter, value and reason; others keep their details |
| ErrorHandler.GetStatusCode | src/core/error_handler.py:91-111 | validation errors map to 400 and not-loaded to 503; an HTTP exception keeps its status; everything else maps to 500 |
| ErrorHandler.MappedStatusVersusCarried | src/core/error_handler.py:100-111 | the mapped status equals the status the exception carries exactly for validation, processing and model errors and a base error of 500; not-loaded is 500 versus 503 and unsupported-parameter is 400 versus 500 |
| ErrorHandler.GetStatusCodeCorrected | src/core/error_handler.py:100-111 | the corrected ladder answers an unsupported-parameter error with the 400 it carries and maps every other failure as the code does |
| ErrorHandler.CorrectedMappingVersusCarried | src/core/error_handler.py:100-111 | with the corrected ladder the carried status reaches the client for validation, processing, model and unsupported-parameter errors and a base error of 500 |
| ErrorHandler.ErrorCode | src/core/error_handler.py:27-62 | the four listed classes get "audio_validation_error", "audio_processing_error", "model_error" and "model_not_loaded"; an untyped error, a base error or an unsupported-parameter error gets "internal_error" |
| ErrorHandler.ErrorCodeByExactType | src/core/error_handler.py:27-62 | the code is "internal_error" exactly for errors outside the four listed classes; two errors share another code only when they are of the same class; the lookup is by exact class, so ModelNotLoadedError, a subclass of ModelError, gets its own code, which matches the one in its details |
| ErrorHandler.FormatErrorResponse | src/core/error_handler.py:45-88 | the envelope's type is "invalid_request_error" exactly for validation errors; typed errors show their own message and untyped ones a generic message; the request id appears exactly when it is non-empty; details appear exactly when asked for on a typed error |
| ErrorHandler.CategoryOf | src/core/error_handler.py:182-187 | an error mentioning ffmpeg in any case is an audio failure; one mentioning cuda or gpu, and not ffmpeg, is a GPU failure |
| ErrorHandler.WithErrorHandling | src/core/error_handler.py:163-189 | results and typed errors pass through; an untyped error becomes the processing or model error its text indicates |
| ErrorHandler.WithErrorHandlingTypes | src/core/error_handler.py:163-189 | after the wrapper every error is typed, a reclassified error maps to 500, and wrapping twice changes nothing |
| ErrorHandler.ClassifyIgnoresCase | src/core/error_handler.py:182-184 | upper-casing the error text does not change its category |
| CircuitBreaker.Initial | src/core/error_handler.py:195-214 | a new breaker is closed, counts nothing and does not want to reset |
| CircuitBreaker.OnSuccess | src/core/error_handler.py:252-256 | a success closes the breaker and clears the count |
| CircuitBreaker.OnFailure | src/core/error_handler.py:258-270 | a failure counts one more and records the time; the breaker opens at the threshold or when it was not closed, and stays closed below it |
| CircuitBreaker.Invoke | src/core/error_handler.py:236-242 | a return passes its value on and closes; an expected failure is re-raised and counted; an unexpected failure is re-raised and leaves the breaker as it was |
| CircuitBreaker.CallAsWritten | src/core/error_handler.py:216-242 | as written, an open breaker before its timeout rejects the call with the TypeError from the wrong constructor call, without running the function |
| CircuitBreaker.Call | src/core/error_handler.py:216-242 | corrected: an open breaker before its timeout rejects with ModelNotLoadedError without running the function, and otherwise the function runs |
| CircuitBreaker.CallAgreesExceptRejection | src/core/error_handler.py:230-234 | the code as written and the corrected version differ only in the rejection's error |
| CircuitBreaker.RejectionStatus | src/core/error_handler.py:234 | the rejection as written reaches the client as 500 "internal_error", and the intended one as 503 "model_not_loaded" |
| CircuitBreaker.RejectionCounterexample | src/core/error_handler.py:230-234 | a breaker opened at time 100 with timeout 60, called at 130, answers 500 as written and 503 as intended |
| CircuitBreaker.HalfOpenFailureReopens | src/core/error_handler.py:258-265 | an expected failure during a trial call reopens the breaker at that time |
| CircuitBreaker.UnexpectedFailureKeepsHalfOpen | src/core/error_handler.py:240-242 | an unexpected failure during a trial call leaves the breaker half-open, so the next call runs too |
| CircuitBreaker.SuccessCloses | src/core/error_handler.py:252-256 | a call that runs and returns closes the breaker and returns the value |
| CircuitBreaker.Replay | src/core/error_handler.py:216-242 | any sequence of calls keeps the breaker's invariant and its settings |
| CircuitBreaker.FailuresOpenAtThreshold | src/core/error_handler.py:258-265 | from closed, consecutive expected failures count up one each, open the breaker exactly at the threshold, and never leave it half-open |
| Requests.LanguageRaise | src/models/requests.py:77-87 | a language is refused exactly when given and not "en" |
| Requests.ResponseFormatRaise | src/models/requests.py:89-99 | a known response format other than "json" is refused as unsupported |
| Requests.BadItems | src/models/requests.py:35-38 | the literal check reports nothing exactly when every granularity is "word" or "segment" |
| Requests.TimestampsRaise | src/models/requests.py:101-111 | any well-typed timestamp granularities are refused as unsupported |
| Requests.StreamRaise | src/models/requests.py:113-126 | streaming is refused exactly for `stream=true` on the two OpenAI transcribe models |
| Requests.FirstRaise | src/models/requests.py:54-126 | a refused language is reported before anything else, and nothing is raised exactly when every validator passes |
| Requests.FieldErrors | src/models/requests.py:13-52 | field typing fails exactly on a null model, an unknown response format, a temperature outside 0 to 1, or an unknown granularity |
| Requests.Validate | src/models/requests.py:10-126 | an accepted request is the form with its defaults; unsupported-parameter and field errors are reported as such |
| Requests.ValidRequestFields | src/models/requests.py:10-126 | an accepted request is English or unspecified, json, without timestamps, with a temperature in 0 to 1, and does not stream on a refused model |
| Requests.AcceptsExactly | src/models/requests.py:10-126 | the exact set of accepted forms, as one condition per field |
| Requests.LanguageReportedFirst | src/models/requests.py:77-87 | a non-English language yields exactly the language error, whatever else is wrong |
| Requests.LiteralErrorCollected | src/models/requests.py:25-28 | an unknown response format is a literal field error unless a validator raises first |
| Requests.StreamRefusedPerModel | src/models/requests.py:113-126 | with `stream=true` a request is accepted exactly when its model is not one of the two refused ones |
| Requests.DefaultsApply | src/models/requests.py:13-52 | an empty form is accepted as whisper-1, json, without streaming |
| Responses.DefaultUsage | src/models/responses.py:8-43 | the fixed token usage: 1 audio input token, 1 output token, 2 in total |
| Responses.MakeResponse | src/models/responses.py:46-56 | a response carries the text and the default usage |
| Responses.UsageIndependentOfText | src/models/responses.py:46-56 | the usage does not depend on the transcript |
| Responses.CatalogueShape | src/models/responses.py:124-149 | the catalogue lists four distinct model ids with the same object type, creation time and owner |
| Responses.GetModelList | src/models/responses.py:152-157 | the model list is the whole catalogue in order |
| Responses.FindModel | src/models/responses.py:170-173 | the linear search finds the first entry with the id, and none exactly when no entry has it |
| Responses.GetModelInfo | src/models/responses.py:160-173 | an id is found exactly when it is in the catalogue, and then its entry is returned |
| ModelService.SupportedIsCatalogue | src/services/model.py:66-76 | the supported ids are the catalogue's and those of the transcription service |
| ModelService.ListModels | src/services/model.py:23-38 | the listing holds an entry for every supported id and nothing else |
| ModelService.GetModelInfo | src/services/model.py:40-64 | information is found exactly for supported ids |
| ModelService.GetSupportedModels | src/services/model.py:78-85 | the list holds the four supported ids, each once |
| ModelService.GetBackendModelName | src/services/model.py:87-108 | every alias is served by the model the manager loads by default |
| ModelService.OneBackendForAll | src/services/model.py:87-108 | the alias makes no difference to the backend |
| ModelService.ValidateModelId | src/services/model.py:110-125 | every id is accepted |
| ModelService.UnknownModelAccepted | src/services/model.py:110-125 | an id outside the catalogue passes both the service and the request validation, and reaches the same backend model |
| RateLimiter.Initial | src/api/rate_limiter.py:18-31 | a new limiter has no history for any client |
| RateLimiter.Above | src/api/rate_limiter.py:36-39 | pruning keeps exactly the timestamps newer than the cutoff |
| RateLimiter.AboveTwice | src/api/rate_limiter.py:33-39 | pruning with an earlier cutoff and then a later one is the same as pruning with the later one |
| RateLimiter.CleanOldRequests | src/api/rate_limiter.py:33-39 | the loop keeps exactly the requests of the last 60 seconds, in order |
| RateLimiter.IsAllowed | src/api/rate_limiter.py:41-69 | a request is allowed exactly when there are fewer than `burst_size` requests in the last second and fewer than `requests_per_minute` in the last minute; the client's history is pruned and extended by exactly the allowed request, and other clients are untouched |
| RateLimiter.Trunc | src/api/rate_limiter.py:88 | `int()` truncates toward zero |
| RateLimiter.Earliest | src/api/rate_limiter.py:87 | `min` is an element no later than any other |
| RateLimiter.GetRetryAfter | src/api/rate_limiter.py:71-90 | the retry time prunes the history, and is 0 when nothing recent remains |
| RateLimiter.RetryAfterMeaning | src/api/rate_limiter.py:86-90 | the advised wait is at most 60 seconds, and after it plus one second the oldest recent request has left the window |
| RateLimiter.RetryFreesSlot | src/api/rate_limiter.py:71-90 | waiting the advised time plus a second removes at least one request from a window that holds only recent requests |
| RateLimiter.WaitingFreesSlot | src/api/rate_limiter.py:119-120 | a refused client with a full minute window has fewer than the limit left after waiting the advertised time |
| RateLimiter.FullWindowRefused | src/api/rate_limiter.py:64-65 | a client whose minute window is full is refused and its window stays full |
| RateLimiter.WindowRespected | src/api/rate_limiter.py:31-69 | over any non-decreasing sequence of requests the kept history is the admitted requests of the last minute, and never exceeds either limit |
| RateLimiter.AdmittedWithinLimits | src/api/rate_limiter.py:41-69 | no minute ever admits more than `requests_per_minute` and no second more than `burst_size` |
| RateLimiter.ClientId | src/api/rate_limiter.py:110-116 | the client is keyed by its Authorization header, then by its host, then as "anonymous" |
| RateLimiter.Middleware | src/api/rate_limiter.py:104-142 | the paths "/", "/health", "/docs" and "/openapi.json" bypass the limiter; otherwise the request passes exactly when the limiter allows it, a refusal only prunes that client's history, other clients are untouched, and a refusal advertises the wait that `get_retry_after` computes on the pruned history |
| RateLimiter.AdvertisedWaitFreesSlot | src/api/rate_limiter.py:118-139 | a client refused for a full minute window has a free slot once the `Retry-After` wait of the 429 and one more second have passed |
| RateLimiter.RetryAfterHeader | src/api/rate_limiter.py:139 | the header is the decimal digits of the retry seconds |
| RateLimiter.KeysLimitedSeparately | src/api/rate_limiter.py:110-119 | a request under one API key leaves every other key's history unchanged |
| RateLimiter.TranscriptionLimiter | src/api/rate_limiter.py:146-149 | the transcription limiter allows ten times the concurrency per minute with a burst of the concurrency |
| RateLimiter.TranscriptionLimiterSane | src/api/rate_limiter.py:146-154 | for valid settings the burst is positive and no larger than the minute limit; the defaults give 100/10 and the API limiter is 600/20 |
| Config.ValidateHost | src/config.py:94-103 | a host is accepted exactly when it is one of the listed hosts or starts with "192.168." or "10.", and is kept as given |
| Config.ValidateLogLevel | src/config.py:105-113 | a level is accepted in any case exactly when its upper-case form is a known level, and is stored upper-cased |
| Config.ValidateLogFormat | src/config.py:115-123 | a format is accepted in any case exactly when its lower-case form is "json" or "text", and is stored lower-cased |
| Config.LogValidatorsNormalise | src/config.py:105-123 | the log validators ignore case and accept their own output unchanged |
| Config.SettingsErrors | src/config.py:19-92 | settings are free of errors exactly when host, port range, GPU index, file size, concurrency, level and format are all valid |
| Config.ValidateSettings | src/config.py:9-123 | accepted settings have a port in 1 to 65535, a positive size and concurrency, and a normalised level and format; rejected ones name at least one field |
| Config.DefaultsValid | src/config.py:19-92 | the defaults validate unchanged and the upload limit is 25 MiB |
| Config.CudaVisibleDevices | src/config.py:125-130 | the variable is set exactly when a GPU is configured, and then holds the device index in plain decimal |
| Routes.ToRaw | src/api/routes/transcription.py:146-157 | every form field is passed to the request model, so an optional field left empty arrives as null, while model, response format and stream always arrive with their form defaults |
| Routes.RefusalStatusAsWritten | src/api/routes/transcription.py:155-171 | pydantic's own errors are answered 400; a refusal by a field validator is answered 500, which is not the status the exception carries |
| Routes.RefusalStatus | src/api/routes/transcription.py:155-171 | with the corrected mapping, a field validator's refusal is answered with the status its exception carries, and pydantic's own errors with 400 |
| Routes.UnsupportedAnswered500 | src/api/routes/transcription.py:155-158 | as written, every form refused by a field validator is answered 500 although its exception carries 400 |
| Routes.EveryRefusalAnswers400 | src/api/routes/transcription.py:155-171 | with the corrected mapping, every refused form is answered 400 |
| Routes.FrenchCounterexample | tests/integration/test_api_routes.py:71-82 | the French form is refused by the language validator; as written it is answered 500, corrected 400 |
| Routes.OtherTestFormsRefused | tests/integration/test_api_routes.py:84-123 | the "text" format, streaming from gpt-4o-transcribe and word timestamps are each refused by a field validator; as written they are answered 500, corrected 400 |
| Dependencies.VerifyApiKey | src/api/dependencies.py:8-31 | no key for a missing or empty header; after a case-sensitive "Bearer " the rest is the key; otherwise the header itself |
| Dependencies.BearerRoundTrip | src/api/dependencies.py:27-28 | "Bearer " followed by a key reads back as that key, with the prefix stripped once |
| Dependencies.PlainKeyKept | src/api/dependencies.py:30-31 | a header without the prefix is the key, and adding the prefix reads back the same key |
| Dependencies.KeyLength | src/api/dependencies.py:23-31 | the key is the header less seven characters when prefixed, otherwise as long as the header |
| Dependencies.RequestIdInErrorBody | src/api/routes/transcription.py:155-215 | an error body shows the request id exactly when the header was sent and non-empty |

## Left out

- Logging, metrics, `asyncio` scheduling, the locks, and task cancellation are not modelled. `request_id` arguments that only reach log lines are dropped.
- The concurrency of `load_model`, and the race between the loaded-check and `transcribe`, are not modelled. Each call is one atomic step.
- ffprobe, ffmpeg, NeMo, the model loader, the file write and the existence check are oracles: each run is a parameter giving its outcome.
- `os.urandom` is a hex `token` parameter. `time.time()` is a `now` parameter.
- Validators.LimitLength: the code promises to keep the extension, but an extension of 255 or more characters cannot fit. The corrected limit cuts such an extension to its first 254 characters. So Validators.SanitizeKeepsExtension and Validators.SanitizeKeepsFinalExtension are stated only for extensions shorter than 255 characters. The services use the limit as written.
- Transcription.NoTemporaryFileLeaks: files that a failed write or a failed ffmpeg run created are not promised removed, because the code never cleans them. They are recorded as stranded, and Transcription.StrandedFilesOutliveRequest states what happens to them.
- Transcription.EveryCreatedFileCleanedOnce: "created" means saved by a successful write or produced by a successful conversion. Partial files of failed steps are stranded and are not cleaned, as in the code.
- Validators.ValidateFileSize: the error message formats the sizes in MB as floats. Only the threshold and the error kind are stated.
- Exceptions.Str: Python's `repr` of a list item is modelled only as far as the choice of quote character. Escaping of backslashes, control characters, and of a quote when both kinds appear is not modelled.
- AudioProcessor.SaveUploadedFile: file contents are not modelled, so a token that collides with an existing upload simply overwrites it, as `open(..., "wb")` does; the saved path is not promised to be new.
- Text.Lower, Text.Upper and Text.IsSpace cover ASCII only. Python's Unicode case mapping and `\s` are not modelled.
- Paths.Suffix: POSIX paths only. A name ending in a dot has no suffix, as in `pathlib` up to Python 3.13.
- AudioService.GetSupportedFormats and ModelService.GetSupportedModels fix one order for a Python set, whose iteration order is unspecified.
- RateLimiter: times are unbounded reals. Float rounding of `time.time()` is not modelled.
- RateLimiter.Middleware: the middleware reads the clock twice. Both reads are taken as one instant. The text of the 429 body and `call_next` are not modelled; the `Retry-After` value is.
- RateLimiter.WindowRespected and RateLimiter.AdmittedWithinLimits assume non-decreasing request times and a client with no history.
- RateLimiter.WaitingFreesSlot, RateLimiter.AdvertisedWaitFreesSlot and RateLimiter.RetryAfterMeaning require that no recorded request lies in the future.
- CircuitBreaker: times are integers. Whether a failure is of the expected exception class is a flag on each run.
- Requests: pydantic's coercion of non-string values is not modelled, beyond a null model. `chunking_strategy` is a string, not a dict. `prompt` and `include` are accepted and ignored, as in the code.
- Config: reading the environment and `.env` is not modelled, and neither is type coercion. Fields other than those with validators or bounds are kept as given.
- ModelManager: device selection, memory release on unload and the warmup fixtures' contents are not modelled. The warmup files are a set of existing paths.
- `handle_request_error` is not modelled, because it only logs and combines `get_status_code` with `format_error_response`. Of the routes only the request-validation stage of the transcription route is modelled. The rest of the routes, `middleware.py`, `monitoring.py` and `main.py` are HTTP wiring outside this model.
- Routes: the JSON parsing of `timestamp_granularities` and `include` is not modelled; the form carries the parsed lists. The missing-filename answer and the response body of a refusal are not modelled.
- The transcription trace is an ordinary return value that records events. The real service returns only the response.

## Findings

| source | as written | input that shows it | evidently intended | confidence | as-written member | corrected member |
|---|---|---|---|---|---|---|
| src/utils/validators.py:83-88 | `max_name_length = 255 - len(ext) - 1` goes negative for an extension of 255 or more characters, and `name[:negative]` then keeps characters instead of none | "." followed by 255 letters sanitises to a 256-character name | the name never exceeds 255 characters, as tests/unit/test_validators.py:108-113 expects | not executed | Validators.AsWrittenBoundCounterexample | Validators.SanitizeFilename |
| src/core/audio_processor.py:241-249 | `save_uploaded_file` does not remove the file when the write fails after `open` created it, and the caller saves before its `try` (src/services/transcription.py:77-85), so the `finally` cleanup never sees it | a write that raises after `aiofiles.open` created the upload file | no temporary file outlives the request | not executed | Transcription.PartialUploadLeaks | Transcription.DiscardingLeavesNothing |
| src/core/audio_processor.py:152-173 | ffmpeg runs with `-y` into the temporary directory, and on a non-zero exit the output it created is not removed; `processed_file_path` is still unset, so `_cleanup_files` removes only the upload (src/services/transcription.py:88-128) | an upload that needs conversion and an ffmpeg run that writes part of its output and exits 1 | no temporary file outlives the request | not executed | Transcription.PartialConversionLeaks | Transcription.DiscardingLeavesNothing |
| src/core/error_handler.py:234 | an open breaker raises `ModelNotLoadedError("...")`, but that class's constructor takes no message, so a TypeError escapes and the client gets 500 "internal_error" | a breaker opened at time 100 with timeout 60, called at time 130 | the rejection reaches the client as 503 "model_not_loaded" | not executed | CircuitBreaker.RejectionCounterexample | CircuitBreaker.RejectionStatus |
| src/api/routes/transcription.py:155-158 | a form refused by a field validator raises `UnsupportedParameterError`, which carries 400, but the route answers `get_status_code(e)`, and that ladder (src/core/error_handler.py:100-111) has no branch for the class and gives 500 | the form of tests/integration/test_api_routes.py:71-82 with language "fr" | the refusal is answered 400, as the exception carries and tests/integration/test_api_routes.py:71-123 expect | not executed | Routes.FrenchCounterexample | Routes.EveryRefusalAnswers400 |

=== FILE: audio_processor.dfy ===
/** Audio validation, the conversion decision, the converted and uploaded
    paths, and the temp-file cleanup guard (src/core/audio_processor.py).

    ffprobe, ffmpeg, the file write and `Path.exists()` are oracles: each
    call takes the outcome the external tool would produce. The file system
    is the set of existing files plus the files whose deletion fails. */
module AudioProcessor {
  import opened Wrappers
  import opened Text
  import opened Paths
  import opened Exceptions

  const SupportedFormats: set<string> :=
    {"flac", "mp3", "mp4", "mpeg", "mpga", "m4a", "ogg", "wav", "webm"}

  /** `', '.join(sorted(SUPPORTED_FORMATS))`, as quoted in error messages. */
  const FormatList: string := "flac, m4a, mp3, mp4, mpeg, mpga, ogg, wav, webm"

  const TargetSampleRate: int := 16000
  const TargetChannels: int := 1
  const TargetFormat: string := "wav"

  /** The processor only remembers its temporary directory. */
  datatype Processor = Processor(tempDir: string)

  /** The existing files, and those whose `unlink` would raise. */
  datatype Disk = Disk(files: set<Path>, undeletable: set<Path>)

  datatype AudioMetadata = AudioMetadata(
    sampleRate: int, channels: int, codec: string, duration: real, bitRate: int)

  /** The first audio stream as ffprobe reports it; absent keys are `None`. */
  datatype StreamInfo = StreamInfo(
    sampleRate: Option<int>, channels: Option<int>, codec: Option<string>,
    duration: Option<real>, bitRate: Option<int>)

  /** What running ffprobe gives: an exit code, stderr and the parsed
      streams, or an exception (spawn failure, bad JSON, a non-numeric field). */
  datatype ProbeRun =
    | ProbeExited(returnCode: int, stderr: string, streams: seq<StreamInfo>)
    | ProbeRaised(message: string)

  /** What running ffmpeg gives: an exit code and stderr, or an exception
      (a spawn failure, or undecodable stderr after the run). `partial` says
      whether a failed run had already created its output file: with `-y`
      ffmpeg opens the output before it decodes the input, and nothing
      removes what a failed run wrote. It does not matter on a zero exit. */
  datatype FfmpegRun =
    | FfmpegExited(returnCode: int, stderr: string, partial: bool)
    | FfmpegRaised(message: string, partial: bool)

  /** Whether the output file exists after the run. */
  predicate LeavesOutput(run: FfmpegRun) {
    (run.FfmpegExited? && run.returnCode == 0) || run.partial
  }

  /** What writing the upload gives. A failure carries whether `open(..., "wb")`
      had already created the file: it has when the write itself fails, it
      has not when the open does. */
  datatype WriteRun = Written | WriteRaised(message: string, created: bool)

  /** The disk with `p` added when `created` holds. */
  function AddIf(disk: Disk, p: Path, created: bool): (d: Disk)
    ensures d.undeletable == disk.undeletable
    ensures created ==> d.files == disk.files + {p}
    ensures !created || p in disk.files ==> d == disk
  {
    if created then disk.(files := disk.files + {p}) else disk
  }

  /** `file_path.suffix.lower().lstrip(".")`. */
  function ExtensionOf(p: Path): string {
    NameExtension(p.name)
  }

  /** `Path(name).suffix.lower().lstrip('.')`: the final suffix of a name,
      after its dot, in lower case, or "" when the name has none. */
  function NameExtension(name: string): (e: string)
    ensures e == "" <==> Suffix(name) == ""
    ensures e != "" ==> e == Lower(Suffix(name)[1..])
    ensures e != "" ==>
      && |name| > |e| + 1
      && name[|name| - |e| - 1] == '.'
      && '.' !in name[|name| - |e|..]
      && Lower(name[|name| - |e|..]) == e
  {
    var suffix := Suffix(name);
    var l := Lower(suffix);
    if suffix == "" then
      LStrip(l, '.')
    else
      var rest := suffix[1..];
      assert l[1..] == Lower(rest);
      assert l[1] == LowerChar(suffix[1]) && suffix[1] != '.';
      assert LStrip(l, '.') == Lower(rest);
      assert name[|name| - |suffix|..] == suffix;
      assert name[|name| - |rest|..] == rest;
      LStrip(l, '.')
  }

  const UnsupportedPrefix: string := "Unsupported file format: "

  /** The message for an extension outside the supported formats. */
  function UnsupportedMessage(ext: string): (m: string)
    ensures StartsWith(m, UnsupportedPrefix)
  {
    var tail := ext + ". Supported formats: " + FormatList;
    assert (UnsupportedPrefix + tail)[..|UnsupportedPrefix|] == UnsupportedPrefix;
    UnsupportedPrefix + tail
  }

  /** `stderr.decode().strip() if stderr else "Unknown error"`. */
  function StderrText(stderr: string): string {
    if stderr == "" then "Unknown error" else Strip(stderr)
  }

  /** The metadata dictionary built from the first stream; absent values
      default to 0 (and the codec to "unknown"). */
  function MetadataOf(s: StreamInfo): (m: AudioMetadata)
    ensures m.sampleRate == s.sampleRate.GetOr(0) && m.channels == s.channels.GetOr(0)
  {
    AudioMetadata(
      s.sampleRate.GetOr(0), s.channels.GetOr(0), s.codec.GetOr("unknown"),
      s.duration.GetOr(0.0), s.bitRate.GetOr(0))
  }

  /** `validate_audio_file`. A failing `exists()` escapes untyped (it runs
      before the `try`); every other failure is an `AudioValidationError`. */
  function ValidateAudioFile(path: Path, disk: Disk, statError: Option<string>, probe: ProbeRun)
    : (r: Result<AudioMetadata, Failure>)
    ensures r.Err? && !r.error.Typed? ==> statError.Some? && r.error == Untyped("OSError", statError.value)
    ensures r.Err? && r.error.Typed? ==> r.error.error.AudioValidationError?
    ensures statError.None? && path !in disk.files ==>
      r == Err(Typed(ValidationError("File not found: " + PathStr(path))))
    ensures statError.None? && path in disk.files && ExtensionOf(path) !in SupportedFormats ==>
      r.Err? && r.error.Typed? && StartsWith(Message(r.error.error), UnsupportedPrefix)
    ensures r.Ok? <==>
      && statError.None? && path in disk.files && ExtensionOf(path) in SupportedFormats
      && probe.ProbeExited? && probe.returnCode == 0 && |probe.streams| > 0
    ensures r.Ok? ==> r.value == MetadataOf(probe.streams[0])
    ensures statError.None? && path in disk.files && ExtensionOf(path) in SupportedFormats ==>
      && (probe.ProbeExited? && probe.returnCode != 0 ==>
            r == Err(Typed(ValidationError("Invalid audio file: " + StderrText(probe.stderr)))))
      && (probe.ProbeExited? && probe.returnCode == 0 && |probe.streams| == 0 ==>
            r == Err(Typed(ValidationError("No audio stream found in file"))))
      && (probe.ProbeRaised? ==>
            r == Err(Typed(ValidationError("Failed to validate audio file: " + probe.message))))
  {
    if statError.Some? then Err(Untyped("OSError", statError.value))
    else if path !in disk.files then Err(Typed(ValidationError("File not found: " + PathStr(path))))
    else if ExtensionOf(path) !in SupportedFormats then
      Err(Typed(ValidationError(UnsupportedMessage(ExtensionOf(path)))))
    else
      match probe
      case ProbeRaised(m) => Err(Typed(ValidationError("Failed to validate audio file: " + m)))
      case ProbeExited(code, stderr, streams) =>
        if code != 0 then Err(Typed(ValidationError("Invalid audio file: " + StderrText(stderr))))
        else if |streams| == 0 then Err(Typed(ValidationError("No audio stream found in file")))
        else Ok(MetadataOf(streams[0]))
  }

  /** A missing file or an unsupported extension is reported before ffprobe
      runs: the outcome is the same whatever the probe would have said. */
  lemma ProbeNotConsulted(path: Path, disk: Disk, p1: ProbeRun, p2: ProbeRun)
    requires path !in disk.files || ExtensionOf(path) !in SupportedFormats
    ensures ValidateAudioFile(path, disk, None, p1) == ValidateAudioFile(path, disk, None, p2)
    ensures ValidateAudioFile(path, disk, None, p1).Err?
  {
  }

  /** `needs_conversion`: only a .wav or .flac file (any case) already at
      16 kHz mono is left alone. */
  function NeedsConversion(path: Path, meta: AudioMetadata): bool {
    !(Lower(Suffix(path.name)) in [".wav", ".flac"]
      && meta.sampleRate == TargetSampleRate
      && meta.channels == TargetChannels)
  }

  /** The default output of `convert_audio`: `temp_dir / (stem + "_converted.wav")`. */
  function ConvertedPath(proc: Processor, input: Path): (p: Path)
    ensures p.parent == proc.tempDir
    ensures p != input
    ensures Suffix(p.name) == ".wav"
  {
    var stem := Stem(input.name);
    var name := stem + "_converted." + TargetFormat;
    ConvertedNameSuffix(stem);
    assert |name| == |stem| + 14;
    assert |input.name| == |stem| + |Suffix(input.name)|;
    Path(proc.tempDir, name)
  }

  lemma ConvertedNameSuffix(stem: string)
    ensures Suffix(stem + "_converted." + TargetFormat) == ".wav"
  {
    var base := stem + "_converted";
    assert base != "" && "wav" != "" && '.' !in "wav";
    SuffixOfJoin(base, "wav");
    assert stem + "_converted." + TargetFormat == base + "." + "wav";
  }

  /** `convert_audio`: ffmpeg writes the output (overwriting it) on a zero
      exit; any other outcome is an `AudioProcessingError`, and the output a
      failed run had begun stays where it is. */
  function ConvertAudio(proc: Processor, input: Path, output: Option<Path>, disk: Disk, run: FfmpegRun)
    : (r: (Result<Path, Failure>, Disk))
    ensures r.0.Ok? <==> run.FfmpegExited? && run.returnCode == 0
    ensures r.0.Ok? ==> r.0.value == output.GetOr(ConvertedPath(proc, input))
    ensures r.0.Ok? ==> r.1 == disk.(files := disk.files + {r.0.value})
    ensures r.0.Err? ==> r.0.error.Typed? && r.0.error.error.AudioProcessingError?
    ensures r.0.Err? ==> r.1 == AddIf(disk, output.GetOr(ConvertedPath(proc, input)), run.partial)
  {
    var out := output.GetOr(ConvertedPath(proc, input));
    match run
    case FfmpegRaised(m, partial) =>
      (Err(Typed(ProcessingError("Failed to convert audio: " + m))), AddIf(disk, out, partial))
    case FfmpegExited(code, stderr, partial) =>
      if code != 0 then
        (Err(Typed(ProcessingError("Audio conversion failed: " + StderrText(stderr)))), AddIf(disk, out, partial))
      else (Ok(out), disk.(files := disk.files + {out}))
  }

  /** `process_audio_file`: returns `(path, False)` when no conversion is
      needed and `(converted path, True)` otherwise. */
  function ProcessAudioFile(
    proc: Processor, path: Path, disk: Disk, statError: Option<string>, probe: ProbeRun, ffmpeg: FfmpegRun)
    : (r: (Result<(Path, bool), Failure>, Disk))
    ensures ValidateAudioFile(path, disk, statError, probe).Err? ==>
      r == (Err(ValidateAudioFile(path, disk, statError, probe).error), disk)
    ensures r.0.Ok? ==> ValidateAudioFile(path, disk, statError, probe).Ok?
    ensures r.0.Ok? ==>
      r.0.value.1 == NeedsConversion(path, ValidateAudioFile(path, disk, statError, probe).value)
    ensures r.0.Ok? && !r.0.value.1 ==> r.0.value.0 == path && r.1 == disk
    ensures r.0.Ok? && r.0.value.1 ==>
      && r.0.value.0 == ConvertedPath(proc, path)
      && r.1 == disk.(files := disk.files + {r.0.value.0})
    ensures r.0.Err? ==>
      r.1 == AddIf(disk, ConvertedPath(proc, path),
                   ValidateAudioFile(path, disk, statError, probe).Ok?
                   && NeedsConversion(path, ValidateAudioFile(path, disk, statError, probe).value)
                   && ffmpeg.partial)
    ensures r.0.Err? ==> r.1 == disk || r.1 == disk.(files := disk.files + {ConvertedPath(proc, path)})
  {
    match ValidateAudioFile(path, disk, statError, probe)
    case Err(f) => (Err(f), disk)
    case Ok(meta) =>
      if NeedsConversion(path, meta) then
        var (c, d) := ConvertAudio(proc, path, None, disk, ffmpeg);
        match c
        case Err(f) => (Err(f), d)
        case Ok(p) => (Ok((p, true)), d)
      else (Ok((path, false)), disk)
  }

  /** `cleanup_temp_file`: deletes an existing file only when it sits
      directly in the temporary directory; a failed deletion is swallowed,
      so the operation has no error outcome. */
  function CleanupTempFile(proc: Processor, path: Path, disk: Disk): (d: Disk)
    ensures d.undeletable == disk.undeletable
    ensures path.parent != proc.tempDir ==> d == disk
    ensures d.files == disk.files - {path} || d.files == disk.files
    ensures path in disk.files && path.parent == proc.tempDir && path !in disk.undeletable ==>
      path !in d.files
    ensures path !in d.files || path in disk.undeletable || path.parent != proc.tempDir
    ensures path in disk.undeletable || path !in disk.files ==> d == disk
  {
    if path in disk.files && path.parent == proc.tempDir && path !in disk.undeletable then
      disk.(files := disk.files - {path})
    else disk
  }

  /** Cleaning the same path twice is the same as cleaning it once. */
  lemma CleanupIdempotent(proc: Processor, path: Path, disk: Disk)
    ensures CleanupTempFile(proc, path, CleanupTempFile(proc, path, disk)) == CleanupTempFile(proc, path, disk)
  {
  }

  /** 32 lower-case hex digits, as `os.urandom(16).hex()` produces. */
  predicate IsHexToken(token: string) {
    |token| == 32 && forall i :: 0 <= i < |token| ==> IsDigit(token[i]) || 'a' <= token[i] <= 'f'
  }

  function UploadPath(proc: Processor, filename: string, token: string): Path {
    Path(proc.tempDir, token + "_" + BaseName(filename))
  }

  /** `save_uploaded_file`: writes to `temp_dir / (token + "_" + name)`;
      any write failure becomes an `AudioProcessingError`, and a file the
      failed write had created is left in place. */
  function SaveUploadedFile(proc: Processor, filename: string, token: string, write: WriteRun, disk: Disk)
    : (r: (Result<Path, Failure>, Disk))
    requires IsHexToken(token)
    ensures r.0.Ok? <==> write.Written?
    ensures r.0.Ok? ==>
      && r.0.value.parent == proc.tempDir
      && r.0.value.name == token + "_" + BaseName(filename)
      && '/' !in r.0.value.name
      && r.1 == disk.(files := disk.files + {r.0.value})
    ensures r.0.Err? ==> r.0.error.Typed? && r.0.error.error.AudioProcessingError?
    ensures write.WriteRaised? ==>
      r.0 == Err(Typed(ProcessingError("Failed to save uploaded file: " + write.message)))
    ensures r.0.Err? ==> r.1 == AddIf(disk, UploadPath(proc, filename, token), write.created)
  {
    var p := UploadPath(proc, filename, token);
    assert '/' !in token + "_";
    match write
    case Written => (Ok(p), disk.(files := disk.files + {p}))
    case WriteRaised(m, created) =>
      (Err(Typed(ProcessingError("Failed to save uploaded file: " + m))), AddIf(disk, p, created))
  }

  /** The converter's own output (a .wav at 16 kHz mono) needs no further
      conversion. */
  lemma ConvertedOutputIsTarget(proc: Processor, input: Path, meta: AudioMetadata)
    requires meta.sampleRate == TargetSampleRate && meta.channels == TargetChannels
    ensures !NeedsConversion(ConvertedPath(proc, input), meta)
  {
    WavIsLower();
  }

  lemma WavIsLower()
    ensures Lower(".wav") == ".wav"
  {
    var w := ".wav";
    assert forall i :: 0 <= i < |w| ==> LowerChar(w[i]) == w[i];
  }

  /** Metadata lacking a sample rate or a channel count always needs
      conversion, since the defaults are 0. */
  lemma MissingFieldsNeedConversion(path: Path, s: StreamInfo)
    requires s.sampleRate.None? || s.channels.None?
    ensures NeedsConversion(path, MetadataOf(s))
  {
  }

  /** Exactly .wav and .flac in any case, at 16 kHz mono, skip conversion. */
  lemma NeedsConversionCases(path: Path, meta: AudioMetadata)
    ensures !NeedsConversion(path, meta) <==>
      ExtensionOf(path) in {"wav", "flac"} && meta.sampleRate == 16000 && meta.channels == 1
  {
    var s := Lower(Suffix(path.name));
    var e := ExtensionOf(path);
    if e != "" {
      LowerSuffixIsDotExtension(path.name);
    }
    DottedTarget(s, e);
  }

  /** A dot and an extension is one of the two target suffixes exactly when
      the extension is one of the two target formats. */
  lemma DottedTarget(s: string, e: string)
    requires (e == "" && s == "") || (e != "" && s == "." + e)
    ensures s in [".wav", ".flac"] <==> e in {"wav", "flac"}
  {
    if e != "" {
      assert s[1..] == e;
      if e == "wav" { assert s == ".wav"; }
      if e == "flac" { assert s == ".flac"; }
    }
  }

  /** The lower-cased suffix of a name with an extension is a dot and that
      extension. */
  lemma LowerSuffixIsDotExtension(name: string)
    requires NameExtension(name) != ""
    ensures Lower(Suffix(name)) == "." + NameExtension(name)
  {
    var suffix := Suffix(name);
    LowerAfterDot(suffix);
  }
}

=== FILE: audio_service.dfy ===
/** The audio service of src/services/audio.py: a thin coordinator over the
    validators and the audio processor. Logging and the `request_id`
    argument (used only in log lines) are not modelled. */
module AudioService {
  import opened Wrappers
  import opened Text
  import opened Paths
  import opened Exceptions
  import opened AudioProcessor
  import opened Validators
  import MM = ModelManager
  import Transcription

  /** The service's own copy of the supported formats. */
  const ServiceFormats: set<string> :=
    {"flac", "mp3", "mp4", "mpeg", "mpga", "m4a", "ogg", "wav", "webm"}

  /** The service's list and the processor's are the same nine formats. */
  lemma FormatsAgree()
    ensures ServiceFormats == SupportedFormats
  {
  }

  /** `is_format_supported`: the extension (without its dot) in any case. */
  function IsFormatSupported(extension: string): bool {
    Lower(extension) in ServiceFormats
  }

  /** `is_format_supported` gives the same answer as the upload validator
      gives for a file with that extension, and for a supported extension
      the validator reports it in lower case. */
  lemma {:induction false} FormatCheckAgreesWithValidator(stem: string, v: string)
    requires stem != "" && '/' !in stem
    requires v != "" && '/' !in v && '.' !in v
    ensures IsFormatSupported(v) <==> ValidateFileExtension(stem + "." + v).Ok?
    ensures IsFormatSupported(v) ==> ValidateFileExtension(stem + "." + v) == Ok(Lower(v))
  {
    var name := stem + "." + v;
    DotSplit(stem, v);
    assert BaseName(name) == name;
    assert Suffix(name)[1..] == v;
    AcceptsExactlySupported(name);
    FormatsAgree();
  }

  /** `get_supported_formats`: the nine formats, each once. Python lists a
      set in an unspecified order; this model fixes one. */
  function GetSupportedFormats(): (r: seq<string>)
    ensures |r| == 9
    ensures forall i, j :: 0 <= i < j < |r| ==> r[i] != r[j]
    ensures forall f :: f in r <==> f in ServiceFormats
  {
    ["flac", "m4a", "mp3", "mp4", "mpeg", "mpga", "ogg", "wav", "webm"]
  }

  /** `validate_and_save_file`: the name is sanitised (by the code as
      written), then its extension and then the size are checked, then the
      upload is written. The size limit is the configured maximum; the
      upload is given by its size. A failed write may leave the file it had
      opened. */
  function ValidateAndSaveFile(
    proc: Processor, size: nat, filename: string, maxSize: int, token: string, write: WriteRun, disk: Disk)
    : (r: (Result<Path, Failure>, Disk))
    requires IsHexToken(token)
    ensures r.0.Ok? <==>
      ValidateFileExtension(SanitizeFilenameAsWritten(filename)).Ok? && size <= maxSize && write.Written?
    ensures r.0.Ok? ==>
      && r.0.value == UploadPath(proc, SanitizeFilenameAsWritten(filename), token)
      && r.1 == disk.(files := disk.files + {r.0.value})
    ensures r.0.Err? ==> r.0.error.Typed?
    ensures r.0.Err? && (ValidateFileExtension(SanitizeFilenameAsWritten(filename)).Err? || size > maxSize) ==>
      r.0.error.error.AudioValidationError? && r.1 == disk
    ensures r.0.Err? && !(ValidateFileExtension(SanitizeFilenameAsWritten(filename)).Err? || size > maxSize) ==>
      && r.0.error.error.AudioProcessingError?
      && r.1 == AddIf(disk, UploadPath(proc, SanitizeFilenameAsWritten(filename), token), write.created)
  {
    var safe := SanitizeFilenameAsWritten(filename);
    match ValidateFileExtension(safe)
    case Err(e) => (Err(Typed(e)), disk)
    case Ok(_) =>
      match ValidateFileSize(size, maxSize)
      case Err(e) => (Err(Typed(e)), disk)
      case Ok(_) => SaveUploadedFile(proc, safe, token, write, disk)
  }

  /** The upload path keeps the extension of the name it was given: the
      token and underscore in front hold no dot. */
  lemma UploadKeepsExtension(proc: Processor, safe: string, token: string)
    requires IsHexToken(token) && ValidateFileExtension(safe).Ok?
    ensures ExtensionOf(UploadPath(proc, safe, token)) == ValidateFileExtension(safe).value
  {
    var b := BaseName(safe);
    assert NameExtension(b) == ValidateFileExtension(safe).value != "";
    HexTokenHasNoDot(token);
    NameExtensionAfterPrefix(token + "_", b);
  }

  lemma HexTokenHasNoDot(token: string)
    requires IsHexToken(token)
    ensures '.' !in token + "_"
  {
  }

  /** A dot-free prefix leaves a name's extension alone, once it has one. */
  lemma NameExtensionAfterPrefix(p: string, b: string)
    requires '.' !in p && NameExtension(b) != ""
    ensures NameExtension(p + b) == NameExtension(b)
  {
    SuffixAfterPrefix(p, b);
  }

  /** The saved upload keeps the extension that was validated, so the
      later `validate_audio_file` finds it present with a supported
      extension and only ffprobe's verdict decides. */
  lemma SavedUploadReachesProbe(
    proc: Processor, size: nat, filename: string, maxSize: int, token: string, write: WriteRun, disk: Disk,
    probe: ProbeRun)
    requires IsHexToken(token)
    requires ValidateAndSaveFile(proc, size, filename, maxSize, token, write, disk).0.Ok?
    ensures var r := ValidateAndSaveFile(proc, size, filename, maxSize, token, write, disk);
      && ExtensionOf(r.0.value) == ValidateFileExtension(SanitizeFilenameAsWritten(filename)).value
      && (ValidateAudioFile(r.0.value, r.1, None, probe).Ok? <==>
            probe.ProbeExited? && probe.returnCode == 0 && |probe.streams| > 0)
  {
    var safe := SanitizeFilenameAsWritten(filename);
    var r := ValidateAndSaveFile(proc, size, filename, maxSize, token, write, disk);
    UploadKeepsExtension(proc, safe, token);
    AcceptsExactlySupported(safe);
    assert r.0.value in r.1.files && ExtensionOf(r.0.value) in SupportedFormats;
  }

  /** `process_for_transcription`: the processor's result, re-raised
      unchanged. A returned path needs cleaning exactly when it is a new
      file in the temporary directory; a failure leaves the disk alone
      unless ffmpeg began the converted copy. */
  function ProcessForTranscription(
    proc: Processor, path: Path, disk: Disk, statError: Option<string>, probe: ProbeRun, ffmpeg: FfmpegRun)
    : (r: (Result<(Path, bool), Failure>, Disk))
    ensures r.0.Ok? ==> ValidateAudioFile(path, disk, statError, probe).Ok?
    ensures r.0.Ok? && !r.0.value.1 ==> r.0.value.0 == path && r.1 == disk
    ensures r.0.Ok? && r.0.value.1 ==>
      r.0.value.0.parent == proc.tempDir && r.0.value.0 != path && r.1.files == disk.files + {r.0.value.0}
    ensures r.0.Err? ==> r.1.undeletable == disk.undeletable
    ensures r.0.Err? && r.1 != disk ==>
      && ValidateAudioFile(path, disk, statError, probe).Ok? && ffmpeg.partial
      && r.1.files == disk.files + {ConvertedPath(proc, path)}
    ensures r.0.Err? && r.0.error.Typed? ==>
      r.0.error.error.AudioValidationError? || r.0.error.error.AudioProcessingError?
  {
    ProcessAudioFile(proc, path, disk, statError, probe, ffmpeg)
  }

  /** `get_audio_metadata`: the metadata of the first audio stream. */
  function GetAudioMetadata(path: Path, disk: Disk, statError: Option<string>, probe: ProbeRun)
    : (r: Result<AudioMetadata, Failure>)
    ensures r.Ok? <==>
      && statError.None? && path in disk.files && ExtensionOf(path) in SupportedFormats
      && probe.ProbeExited? && probe.returnCode == 0 && |probe.streams| > 0
    ensures r.Ok? ==> r.value == MetadataOf(probe.streams[0])
  {
    ValidateAudioFile(path, disk, statError, probe)
  }

  /** `validate_audio_content`: `True` or the validator's exception; it
      never answers `False`. */
  function ValidateAudioContent(path: Path, disk: Disk, statError: Option<string>, probe: ProbeRun)
    : (r: Result<bool, Failure>)
    ensures r != Ok(false)
    ensures r.Ok? <==> GetAudioMetadata(path, disk, statError, probe).Ok?
    ensures r.Err? ==> r.error == GetAudioMetadata(path, disk, statError, probe).error
  {
    match ValidateAudioFile(path, disk, statError, probe)
    case Ok(_) => Ok(true)
    case Err(f) => Err(f)
  }

  /** `cleanup_file`: the processor's guarded deletion; nothing escapes. */
  function CleanupFile(proc: Processor, path: Path, disk: Disk): (d: Disk)
    ensures d.undeletable == disk.undeletable
    ensures d.files <= disk.files && disk.files - d.files <= {path}
    ensures path.parent != proc.tempDir ==> d == disk
  {
    CleanupTempFile(proc, path, disk)
  }

  /** Saving a new upload and cleaning it up leaves the disk as it was. */
  lemma SaveThenCleanupRestores(
    proc: Processor, size: nat, filename: string, maxSize: int, token: string, write: WriteRun, disk: Disk)
    requires IsHexToken(token)
    requires UploadPath(proc, SanitizeFilenameAsWritten(filename), token) !in disk.files
    requires UploadPath(proc, SanitizeFilenameAsWritten(filename), token) !in disk.undeletable
    ensures var r := ValidateAndSaveFile(proc, size, filename, maxSize, token, write, disk);
      r.0.Ok? ==> CleanupFile(proc, r.0.value, r.1) == disk
  {
    var r := ValidateAndSaveFile(proc, size, filename, maxSize, token, write, disk);
    if r.0.Ok? {
      CleanupUndoesAdd(proc, r.0.value, disk);
    }
  }

  lemma CleanupUndoesAdd(proc: Processor, u: Path, disk: Disk)
    requires u.parent == proc.tempDir && u !in disk.files && u !in disk.undeletable
    ensures CleanupFile(proc, u, disk.(files := disk.files + {u})) == disk
  {
    assert (disk.files + {u}) - {u} == disk.files;
  }

  /** The transcription service performs exactly this validation and save
      first: it gets past it exactly when this succeeds (its first event is
      saving the same path) and otherwise fails with the same error and
      leaves the disk as this leaves it. */
  lemma TranscriptionValidatesLikeService(
    proc: Processor, m: MM.Manager, size: nat, filename: string, maxSize: int,
    env: Transcription.Environment, disk: Disk)
    requires IsHexToken(env.token) && MM.Valid(m)
    ensures var s := ValidateAndSaveFile(proc, size, filename, maxSize, env.token, env.write, disk).0;
      var t := Transcription.TranscribeAudio(proc, m, size, filename, maxSize, env, disk);
      && (s.Ok? <==> t.trace != [] && t.trace[0].Saved?)
      && (s.Ok? ==> t.trace[0] == Transcription.Saved(s.value))
      && (s.Err? ==> t.result.Err? && t.result.error == s.error)
      && (s.Err? ==> t.disk == ValidateAndSaveFile(proc, size, filename, maxSize, env.token, env.write, disk).1)
  {
  }
}

=== FILE: circuit_breaker.dfy ===
/** The circuit breaker of src/core/error_handler.py. Time is an integer
    parameter standing for `time.time()`; the wrapped coroutine is replaced
    by its outcome. */
module CircuitBreaker {
  import opened Wrappers
  import opened Exceptions
  import opened ErrorHandler

  datatype State = Closed | Open | HalfOpen

  datatype Breaker = Breaker(
    threshold: int, timeout: int,
    count: nat, lastFailure: Option<int>, state: State)

  /** A fresh breaker with the given settings (defaults 5 and 60). */
  function Initial(threshold: int, timeout: int): (b: Breaker)
    ensures Valid(b) && b.state == Closed && !ShouldReset(b, 0)
  {
    Breaker(threshold, timeout, 0, None, Closed)
  }

  const DefaultBreaker: Breaker := Initial(5, 60)

  /** The breaker's bookkeeping agrees with its state: it is open or half
      open exactly after enough recorded failures, and a failure time is
      kept exactly while the count is positive. */
  ghost predicate Valid(b: Breaker) {
    && (b.state != Closed ==> b.count >= b.threshold && b.count >= 1)
    && (b.state == Closed ==> b.count == 0 || b.count < b.threshold)
    && (b.count == 0 <==> b.lastFailure.None?)
  }

  /** What the wrapped call does when it is invoked: it returns, or raises
      an exception that is or is not an instance of `expected_exception`. */
  datatype FuncRun<T> = Returned(value: T) | Threw(failure: Failure, expected: bool)

  /** One `call`: the breaker afterwards, the outcome, and whether the
      wrapped function ran at all. */
  datatype Step<T> = Step(breaker: Breaker, outcome: Result<T, Failure>, invoked: bool)

  /** `_should_attempt_reset`: a failure time is recorded, it is truthy (a
      time of 0 counts as absent) and the timeout has elapsed. */
  predicate ShouldReset(b: Breaker, now: int) {
    b.lastFailure.Some? && b.lastFailure.value != 0 && now - b.lastFailure.value >= b.timeout
  }

  /** `_on_success`. */
  function OnSuccess(b: Breaker): (r: Breaker)
    ensures Valid(r) && r.state == Closed && r.count == 0
    ensures r.threshold == b.threshold && r.timeout == b.timeout
  {
    b.(count := 0, state := Closed, lastFailure := None)
  }

  /** `_on_failure`: one more failure, stamped `now`; the circuit opens once
      the count reaches the threshold and otherwise keeps its state. */
  function OnFailure(b: Breaker, now: int): (r: Breaker)
    requires Valid(b)
    ensures Valid(r)
    ensures r.count == b.count + 1 && r.lastFailure == Some(now)
    ensures r.state == Open <==> r.count >= b.threshold || b.state == Open
    ensures r.state == Closed <==> b.state == Closed && r.count < b.threshold
    ensures r.threshold == b.threshold && r.timeout == b.timeout
  {
    var n := b.count + 1;
    b.(count := n, lastFailure := Some(now), state := if n >= b.threshold then Open else b.state)
  }

  /** The part of `call` after the state check: invoke, then record the
      outcome. An unexpected exception propagates without being counted. */
  function Invoke<T>(b: Breaker, now: int, run: FuncRun<T>): (s: Step<T>)
    requires Valid(b)
    ensures Valid(s.breaker) && s.invoked
    ensures run.Returned? ==> s.outcome == Ok(run.value) && s.breaker == OnSuccess(b)
    ensures run.Threw? ==> s.outcome == Err(run.failure)
    ensures run.Threw? && run.expected ==> s.breaker == OnFailure(b, now)
    ensures run.Threw? && !run.expected ==> s.breaker == b
  {
    match run
    case Returned(v) => Step(OnSuccess(b), Ok(v), true)
    case Threw(f, expected) => Step(if expected then OnFailure(b, now) else b, Err(f), true)
  }

  /** The exception the open circuit raises as the source is written:
      `ModelNotLoadedError.__init__` takes no message, so the call
      `ModelNotLoadedError("...")` raises a `TypeError` instead. */
  const ConstructorMismatch: Failure :=
    Untyped("TypeError", "ModelNotLoadedError.__init__() takes 1 positional argument but 2 were given")

  /** `call` as written: an open circuit whose timeout has not elapsed
      rejects without invoking the function, raising the `TypeError`. */
  function CallAsWritten<T>(b: Breaker, now: int, run: FuncRun<T>): (s: Step<T>)
    requires Valid(b)
    ensures Valid(s.breaker)
    ensures b.state == Open && !ShouldReset(b, now) ==>
      s == Step(b, Err(ConstructorMismatch), false)
    ensures !(b.state == Open && !ShouldReset(b, now)) ==> s.invoked
  {
    if b.state == Open then
      if ShouldReset(b, now) then Invoke(b.(state := HalfOpen), now, run)
      else Step(b, Err(ConstructorMismatch), false)
    else Invoke(b, now, run)
  }

  /** `call` as evidently intended: the rejection is a
      `ModelNotLoadedError`, mapped to 503. */
  function Call<T>(b: Breaker, now: int, run: FuncRun<T>): (s: Step<T>)
    requires Valid(b)
    ensures Valid(s.breaker)
    ensures b.state == Open && !ShouldReset(b, now) ==>
      s == Step(b, Err(Typed(ModelNotLoadedError)), false)
    ensures !(b.state == Open && !ShouldReset(b, now)) ==> s.invoked
  {
    if b.state == Open then
      if ShouldReset(b, now) then Invoke(b.(state := HalfOpen), now, run)
      else Step(b, Err(Typed(ModelNotLoadedError)), false)
    else Invoke(b, now, run)
  }

  /** Both versions agree except on the rejection they raise. */
  lemma CallAgreesExceptRejection<T>(b: Breaker, now: int, run: FuncRun<T>)
    requires Valid(b)
    ensures CallAsWritten(b, now, run).breaker == Call(b, now, run).breaker
    ensures CallAsWritten(b, now, run).invoked == Call(b, now, run).invoked
    ensures Call(b, now, run).invoked ==> CallAsWritten(b, now, run) == Call(b, now, run)
  {
  }

  /** The rejection as written reaches the client as a 500 with the generic
      message and `internal_error`; as intended it is a 503 with the
      not-loaded message and `model_not_loaded`. */
  lemma RejectionStatus()
    ensures GetStatusCode(ConstructorMismatch) == 500
    ensures ErrorCode(ConstructorMismatch) == "internal_error"
    ensures GetStatusCode(Typed(ModelNotLoadedError)) == 503
    ensures ErrorCode(Typed(ModelNotLoadedError)) == "model_not_loaded"
  {
  }

  /** A concrete rejection: a breaker opened by its fifth failure at time
      100, called again at time 130, does not invoke the function; as written
      the client sees status 500, as intended 503. */
  lemma RejectionCounterexample()
    ensures var b := Breaker(5, 60, 5, Some(100), Open);
      && Valid(b)
      && !CallAsWritten(b, 130, Returned(0)).invoked
      && GetStatusCode(CallAsWritten(b, 130, Returned(0)).outcome.error) == 500
      && GetStatusCode(Call(b, 130, Returned(0)).outcome.error) == 503
  {
  }

  /** A failure in the half-open state (or any expected failure on an open
      circuit whose timeout elapsed) opens the circuit again, stamped now. */
  lemma HalfOpenFailureReopens<T>(b: Breaker, now: int, f: Failure)
    requires Valid(b) && (b.state == HalfOpen || (b.state == Open && ShouldReset(b, now)))
    ensures var s := Call(b, now, FuncRun<T>.Threw(f, true));
      s.invoked && s.breaker.state == Open && s.breaker.lastFailure == Some(now)
      && s.breaker.count == b.count + 1
  {
  }

  /** An unexpected exception in the half-open state leaves the circuit
      half open, so the next call goes straight through. */
  lemma UnexpectedFailureKeepsHalfOpen<T>(b: Breaker, now: int, later: int, f: Failure, next: FuncRun<T>)
    requires Valid(b) && b.state == Open && ShouldReset(b, now)
    ensures var s := Call(b, now, FuncRun<T>.Threw(f, false));
      s.breaker.state == HalfOpen && Call(s.breaker, later, next).invoked
  {
  }

  /** Any successful invocation closes the circuit and clears the count. */
  lemma SuccessCloses<T>(b: Breaker, now: int, v: T)
    requires Valid(b) && Call(b, now, Returned(v)).invoked
    ensures Call(b, now, Returned(v)).breaker == Breaker(b.threshold, b.timeout, 0, None, Closed)
    ensures Call(b, now, Returned(v)).outcome == Ok(v)
  {
  }

  /** The state after a sequence of calls with their times and outcomes. */
  function Replay<T>(b: Breaker, calls: seq<(int, FuncRun<T>)>): (r: Breaker)
    requires Valid(b)
    ensures Valid(r)
    ensures r.threshold == b.threshold && r.timeout == b.timeout
    decreases |calls|
  {
    if calls == [] then b
    else Replay(Call(b, calls[0].0, calls[0].1).breaker, calls[1..])
  }

  /** `k` expected failures in a row (each stamped with a non-zero time):
      the k-th failure is what opens a fresh breaker. */
  predicate AllExpectedFailures<T>(calls: seq<(int, FuncRun<T>)>) {
    forall i :: 0 <= i < |calls| ==> calls[i].1.Threw? && calls[i].1.expected
  }

  /** From a fresh breaker, `k <= threshold` consecutive expected failures
      are all let through and counted, and the circuit is open exactly when
      `k` reached the threshold. */
  lemma {:induction false} FailuresOpenAtThreshold<T>(b: Breaker, calls: seq<(int, FuncRun<T>)>)
    requires Valid(b) && b.state == Closed && b.threshold >= 1
    requires AllExpectedFailures(calls) && b.count + |calls| <= b.threshold
    ensures Replay(b, calls).count == b.count + |calls|
    ensures Replay(b, calls).state == Open <==> b.count + |calls| == b.threshold
    ensures Replay(b, calls).state != HalfOpen
    decreases |calls|
  {
    if calls != [] {
      var b' := Call(b, calls[0].0, calls[0].1).breaker;
      assert b' == OnFailure(b, calls[0].0);
      if b'.state == Closed {
        assert AllExpectedFailures(calls[1..]) by {
          forall i | 0 <= i < |calls[1..]| ensures calls[1..][i].1.Threw? && calls[1..][i].1.expected {
            assert calls[1..][i] == calls[i + 1];
          }
        }
        FailuresOpenAtThreshold(b', calls[1..]);
      } else {
        assert |calls| == 1;
      }
    }
  }
}

=== FILE: config.dfy ===
/** The settings of src/config.py: defaults, field bounds and the three
    field validators. Reading the environment and `.env` is not modelled;
    the raw values are an input. */
module Config {
  import opened Wrappers
  import opened Text

  datatype Settings = Settings(
    host: string, port: int, gpuDevice: Option<int>,
    modelName: string, modelCacheDir: Option<string>,
    maxAudioFileSize: int, tempDir: Option<string>,
    apiPrefix: string, corsOrigins: seq<string>, maxConcurrentRequests: int,
    logLevel: string, logFormat: string, debug: bool, reload: bool)

  const DefaultModelName: string := "nvidia/parakeet-tdt-0.6b-v2"

  /** 25 MiB. */
  const DefaultMaxAudioFileSize: int := 25 * 1024 * 1024

  const Defaults: Settings := Settings(
    "localhost", 8011, None, DefaultModelName, None, DefaultMaxAudioFileSize, None,
    "/v1", ["*"], 10, "INFO", "json", false, false)

  const ValidHosts: seq<string> := ["localhost", "127.0.0.1", "0.0.0.0"]
  const ValidLevels: seq<string> := ["DEBUG", "INFO", "WARNING", "ERROR", "CRITICAL"]
  const ValidFormats: seq<string> := ["json", "text"]

  /** A listed host, or one that starts like a private-network address. */
  predicate HostAllowed(v: string) {
    v in ValidHosts || StartsWith(v, "192.168.") || StartsWith(v, "10.")
  }

  /** `validate_host`: an allowed host, kept unchanged. */
  function ValidateHost(v: string): (r: Result<string, string>)
    ensures r.Ok? ==> r.value == v
    ensures r.Ok? <==> HostAllowed(v)
  {
    if !HostAllowed(v) then
      Err("Host must be one of ['localhost', '127.0.0.1', '0.0.0.0'] or a local network address")
    else Ok(v)
  }

  predicate LevelAllowed(u: string) { u in ValidLevels }
  predicate FormatAllowed(l: string) { l in ValidFormats }

  /** `validate_log_level`: case-insensitive, stored in upper case. */
  function ValidateLogLevel(v: string): (r: Result<string, string>)
    ensures r.Ok? <==> LevelAllowed(Upper(v))
    ensures r.Ok? ==> r.value == Upper(v)
  {
    var u := Upper(v);
    if !LevelAllowed(u) then
      Err("Log level must be one of ['DEBUG', 'INFO', 'WARNING', 'ERROR', 'CRITICAL']")
    else Ok(u)
  }

  /** `validate_log_format`: case-insensitive, stored in lower case. */
  function ValidateLogFormat(v: string): (r: Result<string, string>)
    ensures r.Ok? <==> FormatAllowed(Lower(v))
    ensures r.Ok? ==> r.value == Lower(v)
  {
    var l := Lower(v);
    if !FormatAllowed(l) then Err("Log format must be one of ['json', 'text']") else Ok(l)
  }

  lemma UpperIgnoresCase(s: string)
    ensures Upper(Lower(s)) == Upper(s) && Upper(Upper(s)) == Upper(s)
  {
    forall i | 0 <= i < |s| ensures Upper(Lower(s))[i] == Upper(s)[i] && Upper(Upper(s))[i] == Upper(s)[i] {
      UpperOfLower(s[i]);
    }
  }

  lemma LowerIgnoresCase(s: string)
    ensures Lower(Upper(s)) == Lower(s) && Lower(Lower(s)) == Lower(s)
  {
    forall i | 0 <= i < |s| ensures Lower(Upper(s))[i] == Lower(s)[i] && Lower(Lower(s))[i] == Lower(s)[i] {
      LowerOfUpper(s[i]);
      UpperOfLower(s[i]);
    }
  }

  /** The level and format validators ignore the case they are given and
      accept their own output unchanged. */
  lemma {:induction false} LogValidatorsNormalise(v: string)
    ensures ValidateLogLevel(Lower(v)) == ValidateLogLevel(v)
    ensures ValidateLogFormat(Upper(v)) == ValidateLogFormat(v)
    ensures ValidateLogLevel(v).Ok? ==> ValidateLogLevel(ValidateLogLevel(v).value) == ValidateLogLevel(v)
    ensures ValidateLogFormat(v).Ok? ==> ValidateLogFormat(ValidateLogFormat(v).value) == ValidateLogFormat(v)
  {
    UpperIgnoresCase(v);
    LowerIgnoresCase(v);
  }

  /** The fields that carry a check. */
  datatype SettingField =
    | HostField | PortField | GpuDeviceField | MaxAudioFileSizeField
    | MaxConcurrentRequestsField | LogLevelField | LogFormatField

  /** The names of the fields whose check fails, in field order. */
  function SettingsErrors(s: Settings): (errors: seq<SettingField>)
    ensures errors == [] <==>
      && HostAllowed(s.host)
      && 1 <= s.port <= 65535
      && (s.gpuDevice.Some? ==> s.gpuDevice.value >= 0)
      && s.maxAudioFileSize > 0
      && s.maxConcurrentRequests > 0
      && LevelAllowed(Upper(s.logLevel))
      && FormatAllowed(Lower(s.logFormat))
  {
    Check(HostAllowed(s.host), HostField)
    + Check(1 <= s.port <= 65535, PortField)
    + Check(s.gpuDevice.Some? ==> s.gpuDevice.value >= 0, GpuDeviceField)
    + Check(s.maxAudioFileSize > 0, MaxAudioFileSizeField)
    + Check(s.maxConcurrentRequests > 0, MaxConcurrentRequestsField)
    + Check(LevelAllowed(Upper(s.logLevel)), LogLevelField)
    + Check(FormatAllowed(Lower(s.logFormat)), LogFormatField)
  }

  /** The error a single field contributes. */
  function Check(ok: bool, field: SettingField): (errors: seq<SettingField>)
    ensures |errors| == 0 <==> ok
  {
    if ok then [] else [field]
  }

  /** `Settings(...)`: every failing field is reported; a validated
      settings object has its host kept and its level and format
      normalised. */
  function ValidateSettings(s: Settings): (r: Result<Settings, seq<SettingField>>)
    ensures r.Err? ==> r.error != []
    ensures r.Ok? <==> SettingsErrors(s) == []
    ensures r.Ok? ==>
      && r.value == s.(logLevel := Upper(s.logLevel), logFormat := Lower(s.logFormat))
      && 1 <= r.value.port <= 65535 && r.value.maxAudioFileSize > 0 && r.value.maxConcurrentRequests > 0
      && LevelAllowed(r.value.logLevel) && FormatAllowed(r.value.logFormat)
  {
    var errors := SettingsErrors(s);
    if errors != [] then Err(errors)
    else Ok(s.(logLevel := ValidateLogLevel(s.logLevel).value, logFormat := ValidateLogFormat(s.logFormat).value))
  }

  /** The defaults validate unchanged. */
  lemma DefaultsValid()
    ensures ValidateSettings(Defaults) == Ok(Defaults)
    ensures Defaults.maxAudioFileSize == 26214400
  {
    DefaultLevelAndFormat();
    assert ValidateHost("localhost").Ok?;
    assert SettingsErrors(Defaults) == [];
  }

  lemma DefaultLevelAndFormat()
    ensures Upper("INFO") == "INFO" && Lower("json") == "json"
  {
    assert Upper("INFO") == "INFO";
    assert Lower("json") == "json";
  }

  /** `cuda_visible_devices`: the device index in decimal, or nothing. */
  function CudaVisibleDevices(s: Settings): (r: Option<string>)
    requires s.gpuDevice.Some? ==> s.gpuDevice.value >= 0
    ensures r.None? <==> s.gpuDevice.None?
    ensures r.Some? ==>
      && |r.value| > 0 && (forall i :: 0 <= i < |r.value| ==> IsDigit(r.value[i]))
      && DecimalValue(r.value) == s.gpuDevice.value
      && (r.value[0] == '0' ==> r.value == "0")
  {
    match s.gpuDevice
    case None => None
    case Some(d) =>
      NatToStringRoundTrip(d);
      Some(NatToString(d))
  }
}

=== FILE: dependencies.dfy ===
/** The request dependencies of src/api/dependencies.py: the API key read
    from the `Authorization` header (never checked against anything) and
    the request id read from `X-Request-ID`. A header that was not sent is
    `None`. */
module Dependencies {
  import opened Wrappers
  import opened Text
  import opened Exceptions
  import opened ErrorHandler

  const BearerPrefix: string := "Bearer "

  /** `verify_api_key`: nothing for a missing or empty header; the rest of
      the header after a case-sensitive `"Bearer "`; otherwise the header
      as sent. */
  function VerifyApiKey(authorization: Option<string>): (key: Option<string>)
    ensures key.None? <==> authorization.None? || authorization.value == ""
    ensures key.Some? && StartsWith(authorization.value, BearerPrefix) ==>
      authorization.value == BearerPrefix + key.value
    ensures key.Some? && !StartsWith(authorization.value, BearerPrefix) ==>
      key.value == authorization.value
  {
    match authorization
    case None => None
    case Some(h) =>
      if h == "" then None
      else if StartsWith(h, BearerPrefix) then
        assert h == h[..7] + h[7..];
        Some(h[7..])
      else Some(h)
  }

  /** Prefixing a key with `"Bearer "` and reading it back gives the key,
      the empty key and a key that itself starts with `"Bearer "` included:
      the prefix is stripped once. */
  lemma BearerRoundTrip(k: string)
    ensures VerifyApiKey(Some(BearerPrefix + k)) == Some(k)
  {
    assert (BearerPrefix + k)[..7] == BearerPrefix;
    assert (BearerPrefix + k)[7..] == k;
  }

  /** A non-empty header without the prefix is the key itself, so reading
      the key of `"Bearer " + key` back gives the same key. */
  lemma {:induction false} PlainKeyKept(h: string)
    requires h != "" && !StartsWith(h, BearerPrefix)
    ensures VerifyApiKey(Some(h)) == Some(h)
    ensures VerifyApiKey(Some(BearerPrefix + h)) == VerifyApiKey(Some(h))
  {
    BearerRoundTrip(h);
  }

  /** The key is never longer than the header and is shorter exactly by the
      prefix when the prefix was present. */
  lemma KeyLength(h: string)
    requires h != ""
    ensures |VerifyApiKey(Some(h)).value| == if StartsWith(h, BearerPrefix) then |h| - 7 else |h|
  {
  }

  /** `get_request_id`: the header value as sent. */
  function GetRequestId(xRequestId: Option<string>): Option<string> {
    xRequestId
  }

  /** The transcription route hands the request id to
      `format_error_response`: it appears in an error body exactly when the
      header was sent and is non-empty. */
  lemma RequestIdInErrorBody(xRequestId: Option<string>, f: Failure, includeDetails: bool)
    ensures var env := FormatErrorResponse(f, GetRequestId(xRequestId), includeDetails);
      && (env.requestId.Some? <==> xRequestId.Some? && xRequestId.value != "")
      && (env.requestId.Some? ==> env.requestId == xRequestId)
  {
  }
}

=== FILE: error_handler.dfy ===
/** Centralised error handling (src/core/error_handler.py): the HTTP status
    mapping, the error envelope, and the decorator that turns untyped
    exceptions into typed ones. The circuit breaker of the same file is in
    `CircuitBreaker`. */
module ErrorHandler {
  import opened Wrappers
  import opened Text
  import opened Exceptions

  const InternalErrorMessage: string := "An unexpected error occurred. Please try again later."

  /** `get_status_code`: the `isinstance` ladder, in source order. Only the
      four listed classes and `HTTPException` are recognised; every other
      exception, including the base class and `UnsupportedParameterError`,
      gets 500. */
  function GetStatusCode(f: Failure): (code: int)
    ensures f.Typed? && f.error.AudioValidationError? ==> code == 400
    ensures f.Typed? && f.error.ModelNotLoadedError? ==> code == 503
    ensures f.HttpError? ==> code == f.statusCode
    ensures !f.HttpError? && !(f.Typed? && (f.error.AudioValidationError? || f.error.ModelNotLoadedError?)) ==>
      code == 500
  {
    match f
    case Typed(e) =>
      if e.AudioValidationError? then 400
      else if e.AudioProcessingError? then 500
      else if e.ModelNotLoadedError? then 503
      else if e.ModelError? then 500
      else 500
    case HttpError(code, _) => code
    case Untyped(_, _) => 500
  }

  /** The mapped status agrees with the status the exception carries except
      for three classes: `ModelNotLoadedError` carries 500 but maps to 503,
      `UnsupportedParameterError` carries 400 but maps to 500, and a base
      exception maps to 500 whatever it carries. */
  lemma MappedStatusVersusCarried(e: ApiError)
    ensures GetStatusCode(Typed(e)) == StatusCode(e) <==>
      || e.AudioValidationError? || e.AudioProcessingError? || e.ModelError?
      || (e.BaseError? && e.status == 500)
    ensures e.ModelNotLoadedError? ==> StatusCode(e) == 500 && GetStatusCode(Typed(e)) == 503
    ensures e.UnsupportedParameterError? ==> StatusCode(e) == 400 && GetStatusCode(Typed(e)) == 500
  {
  }

  /** `get_status_code` with the branch it lacks: an
      `UnsupportedParameterError` is answered with the 400 it carries.
      Everything else is mapped as before. */
  function GetStatusCodeCorrected(f: Failure): (code: int)
    ensures f.Typed? && f.error.UnsupportedParameterError? ==> code == StatusCode(f.error) == 400
    ensures !(f.Typed? && f.error.UnsupportedParameterError?) ==> code == GetStatusCode(f)
  {
    if f.Typed? && f.error.UnsupportedParameterError? then 400 else GetStatusCode(f)
  }

  /** With the corrected mapping, the exceptions whose carried status the
      client sees are those of `MappedStatusVersusCarried` plus
      `UnsupportedParameterError`. */
  lemma CorrectedMappingVersusCarried(e: ApiError)
    ensures GetStatusCodeCorrected(Typed(e)) == StatusCode(e) <==>
      || e.AudioValidationError? || e.AudioProcessingError? || e.ModelError?
      || e.UnsupportedParameterError? || (e.BaseError? && e.status == 500)
  {
    MappedStatusVersusCarried(e);
  }

  /** `ERROR_CODES.get(type(error), "internal_error")`: the lookup is by exact
      type, so subclasses and other exceptions are not listed. */
  function ErrorCode(f: Failure): (code: string)
    ensures f.Typed? && f.error.AudioValidationError? ==> code == "audio_validation_error"
    ensures f.Typed? && f.error.AudioProcessingError? ==> code == "audio_processing_error"
    ensures f.Typed? && f.error.ModelError? ==> code == "model_error"
    ensures f.Typed? && f.error.ModelNotLoadedError? ==> code == "model_not_loaded"
    ensures !f.Typed? ==> code == "internal_error"
    ensures f.Typed? && (f.error.BaseError? || f.error.UnsupportedParameterError?) ==>
      code == "internal_error"
  {
    match f
    case Typed(AudioValidationError(_, _)) => "audio_validation_error"
    case Typed(AudioProcessingError(_, _)) => "audio_processing_error"
    case Typed(ModelError(_, _)) => "model_error"
    case Typed(ModelNotLoadedError) => "model_not_loaded"
    case _ => "internal_error"
  }

  /** `type(a) is type(b)`. */
  predicate SameClass(a: ApiError, b: ApiError) {
    && a.BaseError? == b.BaseError?
    && a.AudioValidationError? == b.AudioValidationError?
    && a.AudioProcessingError? == b.AudioProcessingError?
    && a.ModelError? == b.ModelError?
    && a.ModelNotLoadedError? == b.ModelNotLoadedError?
    && a.UnsupportedParameterError? == b.UnsupportedParameterError?
  }

  /** The lookup is by exact type: a code other than "internal_error" names
      exactly one class, and `ModelNotLoadedError` keeps its own code even
      though it is a `ModelError` to `isinstance`. The code it gets here is
      also the one its details carry. */
  lemma ErrorCodeByExactType(f: Failure, g: Failure)
    ensures ErrorCode(f) == "internal_error" <==>
      !(f.Typed? && (f.error.AudioValidationError? || f.error.AudioProcessingError?
                     || f.error.ModelError? || f.error.ModelNotLoadedError?))
    ensures ErrorCode(f) != "internal_error" && ErrorCode(f) == ErrorCode(g) ==>
      f.Typed? && g.Typed? && SameClass(f.error, g.error)
    ensures f.Typed? && f.error.ModelNotLoadedError? ==>
      IsModelError(f.error) && ErrorCode(f) != ErrorCode(Typed(ModelFailure(Message(f.error))))
      && DetailsOf(f.error)["error_code"] == VStr(ErrorCode(f))
  {
  }

  /** The fixed client-facing messages, keyed by error code. */
  function UserMessage(code: string): string {
    if code == "audio_validation_error" then "The provided audio file is invalid or unsupported."
    else if code == "audio_processing_error" then "Failed to process the audio file. Please try again."
    else if code == "model_error" then "An error occurred during transcription. Please try again."
    else if code == "model_not_loaded" then "The transcription service is temporarily unavailable."
    else if code == "rate_limit_exceeded" then "Too many requests. Please slow down."
    else InternalErrorMessage
  }

  /** The `"error"` object of the response body. */
  datatype Envelope = Envelope(
    message: string, errorType: string, code: string,
    requestId: Option<string>, details: Option<Details>)

  /** `format_error_response`. Typed errors show their own message; others
      the generic one. The request id is present exactly when it is a
      non-empty string, and the details exactly when they are requested and
      the exception has them (only typed errors do). */
  function FormatErrorResponse(f: Failure, requestId: Option<string>, includeDetails: bool): (env: Envelope)
    ensures env.code == ErrorCode(f)
    ensures env.errorType == "invalid_request_error" <==> f.Typed? && f.error.AudioValidationError?
    ensures env.errorType == "invalid_request_error" || env.errorType == "api_error"
    ensures f.Typed? ==> env.message == Message(f.error)
    ensures !f.Typed? ==> env.message == InternalErrorMessage
    ensures env.requestId.Some? <==> requestId.Some? && requestId.value != ""
    ensures env.requestId.Some? ==> env.requestId == requestId
    ensures env.details.Some? <==> includeDetails && f.Typed?
    ensures env.details.Some? ==> env.details.value == DetailsOf(f.error)
  {
    var code := ErrorCode(f);
    var errorType := if f.Typed? && f.error.AudioValidationError? then "invalid_request_error" else "api_error";
    var message := if f.Typed? then Message(f.error) else UserMessage(code);
    var rid := if requestId.Some? && requestId.value != "" then requestId else None;
    var details := if includeDetails && f.Typed? then Some(DetailsOf(f.error)) else None;
    Envelope(message, errorType, code, rid, details)
  }

  /** Which of the three conversions `with_error_handling` picks. */
  datatype Category = FfmpegFailure | GpuFailure | OtherFailure

  /** The category of an exception text, judged on its lower-cased form:
      "ffmpeg" first, then "cuda" or "gpu". */
  function CategoryOf(text: string): (c: Category)
    ensures c == FfmpegFailure <==> Contains(Lower(text), "ffmpeg")
    ensures c == GpuFailure <==>
      !Contains(Lower(text), "ffmpeg") && (Contains(Lower(text), "cuda") || Contains(Lower(text), "gpu"))
  {
    var l := Lower(text);
    if Contains(l, "ffmpeg") then FfmpegFailure
    else if Contains(l, "cuda") || Contains(l, "gpu") then GpuFailure
    else OtherFailure
  }

  /** The typed exception an untyped one becomes. */
  function Classify(text: string): (e: ApiError)
    ensures CategoryOf(text) == FfmpegFailure ==> e == ProcessingError("Audio processing failed: " + text)
    ensures CategoryOf(text) == GpuFailure ==> e == ModelFailure("GPU error: " + text)
    ensures CategoryOf(text) == OtherFailure ==> e == ModelFailure("Operation failed: " + text)
  {
    match CategoryOf(text)
    case FfmpegFailure => ProcessingError("Audio processing failed: " + text)
    case GpuFailure => ModelFailure("GPU error: " + text)
    case OtherFailure => ModelFailure("Operation failed: " + text)
  }

  /** `with_error_handling` applied to the outcome of the wrapped call:
      results and typed errors pass unchanged; anything else (including an
      `HTTPException`) is classified. */
  function WithErrorHandling<T>(outcome: Result<T, Failure>): (r: Result<T, Failure>)
    ensures outcome.Ok? ==> r == outcome
    ensures outcome.Err? && outcome.error.Typed? ==> r == outcome
    ensures outcome.Err? && !outcome.error.Typed? ==>
      r == Err(Typed(Classify(TextOf(outcome.error))))
  {
    match outcome
    case Ok(_) => outcome
    case Err(Typed(_)) => outcome
    case Err(f) => Err(Typed(Classify(TextOf(f))))
  }

  /** After the decorator every failure is typed, a classified one is a
      processing or model error with status 500, and applying the decorator
      twice is applying it once. */
  lemma WithErrorHandlingTypes<T>(outcome: Result<T, Failure>)
    ensures var r := WithErrorHandling(outcome);
      r.Err? ==> r.error.Typed?
    ensures outcome.Err? && !outcome.error.Typed? ==>
      var e := WithErrorHandling(outcome).error.error;
      (e.AudioProcessingError? || e.ModelError?) && GetStatusCode(Typed(e)) == 500
    ensures WithErrorHandling(WithErrorHandling(outcome)) == WithErrorHandling(outcome)
  {
  }

  /** The classifier looks at the text case-insensitively. */
  lemma ClassifyIgnoresCase(text: string)
    ensures CategoryOf(Upper(text)) == CategoryOf(text)
  {
    LowerUpper(text);
  }

  lemma LowerUpper(s: string)
    ensures Lower(Upper(s)) == Lower(s)
  {
    forall i | 0 <= i < |s| ensures Lower(Upper(s))[i] == Lower(s)[i] {
      LowerOfUpper(s[i]);
    }
  }
}

=== FILE: exceptions.dfy ===
/** The exception hierarchy of the service (src/core/exceptions.py) and the
    untyped exceptions it meets at its boundaries.

    Every typed error is a `ParakeetAPIException`: it carries a message, an
    HTTP status code and a details map. `ModelNotLoadedError` is a subclass
    of `ModelError`. */
module Exceptions {
  import opened Text

  /** The values stored in an error's details map. */
  datatype Value = VStr(s: string) | VBool(b: bool) | VList(items: seq<string>)

  type Details = map<string, Value>

  datatype ApiError =
    /** `ParakeetAPIException(message, status_code, details)` raised directly. */
    | BaseError(message: string, status: int, details: Details)
    | AudioValidationError(message: string, details: Details)
    | AudioProcessingError(message: string, details: Details)
    | ModelError(message: string, details: Details)
    | ModelNotLoadedError
    | UnsupportedParameterError(parameter: string, value: Value, reason: string)

  /** Any exception that can reach a boundary: one of ours, FastAPI's
      `HTTPException`, or some other exception with its `str()` text. */
  datatype Failure =
    | Typed(error: ApiError)
    | HttpError(statusCode: int, text: string)
    | Untyped(typeName: string, text: string)

  const NotLoadedMessage: string :=
    "Model is not loaded. Please wait for server initialization to complete."

  /** Python's `str(value)` for the value kinds the details can hold. */
  function Str(v: Value): string {
    match v
    case VStr(s) => s
    case VBool(b) => if b then "True" else "False"
    case VList(items) => "[" + Join(", ", QuoteAll(items)) + "]"
  }

  /** Python's `repr` of a string: single quotes, unless the string holds a
      single quote and no double quote. */
  function Repr(s: string): (r: string)
    ensures |r| == |s| + 2 && r[1..|r| - 1] == s && r[0] == r[|r| - 1]
    ensures r[0] == '"' <==> '\'' in s && '"' !in s
    ensures r[0] == '"' || r[0] == '\''
  {
    var q := if '\'' in s && '"' !in s then '"' else '\'';
    [q] + s + [q]
  }

  function QuoteAll(items: seq<string>): (r: seq<string>)
    ensures |r| == |items|
    ensures forall i :: 0 <= i < |items| ==> r[i] == Repr(items[i])
  {
    if |items| == 0 then [] else [Repr(items[0])] + QuoteAll(items[1..])
  }

  /** `error.message`, which is also `str(error)`. */
  function Message(e: ApiError): (m: string)
    ensures e.ModelNotLoadedError? ==> m == NotLoadedMessage
    ensures e.UnsupportedParameterError? ==>
      m == "Unsupported value for parameter '" + e.parameter + "': " + Str(e.value) + ". " + e.reason
    ensures !e.ModelNotLoadedError? && !e.UnsupportedParameterError? ==> m == e.message
  {
    match e
    case ModelNotLoadedError => NotLoadedMessage
    case UnsupportedParameterError(p, v, reason) =>
      "Unsupported value for parameter '" + p + "': " + Str(v) + ". " + reason
    case _ => e.message
  }

  /** The status code the exception carries (`error.status_code`). */
  function StatusCode(e: ApiError): (code: int)
    ensures e.AudioValidationError? || e.UnsupportedParameterError? ==> code == 400
    ensures e.AudioProcessingError? || e.ModelError? || e.ModelNotLoadedError? ==> code == 500
    ensures e.BaseError? ==> code == e.status
  {
    match e
    case BaseError(_, status, _) => status
    case AudioValidationError(_, _) => 400
    case UnsupportedParameterError(_, _, _) => 400
    case _ => 500
  }

  /** `error.details`. */
  function DetailsOf(e: ApiError): (d: Details)
    ensures e.ModelNotLoadedError? ==> d == map["error_code" := VStr("model_not_loaded")]
    ensures e.UnsupportedParameterError? ==>
      && d.Keys == {"parameter", "value", "reason"}
      && d["parameter"] == VStr(e.parameter)
      && d["value"] == e.value
      && d["reason"] == VStr(e.reason)
    ensures !e.ModelNotLoadedError? && !e.UnsupportedParameterError? ==> d == e.details
  {
    match e
    case ModelNotLoadedError => map["error_code" := VStr("model_not_loaded")]
    case UnsupportedParameterError(p, v, reason) =>
      map["parameter" := VStr(p), "value" := v, "reason" := VStr(reason)]
    case _ => e.details
  }

  /** `isinstance(error, ModelError)`. */
  predicate IsModelError(e: ApiError) {
    e.ModelError? || e.ModelNotLoadedError?
  }

  /** `str(exc)` for any failure. */
  function TextOf(f: Failure): string {
    match f
    case Typed(e) => Message(e)
    case HttpError(_, t) => t
    case Untyped(_, t) => t
  }

  /** The constructors with their default arguments: `details=None`
      becomes the empty map. */
  function ValidationError(message: string): ApiError {
    AudioValidationError(message, map[])
  }

  function ProcessingError(message: string): ApiError {
    AudioProcessingError(message, map[])
  }

  function ModelFailure(message: string): ApiError {
    ModelError(message, map[])
  }
}

=== FILE: model_manager.dfy ===
/** The lifecycle of the speech-recognition model (src/core/model_manager.py).

    The manager's state is exactly what the code keeps: an optional model
    handle and the `_is_loaded` flag; there are no loading or unloading
    states. Each lock-guarded body is one atomic step. The NeMo runtime is an
    oracle: loading takes what `from_pretrained` and the device move would do,
    and inference takes what the engine's `transcribe` would return or raise. */
module ModelManager {
  import opened Wrappers
  import opened Paths
  import opened Exceptions

  /** An opaque reference to a loaded model object. */
  type Handle = nat

  datatype Manager = Manager(model: Option<Handle>, modelName: string, isLoaded: bool)

  /** The flag is only ever set after a model has been stored. */
  predicate Valid(m: Manager) {
    m.isLoaded ==> m.model.Some?
  }

  /** `__init__`: no model, not loaded. */
  function Initial(modelName: string): (m: Manager)
    ensures Valid(m) && !IsLoaded(m) && m.model.None? && m.modelName == modelName
  {
    Manager(None, modelName, false)
  }

  /** The `is_loaded` property. */
  predicate IsLoaded(m: Manager) {
    m.isLoaded
  }

  // ---------------------------------------------------------------------
  // Inference
  // ---------------------------------------------------------------------

  /** A path as a caller may pass it: a string or a `Path`. */
  datatype PathLike = PathText(s: string) | PathValue(p: Path)

  /** The `audio_paths` argument: one path, or a list of them. */
  datatype PathArg = Single(path: PathLike) | Many(paths: seq<PathLike>)

  /** One element of the engine's raw output: a string, an object with a
      `.text` attribute (a hypothesis), or anything else, given by its `str()`. */
  datatype RawItem = StrItem(s: string) | WithText(text: string) | OtherItem(repr: string)

  /** The engine's raw output: a list, or a single value. */
  datatype RawOutput = RawList(items: seq<RawItem>) | RawSingle(item: RawItem)

  /** What calling the engine does: return raw output or raise. */
  datatype EngineRun = Returned(raw: RawOutput) | Raised(message: string)

  /** The outcome of `transcribe`: the string paths the engine was called
      with (None when it was not called) and the transcriptions or error. */
  datatype Inference = Inference(engineInput: Option<seq<string>>, result: Result<seq<string>, ApiError>)

  function PathLikeStr(p: PathLike): string {
    match p
    case PathText(s) => s
    case PathValue(q) => PathStr(q)
  }

  /** `[str(p) for p in audio_paths]`, after a single path is wrapped in a list. */
  function PathStrings(arg: PathArg): (r: seq<string>)
    ensures arg.Single? ==> r == [PathLikeStr(arg.path)]
    ensures arg.Many? ==> |r| == |arg.paths| && forall i :: 0 <= i < |r| ==> r[i] == PathLikeStr(arg.paths[i])
  {
    match arg
    case Single(p) => [PathLikeStr(p)]
    case Many(ps) => StrAll(ps)
  }

  function StrAll(ps: seq<PathLike>): (r: seq<string>)
    ensures |r| == |ps| && forall i :: 0 <= i < |r| ==> r[i] == PathLikeStr(ps[i])
  {
    if |ps| == 0 then [] else [PathLikeStr(ps[0])] + StrAll(ps[1..])
  }

  /** The text of one raw element: the string itself, else `.text`, else
      its `str()`. */
  function ItemText(x: RawItem): string {
    match x
    case StrItem(s) => s
    case WithText(t) => t
    case OtherItem(r) => r
  }

  /** The element-wise conversion of a raw list. */
  function Texts(items: seq<RawItem>): (ts: seq<string>)
    ensures |ts| == |items|
    ensures forall i :: 0 <= i < |items| ==> ts[i] == ItemText(items[i])
  {
    if |items| == 0 then [] else [ItemText(items[0])] + Texts(items[1..])
  }

  /** The normalisation of the engine's output to a list of strings. */
  function NormaliseOutput(raw: RawOutput): (ts: seq<string>)
    ensures raw.RawList? ==> |ts| == |raw.items|
    ensures raw.RawList? ==> forall i :: 0 <= i < |ts| ==> ts[i] == ItemText(raw.items[i])
    ensures raw.RawSingle? ==> ts == [ItemText(raw.item)]
  {
    match raw
    case RawList(items) => Texts(items)
    case RawSingle(item) => [ItemText(item)]
  }

  /** `transcribe`: refuses before touching the engine when the model is
      not loaded; otherwise calls the engine with the string paths and
      normalises its output, wrapping any engine exception. */
  function Transcribe(m: Manager, arg: PathArg, run: EngineRun): (inf: Inference)
    ensures !m.isLoaded || m.model.None? ==>
      inf == Inference(None, Err(ModelNotLoadedError))
    ensures m.isLoaded && m.model.Some? ==> inf.engineInput == Some(PathStrings(arg))
    ensures m.isLoaded && m.model.Some? && run.Raised? ==>
      inf.result == Err(ModelFailure("Transcription failed: " + run.message))
    ensures m.isLoaded && m.model.Some? && run.Returned? ==>
      inf.result == Ok(NormaliseOutput(run.raw))
  {
    if !m.isLoaded || m.model.None? then Inference(None, Err(ModelNotLoadedError))
    else
      var input := PathStrings(arg);
      match run
      case Raised(msg) => Inference(Some(input), Err(ModelFailure("Transcription failed: " + msg)))
      case Returned(raw) => Inference(Some(input), Ok(NormaliseOutput(raw)))
  }

  /** When not loaded the outcome does not depend on the engine at all. */
  lemma NotLoadedIgnoresEngine(m: Manager, arg: PathArg, r1: EngineRun, r2: EngineRun)
    requires !IsLoaded(m)
    ensures Transcribe(m, arg, r1) == Transcribe(m, arg, r2)
    ensures Transcribe(m, arg, r1).engineInput.None?
  {
  }

  /** For a loaded model the number of transcriptions follows the raw
      output, not the number of input paths. */
  lemma OutputLengthFollowsRaw(m: Manager, arg: PathArg, raw: RawOutput)
    requires IsLoaded(m) && Valid(m)
    ensures var r := Transcribe(m, arg, Returned(raw)).result;
      && r.Ok?
      && |r.value| == (if raw.RawList? then |raw.items| else 1)
  {
  }

  // ---------------------------------------------------------------------
  // Loading, warm-up and unloading
  // ---------------------------------------------------------------------

  /** The fixture files the warm-up tries, in order. */
  const WarmupFiles: seq<string> := [
    "./tests/audio_files/test_wav_16000Hz_mono.wav",
    "./tests/audio_files/test_wav_16000Hz_mono_32bit.wav",
    "./tests/audio_files/test_flac_8000Hz_mono.flac"
  ]

  /** `[f for f in files if Path(f).exists()]`. */
  function ExistingFiles(files: seq<string>, existing: set<string>): (r: seq<string>)
    ensures |r| <= |files|
    ensures forall f :: f in r <==> f in files && f in existing
  {
    if |files| == 0 then []
    else if files[0] in existing then [files[0]] + ExistingFiles(files[1..], existing)
    else ExistingFiles(files[1..], existing)
  }

  datatype WarmupOutcome = Completed | Skipped | Failed(message: string)

  /** `_warmup_model`: transcribes the fixtures that exist; any failure is
      logged and swallowed. */
  function Warmup(m: Manager, existing: set<string>, run: EngineRun): (w: WarmupOutcome)
    requires IsLoaded(m) && Valid(m)
    ensures w.Skipped? <==> forall f :: f in WarmupFiles ==> f !in existing
    ensures w.Completed? <==> (exists f :: f in WarmupFiles && f in existing) && run.Returned?
    ensures w.Failed? ==> run.Raised? && w.message == "Transcription failed: " + run.message
  {
    var files := ExistingFiles(WarmupFiles, existing);
    if |files| == 0 then
      Skipped
    else
      var f := files[0];
      assert f in WarmupFiles && f in existing;
      match Transcribe(m, Many(seq(|files|, i requires 0 <= i < |files| => PathText(files[i]))), run).result
      case Ok(_) => Completed
      case Err(e) => Failed(Message(e))
  }

  /** What the loader does: the cache directory cannot be created, the
      download raises, the device move raises after the model object was
      stored, or the model is loaded. */
  datatype LoaderRun =
    | CacheDirRaised(message: string)
    | PretrainedRaised(message: string)
    | MoveRaised(stored: Handle, message: string)
    | Loaded(handle: Handle)

  datatype LoadReport = LoadReport(
    manager: Manager, error: Option<ApiError>, loaderInvoked: bool, warmup: Option<WarmupOutcome>)

  function LoadFailure(name: string, message: string): ApiError {
    ModelFailure("Failed to load model '" + name + "': " + message)
  }

  /** `load_model`. Already loaded: nothing happens. Otherwise the model is
      loaded and the flag set before the warm-up, whose outcome cannot undo
      it; a loader failure raises a `ModelError` and leaves the flag false. */
  function LoadModel(m: Manager, loader: LoaderRun, existing: set<string>, warm: EngineRun): (r: LoadReport)
    requires Valid(m)
    ensures Valid(r.manager)
    ensures r.manager.modelName == m.modelName
    ensures IsLoaded(m) ==> r == LoadReport(m, None, false, None)
    ensures !IsLoaded(m) ==> r.loaderInvoked == !loader.CacheDirRaised?
    ensures !IsLoaded(m) && loader.Loaded? ==>
      && IsLoaded(r.manager) && r.manager.model == Some(loader.handle)
      && r.error.None? && r.warmup.Some?
    ensures !IsLoaded(m) && !loader.Loaded? ==>
      && !IsLoaded(r.manager)
      && r.error == Some(LoadFailure(m.modelName, loader.message))
      && r.warmup.None?
  {
    if m.isLoaded then LoadReport(m, None, false, None)
    else
      match loader
      case CacheDirRaised(msg) => LoadReport(m, Some(LoadFailure(m.modelName, msg)), false, None)
      case PretrainedRaised(msg) => LoadReport(m, Some(LoadFailure(m.modelName, msg)), true, None)
      case MoveRaised(h, msg) =>
        LoadReport(m.(model := Some(h)), Some(LoadFailure(m.modelName, msg)), true, None)
      case Loaded(h) =>
        var loaded := m.(model := Some(h), isLoaded := true);
        LoadReport(loaded, None, true, Some(Warmup(loaded, existing, warm)))
  }

  /** Loading twice is loading once: the second call invokes nothing. */
  lemma LoadIdempotent(m: Manager, l1: LoaderRun, l2: LoaderRun, e1: set<string>, e2: set<string>,
                       w1: EngineRun, w2: EngineRun)
    requires Valid(m) && l1.Loaded?
    ensures var first := LoadModel(m, l1, e1, w1).manager;
      var second := LoadModel(first, l2, e2, w2);
      second.manager == first && !second.loaderInvoked && second.error.None?
  {
  }

  /** A failed load can be retried: the next call runs the loader again
      and succeeds when the loader does. */
  lemma RetryAfterFailure(m: Manager, l1: LoaderRun, h: Handle, e: set<string>, w: EngineRun)
    requires Valid(m) && !IsLoaded(m) && !l1.Loaded?
    ensures var failed := LoadModel(m, l1, e, w).manager;
      var retry := LoadModel(failed, Loaded(h), e, w);
      retry.loaderInvoked && IsLoaded(retry.manager) && retry.error.None?
  {
  }

  /** However the warm-up goes, a successful load leaves the model usable:
      a following transcription reaches the engine. */
  lemma LoadedModelTranscribes(m: Manager, h: Handle, e: set<string>, w: EngineRun, arg: PathArg, run: EngineRun)
    requires Valid(m) && !IsLoaded(m)
    ensures var loaded := LoadModel(m, Loaded(h), e, w).manager;
      Transcribe(loaded, arg, run).engineInput == Some(PathStrings(arg))
  {
  }

  /** `unload_model`: drops a stored model and clears the flag; without a
      stored model nothing changes. */
  function Unload(m: Manager): (r: Manager)
    requires Valid(m)
    ensures Valid(r) && !IsLoaded(r) && r.model.None? && r.modelName == m.modelName
    ensures m.model.None? ==> r == m
  {
    if m.model.Some? then m.(model := None, isLoaded := false) else m
  }

  /** After unloading, transcription is refused and a new load runs the
      loader again. */
  lemma UnloadThenReload(m: Manager, l: LoaderRun, e: set<string>, w: EngineRun, arg: PathArg, run: EngineRun)
    requires Valid(m)
    ensures Transcribe(Unload(m), arg, run).result == Err(ModelNotLoadedError)
    ensures var r := LoadModel(Unload(m), l, e, w);
      r.loaderInvoked == !l.CacheDirRaised?
  {
  }
}

=== FILE: model_service.dfy ===
/** The model service of src/services/model.py: the four accepted model
    aliases, the catalogue lookups, and the single backend model that
    serves every alias. Logging and the `request_id` argument are not
    modelled. */
module ModelService {
  import opened Wrappers
  import opened Responses
  import Config
  import Requests
  import Transcription

  /** The service's set of supported model ids. */
  const SupportedModelIds: set<string> :=
    {"gpt-4o-transcribe", "gpt-4o-mini-transcribe", "parakeet-tdt-0.6b-v2", "whisper-1"}

  /** `is_model_supported`: membership in that set, exact and
      case-sensitive. */
  predicate IsModelSupported(id: string) {
    id in SupportedModelIds
  }

  /** The service supports exactly the catalogue's models, which are
      exactly those the transcription service supports. */
  lemma SupportedIsCatalogue(id: string)
    ensures IsModelSupported(id) <==> id in CatalogueIds()
    ensures IsModelSupported(id) <==> Transcription.IsModelSupported(id)
  {
    Transcription.SupportedModelsAreCatalogue();
  }

  /** `list_models`: the whole catalogue, every entry of it supported. */
  function ListModels(): (r: ModelListResponse)
    ensures r.objectType == "list" && |r.data| == 4
    ensures forall i :: 0 <= i < |r.data| ==> IsModelSupported(r.data[i].id) && r.data[i] == Entry(r.data[i].id)
    ensures forall id :: IsModelSupported(id) ==> exists i :: 0 <= i < |r.data| && r.data[i].id == id
  {
    AllSupportedCatalogued();
    GetModelList()
  }

  lemma AllSupportedCatalogued()
    ensures forall id :: IsModelSupported(id) ==> id in CatalogueIds()
  {
    forall id | IsModelSupported(id) ensures id in CatalogueIds() {
      SupportedIsCatalogue(id);
    }
  }

  /** `get_model_info`: the catalogue entry, found exactly for the
      supported ids. */
  method GetModelInfo(id: string) returns (r: Option<ModelInfo>)
    ensures r.Some? <==> IsModelSupported(id)
    ensures r.Some? ==> r.value == Entry(id) && r.value.id == id
  {
    r := Responses.GetModelInfo(id);
    SupportedIsCatalogue(id);
  }

  /** `get_supported_models`: the four ids, each once. Python lists a set
      in an unspecified order; this model fixes the catalogue's. */
  function GetSupportedModels(): (r: seq<string>)
    ensures |r| == 4
    ensures forall i, j :: 0 <= i < j < |r| ==> r[i] != r[j]
    ensures forall id :: id in r <==> IsModelSupported(id)
  {
    ["gpt-4o-transcribe", "gpt-4o-mini-transcribe", "parakeet-tdt-0.6b-v2", "whisper-1"]
  }

  /** `get_backend_model_name`: every alias, supported or not, is served by
      the model the manager loads by default. */
  function GetBackendModelName(id: string): (name: string)
    ensures name == Config.Defaults.modelName
  {
    "nvidia/parakeet-tdt-0.6b-v2"
  }

  /** The alias makes no difference to the backend. */
  lemma OneBackendForAll(a: string, b: string)
    ensures GetBackendModelName(a) == GetBackendModelName(b)
    ensures GetBackendModelName(a) == Config.DefaultModelName
  {
  }

  /** `validate_model_id`: every id is acceptable. */
  function ValidateModelId(id: string): (ok: bool)
    ensures ok
  {
    true
  }

  /** Acceptance is wider than support: an unknown id is accepted by the
      service and by the request model, and reaches the backend model. */
  lemma UnknownModelAccepted()
    ensures !IsModelSupported("my-model") && ValidateModelId("my-model")
    ensures var raw := Requests.RawRequest(
        Requests.Given("my-model"), Requests.Absent, Requests.Absent, Requests.Absent, Requests.Absent,
        Requests.Absent, Requests.Absent, Requests.Absent, Requests.Absent);
      Requests.Validate(raw) == Ok(Requests.DefaultRequest.(model := "my-model"))
    ensures GetBackendModelName("my-model") == GetBackendModelName("whisper-1")
  {
  }
}

=== FILE: paths.dfy ===
/** The parts of `pathlib` the service relies on, with POSIX semantics:
    `Path(s).name`, `.suffix`, `.stem`, `.parent` and `temp_dir / name`. */
module Paths {

  /** A file path as the service builds it: a parent directory and a name. */
  datatype Path = Path(parent: string, name: string)

  /** `str(path)`. */
  function PathStr(p: Path): string {
    if p.parent == "" then p.name
    else if p.parent[|p.parent| - 1] == '/' then p.parent + p.name
    else p.parent + "/" + p.name
  }

  /** `k` is the index of a `c` in `s` with no `c` after it. */
  predicate IsLastIndex(s: string, c: char, k: int) {
    0 <= k < |s| && s[k] == c && forall j :: k < j < |s| ==> s[j] != c
  }

  /** Index of the last occurrence of `c` in `s`, or -1 (`s.rfind(c)`). */
  function LastIndexOf(s: string, c: char): (r: int)
    ensures -1 <= r < |s|
    ensures r >= 0 ==> s[r] == c
    ensures forall j :: r < j < |s| ==> s[j] != c
    ensures r == -1 <==> c !in s
  {
    if c !in s then -1
    else
      LastIndexExists(s, c, |s|);
      var k :| IsLastIndex(s, c, k);
      k
  }

  /** Among the first `k` characters, either none is `c` or one is the
      last `c` of `s` up to `k`. */
  lemma {:induction false} LastIndexExists(s: string, c: char, k: nat)
    requires k <= |s| && c in s[..k]
    requires forall j :: k <= j < |s| ==> s[j] != c
    ensures exists i :: IsLastIndex(s, c, i)
  {
    if s[k - 1] == c {
      assert IsLastIndex(s, c, k - 1);
    } else {
      var i :| 0 <= i < k && s[..k][i] == c;
      assert s[..k - 1][i] == c;
      LastIndexExists(s, c, k - 1);
    }
  }

  /** `Path(s).name` on POSIX: the last component once empty and "."
      components are dropped, or "" when none is left. */
  function BaseName(s: string): (r: string)
    ensures '/' !in r
    ensures r != "."
    ensures '/' !in s && s != "." ==> r == s
    decreases |s|
  {
    var i := LastIndexOf(s, '/');
    var tail := s[i + 1..];
    if tail != "" && tail != "." then
      assert forall j :: 0 <= j < |tail| ==> tail[j] == s[i + 1 + j];
      tail
    else if i < 0 then ""
    else BaseName(s[..i])
  }

  /** `Path(name).suffix`: from the last dot on, provided that dot is
      neither the first nor the last character. */
  function Suffix(name: string): (r: string)
    ensures r == "" || (r[0] == '.' && '.' !in r[1..] && |r| >= 2)
    ensures |r| <= |name| && r == name[|name| - |r|..]
  {
    var i := LastIndexOf(name, '.');
    if 0 < i < |name| - 1 then
      assert forall j :: 1 <= j < |name| - i ==> name[i..][j] == name[i + j];
      name[i..]
    else ""
  }

  /** `Path(name).stem`. */
  function Stem(name: string): (r: string)
    ensures r + Suffix(name) == name
  {
    var i := LastIndexOf(name, '.');
    if 0 < i < |name| - 1 then name[..i] else name
  }

  /** A non-empty stem, a dot and a non-empty dot-free extension: the
      suffix is that dot and extension, and the stem is the stem. */
  lemma SuffixOfJoin(stem: string, ext: string)
    requires stem != "" && ext != "" && '.' !in ext
    ensures Suffix(stem + "." + ext) == "." + ext
    ensures Stem(stem + "." + ext) == stem
  {
    var n := stem + "." + ext;
    LastDotOfJoin(stem, ext);
    assert n[|stem|..] == "." + ext;
    assert n[..|stem|] == stem;
  }

  lemma LastDotOfJoin(stem: string, ext: string)
    requires '.' !in ext
    ensures LastIndexOf(stem + "." + ext, '.') == |stem|
  {
    var a := stem + ".";
    var n := a + ext;
    assert |a| == |stem| + 1 && a[|stem|] == '.';
    assert n[|stem|] == '.';
    forall j | |a| <= j < |n| ensures n[j] != '.' {
      assert n[j] == ext[j - |a|];
    }
    LastIndexAt(n, '.', |stem|);
  }

  /** An occurrence of `c` with none after it is the last one. */
  lemma LastIndexAt(s: string, c: char, k: nat)
    requires k < |s| && s[k] == c
    requires forall j :: k < j < |s| ==> s[j] != c
    ensures LastIndexOf(s, c) == k
  {
    assert c in s;
  }

  /** Putting a prefix before a string that contains `c` shifts its last
      `c` by the prefix length. */
  lemma LastIndexOfAfterPrefix(p: string, b: string, c: char)
    requires c in b
    ensures LastIndexOf(p + b, c) == |p| + LastIndexOf(b, c)
  {
    var i := LastIndexOf(b, c);
    var s := p + b;
    assert s[|p| + i] == c;
    forall j | |p| + i < j < |s| ensures s[j] != c {
      assert s[j] == b[j - |p|];
    }
    LastIndexAt(s, c, |p| + i);
  }

  /** A dot-free prefix does not change a name's suffix, once the name has
      one. */
  lemma SuffixAfterPrefix(p: string, b: string)
    requires '.' !in p && Suffix(b) != ""
    ensures Suffix(p + b) == Suffix(b)
  {
    var i := LastIndexOf(b, '.');
    assert 0 < i < |b| - 1;
    LastIndexOfAfterPrefix(p, b, '.');
    assert (p + b)[|p| + i..] == b[i..];
  }
}

=== FILE: rate_limiter.dfy ===
/** The in-memory rate limiter of src/api/rate_limiter.py and the middleware
    that applies it. Each client has a list of the times of its admitted
    requests; a request is refused when the last second already holds a
    burst of them or the last minute holds the per-minute allowance. The
    clock `time.time()` is a `real` parameter. */
module RateLimiter {
  import opened Wrappers
  import opened Text
  import Config

  datatype Limiter = Limiter(requestsPerMinute: int, burstSize: int, requests: map<string, seq<real>>)

  /** `RateLimiter(requests_per_minute, burst_size)`: no client seen yet. */
  function Initial(requestsPerMinute: int, burstSize: int): (l: Limiter)
    ensures forall id :: History(l, id) == []
    ensures l.requestsPerMinute == requestsPerMinute && l.burstSize == burstSize
  {
    Limiter(requestsPerMinute, burstSize, map[])
  }

  /** `self.requests[client_id]`: a `defaultdict(list)`, so an unseen client
      has the empty list. */
  function History(l: Limiter, id: string): seq<real> {
    if id in l.requests then l.requests[id] else []
  }

  // ---------------------------------------------------------------------
  // The window filter

  /** The times strictly after `cutoff`, in their original order. */
  function Above(ts: seq<real>, cutoff: real): (r: seq<real>)
    ensures |r| <= |ts|
    ensures forall t :: t in r <==> t in ts && t > cutoff
    decreases |ts|
  {
    if ts == [] then []
    else (if ts[0] > cutoff then [ts[0]] else []) + Above(ts[1..], cutoff)
  }

  lemma {:induction false} AboveAppend(ts: seq<real>, x: real, cutoff: real)
    ensures Above(ts + [x], cutoff) == Above(ts, cutoff) + (if x > cutoff then [x] else [])
    decreases |ts|
  {
    if ts == [] {
      assert [x][1..] == [];
    } else {
      assert (ts + [x])[1..] == ts[1..] + [x];
      AboveAppend(ts[1..], x, cutoff);
    }
  }

  /** Filtering by a later cutoff after an earlier one is filtering by the
      later one alone. */
  lemma {:induction false} AboveTwice(ts: seq<real>, c1: real, c2: real)
    requires c1 <= c2
    ensures Above(Above(ts, c1), c2) == Above(ts, c2)
    decreases |ts|
  {
    if ts != [] {
      AboveTwice(ts[1..], c1, c2);
      if ts[0] > c1 {
        var s := Above(ts, c1);
        assert s == [ts[0]] + Above(ts[1..], c1);
        assert s != [] && s[0] == ts[0] && s[1..] == Above(ts[1..], c1);
        assert Above(s, c2) == (if ts[0] > c2 then [ts[0]] else []) + Above(s[1..], c2);
      } else {
        assert Above(ts, c1) == Above(ts[1..], c1);
        assert Above(ts, c2) == Above(ts[1..], c2);
      }
    }
  }

  /** A later cutoff never keeps more. */
  lemma AboveShrinks(ts: seq<real>, c1: real, c2: real)
    requires c1 <= c2
    ensures |Above(ts, c2)| <= |Above(ts, c1)|
  {
    AboveTwice(ts, c1, c2);
  }

  /** A time at or before the cutoff is dropped, so the filtered list is
      strictly shorter. */
  lemma {:induction false} AboveDropsOld(ts: seq<real>, x: real, cutoff: real)
    requires x in ts && x <= cutoff
    ensures |Above(ts, cutoff)| < |ts|
    decreases |ts|
  {
    if ts[0] != x {
      assert x in ts[1..];
      AboveDropsOld(ts[1..], x, cutoff);
    }
  }

  /** `_clean_old_requests`, as the list comprehension computes it: the
      times of the last minute. */
  method CleanOldRequests(ts: seq<real>, now: real) returns (r: seq<real>)
    ensures r == Above(ts, now - 60.0)
  {
    r := [];
    var i := 0;
    while i < |ts|
      invariant 0 <= i <= |ts|
      invariant r == Above(ts[..i], now - 60.0)
    {
      assert ts[..i + 1] == ts[..i] + [ts[i]];
      AboveAppend(ts[..i], ts[i], now - 60.0);
      if ts[i] > now - 60.0 {
        r := r + [ts[i]];
      }
      i := i + 1;
    }
    assert ts[..i] == ts;
  }

  // ---------------------------------------------------------------------
  // is_allowed and get_retry_after

  datatype Checked = Checked(allowed: bool, limiter: Limiter)

  /** `max(x, 0)`: a negative limit admits nothing. */
  function Cap(x: int): nat {
    if x > 0 then x else 0
  }

  /** `is_allowed(client_id)` at time `now`. The cleaned list is stored
      whatever the answer; an admitted request is appended. */
  function IsAllowed(l: Limiter, id: string, now: real): (c: Checked)
    ensures c.limiter.requestsPerMinute == l.requestsPerMinute && c.limiter.burstSize == l.burstSize
    ensures forall other :: other != id ==> History(c.limiter, other) == History(l, other)
    ensures var recent := Above(History(l, id), now - 60.0);
      && (c.allowed <==> |Above(recent, now - 1.0)| < l.burstSize && |recent| < l.requestsPerMinute)
      && History(c.limiter, id) == recent + (if c.allowed then [now] else [])
  {
    var recent := Above(History(l, id), now - 60.0);
    var cleaned := l.(requests := l.requests[id := recent]);
    if |recent| >= l.burstSize && |Above(recent, now - 1.0)| >= l.burstSize then Checked(false, cleaned)
    else if |recent| >= l.requestsPerMinute then Checked(false, cleaned)
    else Checked(true, l.(requests := l.requests[id := recent + [now]]))
  }

  datatype Retry = Retry(seconds: nat, limiter: Limiter)

  /** Python's `int(x)`: truncation toward zero. */
  function Trunc(x: real): (n: int)
    ensures x >= 0.0 ==> n as real <= x < n as real + 1.0
    ensures x < 0.0 ==> n as real - 1.0 < x <= n as real
  {
    if x >= 0.0 then x.Floor else -((-x).Floor)
  }

  /** The earliest of a non-empty list of times. */
  function Earliest(ts: seq<real>): (m: real)
    requires ts != []
    ensures m in ts && forall t :: t in ts ==> m <= t
    decreases |ts|
  {
    if |ts| == 1 then ts[0]
    else
      var rest := Earliest(ts[1..]);
      assert forall t :: t in ts ==> t == ts[0] || t in ts[1..];
      if ts[0] <= rest then ts[0] else rest
  }

  /** `get_retry_after(client_id)` at time `now`: zero for a client with no
      request in the last minute, else the whole seconds until the earliest
      one leaves the window, never negative. The cleaned list is stored. */
  function GetRetryAfter(l: Limiter, id: string, now: real): (r: Retry)
    ensures r.limiter == l.(requests := l.requests[id := Above(History(l, id), now - 60.0)])
    ensures Above(History(l, id), now - 60.0) == [] ==> r.seconds == 0
  {
    var recent := Above(History(l, id), now - 60.0);
    var cleaned := l.(requests := l.requests[id := recent]);
    if recent == [] then Retry(0, cleaned)
    else
      var wait := Trunc(60.0 - (now - Earliest(recent)));
      Retry(if wait > 0 then wait else 0, cleaned)
  }

  /** When no recorded time lies in the future, the wait is at most a
      minute; waiting it and one more second lets the earliest request leave
      the window, while before `seconds` have passed it is still inside. */
  lemma RetryAfterMeaning(l: Limiter, id: string, now: real)
    requires forall t :: t in History(l, id) ==> t <= now
    requires Above(History(l, id), now - 60.0) != []
    ensures var r := GetRetryAfter(l, id, now);
      var oldest := Earliest(Above(History(l, id), now - 60.0));
      && r.seconds <= 60
      && !(oldest > (now + r.seconds as real + 1.0) - 60.0)
      && oldest >= (now + r.seconds as real) - 60.0
  {
  }

  /** How many of the times `ts` are still inside the minute window once
      `wait` seconds and one more have passed since `now`. */
  function LeftAfter(ts: seq<real>, now: real, wait: nat): nat {
    |Above(ts, (now + wait as real + 1.0) - 60.0)|
  }

  /** How many of the client's requests are still in the window once it has
      waited the advised time and one second more. */
  function LeftAfterWaiting(l: Limiter, id: string, now: real): nat {
    var r := GetRetryAfter(l, id, now);
    LeftAfter(History(r.limiter, id), now, r.seconds)
  }

  /** For a client whose list is already clean and not in the future,
      waiting the advised time and one second more lets at least one
      request leave the window. */
  lemma RetryFreesSlot(l: Limiter, id: string, now: real)
    requires forall t :: t in History(l, id) ==> t <= now
    requires History(l, id) != [] && Above(History(l, id), now - 60.0) == History(l, id)
    ensures LeftAfterWaiting(l, id, now) < |History(l, id)|
  {
    var recent := History(l, id);
    var r := GetRetryAfter(l, id, now);
    var later := (now + r.seconds as real + 1.0) - 60.0;
    assert History(r.limiter, id) == recent;
    var oldest := Earliest(recent);
    assert oldest <= later by { RetryAfterMeaning(l, id, now); }
    assert |Above(recent, later)| < |recent| by { AboveDropsOld(recent, oldest, later); }
    assert LeftAfterWaiting(l, id, now) == |Above(recent, later)|;
  }

  /** A client refused because its last minute is full (with no request of
      its own in the future) has a free slot once it has waited the advised
      time and one second more. */
  lemma WaitingFreesSlot(l: Limiter, id: string, now: real)
    requires forall t :: t in History(l, id) ==> t <= now
    requires l.requestsPerMinute >= 1
    requires |Above(History(l, id), now - 60.0)| == l.requestsPerMinute
    ensures !IsAllowed(l, id, now).allowed
    ensures LeftAfterWaiting(IsAllowed(l, id, now).limiter, id, now) < l.requestsPerMinute
  {
    FullWindowRefused(l, id, now);
    RetryFreesSlot(IsAllowed(l, id, now).limiter, id, now);
  }

  /** A full window refuses, and leaves a clean, non-empty list with no
      time in the future. */
  lemma FullWindowRefused(l: Limiter, id: string, now: real)
    requires forall t :: t in History(l, id) ==> t <= now
    requires l.requestsPerMinute >= 1
    requires |Above(History(l, id), now - 60.0)| == l.requestsPerMinute
    ensures var h := History(IsAllowed(l, id, now).limiter, id);
      && !IsAllowed(l, id, now).allowed
      && |h| == l.requestsPerMinute
      && h != [] && Above(h, now - 60.0) == h
      && forall t :: t in h ==> t <= now
  {
    var recent := Above(History(l, id), now - 60.0);
    AboveTwice(History(l, id), now - 60.0, now - 60.0);
  }

  // ---------------------------------------------------------------------
  // One client over time

  /** The calls of one client at the given times: the limiter afterwards and
      the times that were admitted. */
  function Replay(l: Limiter, id: string, times: seq<real>): (r: (Limiter, seq<real>))
    ensures |r.1| <= |times|
    decreases |times|
  {
    if times == [] then (l, [])
    else
      var (before, admitted) := Replay(l, id, times[..|times| - 1]);
      var now := times[|times| - 1];
      var c := IsAllowed(before, id, now);
      (c.limiter, admitted + (if c.allowed then [now] else []))
  }

  /** Each call is no earlier than the one before. */
  predicate NonDecreasing(times: seq<real>) {
    forall i :: 0 < i < |times| ==> times[i - 1] <= times[i]
  }

  /** One more call keeps the window invariant: the stored list is the
      admitted times after the last cutoff, within both limits. */
  lemma WindowStep(before: Limiter, id: string, admitted: seq<real>, last: real, now: real)
    requires last <= now
    requires History(before, id) == Above(admitted, last - 60.0)
    requires |Above(admitted, last - 60.0)| <= Cap(before.requestsPerMinute)
    requires |Above(admitted, last - 1.0)| <= Cap(before.burstSize)
    ensures var c := IsAllowed(before, id, now);
      var admitted' := admitted + (if c.allowed then [now] else []);
      && History(c.limiter, id) == Above(admitted', now - 60.0)
      && |Above(admitted', now - 60.0)| <= Cap(before.requestsPerMinute)
      && |Above(admitted', now - 1.0)| <= Cap(before.burstSize)
  {
    var c := IsAllowed(before, id, now);
    var recent := Above(History(before, id), now - 60.0);
    AboveTwice(admitted, last - 60.0, now - 60.0);
    assert recent == Above(admitted, now - 60.0);
    AboveTwice(admitted, now - 60.0, now - 1.0);
    assert Above(recent, now - 1.0) == Above(admitted, now - 1.0);
    if c.allowed {
      AboveAppend(admitted, now, now - 60.0);
      AboveAppend(admitted, now, now - 1.0);
      assert History(c.limiter, id) == recent + [now];
    } else {
      AboveShrinks(admitted, last - 60.0, now - 60.0);
      AboveShrinks(admitted, last - 1.0, now - 1.0);
      assert History(c.limiter, id) == recent;
      assert admitted + [] == admitted;
    }
  }

  lemma PrefixNonDecreasing(times: seq<real>)
    requires |times| >= 2 && NonDecreasing(times)
    ensures NonDecreasing(times[..|times| - 1])
    ensures times[..|times| - 1][|times| - 2] <= times[|times| - 1]
  {
  }

  /** The window facts for the calls so far, with `now` the last call. */
  ghost predicate WindowHolds(l: Limiter, id: string, r: (Limiter, seq<real>), now: real) {
    && r.0.requestsPerMinute == l.requestsPerMinute && r.0.burstSize == l.burstSize
    && History(r.0, id) == Above(r.1, now - 60.0)
    && |Above(r.1, now - 60.0)| <= Cap(l.requestsPerMinute)
    && |Above(r.1, now - 1.0)| <= Cap(l.burstSize)
  }

  /** One more call at a time no earlier than the last keeps the window
      facts. */
  lemma WindowExtend(l: Limiter, id: string, prefix: seq<real>, now: real)
    requires prefix != [] && prefix[|prefix| - 1] <= now
    requires WindowHolds(l, id, Replay(l, id, prefix), prefix[|prefix| - 1])
    ensures WindowHolds(l, id, Replay(l, id, prefix + [now]), now)
  {
    var times := prefix + [now];
    assert times[..|times| - 1] == prefix;
    var p := Replay(l, id, prefix);
    WindowStep(p.0, id, p.1, prefix[|prefix| - 1], now);
  }

  /** For a client with no history and calls at non-decreasing times, the
      stored list after the last call is exactly the admitted times of the
      last minute, and the last minute holds at most `requests_per_minute`
      and the last second at most `burst_size` admitted requests. */
  lemma {:induction false} WindowRespected(l: Limiter, id: string, times: seq<real>)
    requires History(l, id) == [] && times != [] && NonDecreasing(times)
    ensures WindowHolds(l, id, Replay(l, id, times), times[|times| - 1])
    decreases |times|
  {
    var prefix := times[..|times| - 1];
    var now := times[|times| - 1];
    assert times == prefix + [now];
    if prefix == [] {
      assert Replay(l, id, prefix) == (l, []);
      WindowStep(l, id, [], now, now);
    } else {
      PrefixNonDecreasing(times);
      WindowRespected(l, id, prefix);
      WindowExtend(l, id, prefix, now);
    }
  }

  /** The rate guarantee itself: after any run of calls from a fresh
      client, the minute ending at the last call holds at most
      `requests_per_minute` admitted requests and the second ending there at
      most `burst_size`. */
  lemma AdmittedWithinLimits(l: Limiter, id: string, times: seq<real>)
    requires History(l, id) == [] && times != [] && NonDecreasing(times)
    ensures var admitted := Replay(l, id, times).1;
      && |Above(admitted, times[|times| - 1] - 60.0)| <= Cap(l.requestsPerMinute)
      && |Above(admitted, times[|times| - 1] - 1.0)| <= Cap(l.burstSize)
  {
    WindowRespected(l, id, times);
  }

  // ---------------------------------------------------------------------
  // The middleware and the two limiters

  /** The paths that are never limited. */
  const BypassPaths: seq<string> := ["/", "/health", "/docs", "/openapi.json"]

  predicate Bypassed(path: string) {
    path in BypassPaths
  }

  /** The client key: the `Authorization` header as sent (so a key is
      limited whatever host it comes from), else the client host, else
      `"anonymous"`. */
  function ClientId(authorization: Option<string>, clientHost: Option<string>): (id: string)
    ensures id != ""
    ensures authorization.Some? && authorization.value != "" ==> id == authorization.value
    ensures (authorization.None? || authorization.value == "") && clientHost.Some? && clientHost.value != "" ==>
      id == clientHost.value
    ensures (authorization.None? || authorization.value == "") && (clientHost.None? || clientHost.value == "") ==>
      id == "anonymous"
  {
    var header := if authorization.Some? then authorization.value else "";
    var id := if header == "" && clientHost.Some? then clientHost.value else header;
    if id == "" then "anonymous" else id
  }

  /** What the middleware does with a request: pass it on, or raise the 429
      with a `Retry-After` of that many seconds. */
  datatype Decision = Pass | Limited(retryAfter: nat)

  datatype Handled = Handled(decision: Decision, limiter: Limiter)

  /** `RateLimitMiddleware.__call__`. Both clock reads of one request are
      taken at the same instant. */
  function Middleware(l: Limiter, path: string, authorization: Option<string>, clientHost: Option<string>, now: real)
    : (h: Handled)
    ensures Bypassed(path) ==> h == Handled(Pass, l)
    ensures !Bypassed(path) ==>
      var id := ClientId(authorization, clientHost);
      && (h.decision == Pass <==> IsAllowed(l, id, now).allowed)
      && (forall other :: other != id ==> History(h.limiter, other) == History(l, other))
      && (h.decision.Limited? ==> History(h.limiter, id) == Above(History(l, id), now - 60.0))
      && (h.decision.Limited? ==>
            h.decision.retryAfter == GetRetryAfter(IsAllowed(l, id, now).limiter, id, now).seconds)
  {
    if Bypassed(path) then Handled(Pass, l)
    else
      var id := ClientId(authorization, clientHost);
      var c := IsAllowed(l, id, now);
      if c.allowed then Handled(Pass, c.limiter)
      else
        var r := GetRetryAfter(c.limiter, id, now);
        AboveTwice(History(l, id), now - 60.0, now - 60.0);
        Handled(Limited(r.seconds), r.limiter)
  }

  /** A client refused because its last minute is full is told a wait
      after which, plus one second, its minute window has a free slot. */
  lemma {:induction false} AdvertisedWaitFreesSlot(
    l: Limiter, path: string, authorization: Option<string>, clientHost: Option<string>, now: real)
    requires !Bypassed(path)
    requires var id := ClientId(authorization, clientHost);
      && (forall t :: t in History(l, id) ==> t <= now)
      && l.requestsPerMinute >= 1
      && |Above(History(l, id), now - 60.0)| == l.requestsPerMinute
    ensures var h := Middleware(l, path, authorization, clientHost, now);
      var id := ClientId(authorization, clientHost);
      && h.decision.Limited?
      && LeftAfter(History(h.limiter, id), now, h.decision.retryAfter) < l.requestsPerMinute
  {
    var id := ClientId(authorization, clientHost);
    WaitingFreesSlot(l, id, now);
    var c := IsAllowed(l, id, now);
    var r := GetRetryAfter(c.limiter, id, now);
    var recent := Above(History(l, id), now - 60.0);
    AboveTwice(History(l, id), now - 60.0, now - 60.0);
    assert History(r.limiter, id) == recent;
  }

  /** The `Retry-After` header of a 429: the wait in decimal digits. */
  function RetryAfterHeader(seconds: nat): (h: string)
    ensures |h| > 0 && forall i :: 0 <= i < |h| ==> IsDigit(h[i])
    ensures DecimalValue(h) == seconds
  {
    NatToStringRoundTrip(seconds);
    NatToString(seconds)
  }

  /** Two requests with different non-empty keys are counted separately:
      one client's calls never change another's window. */
  lemma KeysLimitedSeparately(l: Limiter, a: string, b: string, host: Option<string>, path: string, now: real)
    requires a != "" && b != "" && a != b && !Bypassed(path)
    ensures History(Middleware(l, path, Some(a), host, now).limiter, b) == History(l, b)
  {
  }

  /** `transcription_rate_limiter`: ten requests a minute per allowed
      concurrent request, with a burst of the concurrency limit. */
  function TranscriptionLimiter(s: Config.Settings): (l: Limiter)
    ensures forall id :: History(l, id) == []
    ensures l.requestsPerMinute == 10 * s.maxConcurrentRequests && l.burstSize == s.maxConcurrentRequests
  {
    Initial(s.maxConcurrentRequests * 10, s.maxConcurrentRequests)
  }

  /** `api_rate_limiter`: ten requests a second on average, bursts of 20. */
  const ApiLimiter: Limiter := Initial(600, 20)

  /** With validated settings the transcription limiter admits something,
      and its burst never exceeds its per-minute allowance; with the
      defaults it is 100 a minute in bursts of 10. */
  lemma TranscriptionLimiterSane(s: Config.Settings)
    requires Config.ValidateSettings(s).Ok?
    ensures var l := TranscriptionLimiter(s);
      0 < l.burstSize <= l.requestsPerMinute
    ensures TranscriptionLimiter(Config.Defaults) == Limiter(100, 10, map[])
    ensures ApiLimiter == Limiter(600, 20, map[])
  {
  }
}

=== FILE: requests.dfy ===
/** `TranscriptionRequest` of src/models/requests.py and how pydantic
    validates it. Fields are validated in declaration order; a field whose
    own type, literal or range check fails records a validation error and
    skips its `field_validator`; a validator that raises
    `UnsupportedParameterError` (not a `ValueError`) aborts validation at
    once, so the first such field wins over every recorded error. */
module Requests {
  import opened Wrappers
  import opened Exceptions

  /** A field as the client sent it: left out, sent as null, or given. */
  datatype Field<T> = Absent | Null | Given(value: T)

  datatype RawRequest = RawRequest(
    model: Field<string>, language: Field<string>, prompt: Field<string>,
    responseFormat: Field<string>, temperature: Field<real>,
    timestampGranularities: Field<seq<string>>, chunkingStrategy: Field<string>,
    includes: Field<seq<string>>, stream: Field<bool>)

  datatype TranscriptionRequest = TranscriptionRequest(
    model: string, language: Option<string>, prompt: Option<string>,
    responseFormat: Option<string>, temperature: Option<real>,
    timestampGranularities: Option<seq<string>>, chunkingStrategy: Option<string>,
    includes: Option<seq<string>>, stream: Option<bool>)

  /** One recorded pydantic error: the field, the list index for an item
      of a list, and the error type. */
  datatype FieldError = FieldError(field: string, index: Option<nat>, kind: string)

  datatype Rejection = Unsupported(error: ApiError) | Invalid(errors: seq<FieldError>)

  const DefaultModel: string := "whisper-1"

  /** The literal values `response_format` may take. */
  const ResponseFormats: set<string> := {"json", "text", "srt", "verbose_json", "vtt"}

  /** The literal values an item of `timestamp_granularities` may take. */
  const Granularities: set<string> := {"word", "segment"}

  /** The models for which streaming is refused. */
  const NoStreamModels: set<string> := {"gpt-4o-transcribe", "gpt-4o-mini-transcribe"}

  /** The value a field takes: its default when left out. */
  function Resolve<T>(f: Field<T>, fallback: Option<T>): Option<T> {
    match f
    case Absent => fallback
    case Null => None
    case Given(v) => Some(v)
  }

  /** The request built from fields that all passed. */
  function Build(raw: RawRequest): TranscriptionRequest {
    TranscriptionRequest(
      if raw.model.Given? then raw.model.value else DefaultModel,
      Resolve(raw.language, None), Resolve(raw.prompt, None),
      Resolve(raw.responseFormat, Some("json")), Resolve(raw.temperature, None),
      Resolve(raw.timestampGranularities, None), Resolve(raw.chunkingStrategy, None),
      Resolve(raw.includes, None), Resolve(raw.stream, Some(false)))
  }

  /** `TranscriptionRequest()` with nothing sent. */
  const DefaultRequest: TranscriptionRequest :=
    TranscriptionRequest(DefaultModel, None, None, Some("json"), None, None, None, None, Some(false))

  // ---------------------------------------------------------------------
  // The field validators (run only on values that were sent)

  /** `validate_language`: only English. */
  function LanguageRaise(f: Field<string>): (e: Option<ApiError>)
    ensures e.None? <==> !f.Given? || f.value == "en"
    ensures e.Some? ==> e.value.UnsupportedParameterError? && e.value.parameter == "language"
  {
    if f.Given? && f.value != "en" then
      Some(UnsupportedParameterError("language", VStr(f.value), "Only English ('en') is supported by this model."))
    else None
  }

  /** `validate_response_format`, reached only by a value that passed the
      literal check. */
  function ResponseFormatRaise(f: Field<string>): (e: Option<ApiError>)
    ensures e.None? <==> !f.Given? || f.value !in ResponseFormats || f.value == "json"
    ensures e.Some? ==> e.value.UnsupportedParameterError? && e.value.parameter == "response_format"
  {
    if f.Given? && f.value in ResponseFormats && f.value != "json" then
      Some(UnsupportedParameterError("response_format", VStr(f.value), "Only 'json' format is supported."))
    else None
  }

  /** The indices of the items outside the literal set. */
  function BadItems(items: seq<string>, allowed: set<string>, from: nat): (r: seq<FieldError>)
    ensures |r| <= |items|
    ensures r == [] <==> forall i :: 0 <= i < |items| ==> items[i] in allowed
    decreases |items|
  {
    if items == [] then []
    else
      (if items[0] in allowed then [] else [FieldError("timestamp_granularities", Some(from), "literal_error")])
      + BadItems(items[1..], allowed, from + 1)
  }

  /** `validate_timestamp_granularities`: any list that passed the literal
      checks is refused, the empty list included. */
  function TimestampsRaise(f: Field<seq<string>>): (e: Option<ApiError>)
    ensures e.None? <==> !f.Given? || BadItems(f.value, Granularities, 0) != []
    ensures e.Some? ==> e.value.UnsupportedParameterError? && e.value.parameter == "timestamp_granularities"
  {
    if f.Given? && BadItems(f.value, Granularities, 0) == [] then
      Some(UnsupportedParameterError("timestamp_granularities", VList(f.value),
        "Timestamp granularities are not supported by this implementation."))
    else None
  }

  /** The model as `values.data` holds it when `stream` is validated: the
      validated model, or `"whisper-1"` when it did not validate or was
      left out. */
  function ModelSeen(raw: RawRequest): string {
    if raw.model.Given? then raw.model.value else DefaultModel
  }

  /** `validate_stream`: streaming is refused for the two gpt-4o models. */
  function StreamRaise(f: Field<bool>, model: string): (e: Option<ApiError>)
    ensures e.None? <==> f != Given(true) || model !in NoStreamModels
    ensures e.Some? ==> e.value.UnsupportedParameterError? && e.value.parameter == "stream"
  {
    if f == Given(true) && model in NoStreamModels then
      Some(UnsupportedParameterError("stream", VBool(true),
        "Streaming is not supported for model '" + model + "'."))
    else None
  }

  /** The first exception raised by a validator, in field order. */
  function FirstRaise(raw: RawRequest): (e: Option<ApiError>)
    ensures LanguageRaise(raw.language).Some? ==> e == LanguageRaise(raw.language)
    ensures e.None? <==>
      && LanguageRaise(raw.language).None? && ResponseFormatRaise(raw.responseFormat).None?
      && TimestampsRaise(raw.timestampGranularities).None?
      && StreamRaise(raw.stream, ModelSeen(raw)).None?
  {
    if LanguageRaise(raw.language).Some? then LanguageRaise(raw.language)
    else if ResponseFormatRaise(raw.responseFormat).Some? then ResponseFormatRaise(raw.responseFormat)
    else if TimestampsRaise(raw.timestampGranularities).Some? then TimestampsRaise(raw.timestampGranularities)
    else StreamRaise(raw.stream, ModelSeen(raw))
  }

  /** The errors of the type, literal and range checks, in field order. */
  function FieldErrors(raw: RawRequest): (errs: seq<FieldError>)
    ensures errs == [] <==>
      && raw.model != Null
      && (raw.responseFormat.Given? ==> raw.responseFormat.value in ResponseFormats)
      && (raw.temperature.Given? ==> 0.0 <= raw.temperature.value <= 1.0)
      && (raw.timestampGranularities.Given? ==> BadItems(raw.timestampGranularities.value, Granularities, 0) == [])
  {
    (if raw.model == Null then [FieldError("model", None, "string_type")] else [])
    + (if raw.responseFormat.Given? && raw.responseFormat.value !in ResponseFormats
       then [FieldError("response_format", None, "literal_error")] else [])
    + (if raw.temperature.Given? && raw.temperature.value < 0.0
       then [FieldError("temperature", None, "greater_than_equal")]
       else if raw.temperature.Given? && raw.temperature.value > 1.0
       then [FieldError("temperature", None, "less_than_equal")] else [])
    + (if raw.timestampGranularities.Given? then BadItems(raw.timestampGranularities.value, Granularities, 0) else [])
  }

  /** `TranscriptionRequest(**fields)`. */
  function Validate(raw: RawRequest): (r: Result<TranscriptionRequest, Rejection>)
    ensures r.Err? && r.error.Unsupported? ==> r.error.error.UnsupportedParameterError?
    ensures r.Err? && r.error.Invalid? ==> r.error.errors != []
    ensures r.Ok? ==> r.value == Build(raw)
  {
    match FirstRaise(raw)
    case Some(e) => Err(Unsupported(e))
    case None => if FieldErrors(raw) != [] then Err(Invalid(FieldErrors(raw))) else Ok(Build(raw))
  }

  // ---------------------------------------------------------------------
  // Properties

  /** A validated request has English or no language, JSON or no format,
      no timestamp granularities, a temperature within [0, 1], and does not
      stream from a gpt-4o model; the model name is kept as sent. */
  lemma ValidRequestFields(raw: RawRequest)
    requires Validate(raw).Ok?
    ensures var q := Validate(raw).value;
      && (q.language == None || q.language == Some("en"))
      && (q.responseFormat == None || q.responseFormat == Some("json"))
      && q.timestampGranularities == None
      && (q.temperature.Some? ==> 0.0 <= q.temperature.value <= 1.0)
      && (q.stream == Some(true) ==> q.model !in NoStreamModels)
      && (raw.model.Given? ==> q.model == raw.model.value)
  {
  }

  /** The request is accepted exactly when every field is acceptable. */
  lemma AcceptsExactly(raw: RawRequest)
    ensures Validate(raw).Ok? <==>
      && raw.model != Null
      && (raw.language.Given? ==> raw.language.value == "en")
      && (raw.responseFormat.Given? ==> raw.responseFormat.value == "json")
      && (raw.temperature.Given? ==> 0.0 <= raw.temperature.value <= 1.0)
      && !raw.timestampGranularities.Given?
      && (raw.stream == Given(true) ==> ModelSeen(raw) !in NoStreamModels)
  {
  }

  /** An unsupported language is reported whatever else is wrong. */
  lemma LanguageReportedFirst(raw: RawRequest)
    requires raw.language.Given? && raw.language.value != "en"
    ensures Validate(raw) == Err(Unsupported(UnsupportedParameterError(
      "language", VStr(raw.language.value), "Only English ('en') is supported by this model.")))
  {
  }

  /** A literal error in `response_format` is reported only when no
      validator raised: then the whole request is invalid with that error
      listed. */
  lemma LiteralErrorCollected(raw: RawRequest)
    requires raw.responseFormat.Given? && raw.responseFormat.value !in ResponseFormats
    ensures FirstRaise(raw).Some? ==> Validate(raw) == Err(Unsupported(FirstRaise(raw).value))
    ensures FirstRaise(raw).None? ==>
      Validate(raw).Err? && Validate(raw).error.Invalid? &&
      FieldError("response_format", None, "literal_error") in Validate(raw).error.errors
  {
  }

  /** Streaming is refused exactly for the two gpt-4o models, everything
      else being acceptable. */
  lemma StreamRefusedPerModel(model: string)
    ensures var raw := RawRequest(Given(model), Absent, Absent, Absent, Absent, Absent, Absent, Absent, Given(true));
      Validate(raw).Ok? <==> model !in NoStreamModels
  {
  }

  /** A request with nothing sent gets every default. */
  lemma DefaultsApply()
    ensures Validate(RawRequest(Absent, Absent, Absent, Absent, Absent, Absent, Absent, Absent, Absent))
      == Ok(DefaultRequest)
  {
  }
}

=== FILE: responses.dfy ===
/** The response models of src/models/responses.py: the fixed token usage,
    the transcription response and the catalogue of the four model aliases. */
module Responses {
  import opened Wrappers

  datatype TokenUsageDetails = TokenUsageDetails(textTokens: int, audioTokens: int)

  datatype TokenUsage = TokenUsage(
    usageType: string, inputTokens: int, inputTokenDetails: TokenUsageDetails,
    outputTokens: int, totalTokens: int)

  datatype TranscriptionResponse = TranscriptionResponse(text: string, usage: TokenUsage)

  datatype ModelInfo = ModelInfo(id: string, objectType: string, created: int, ownedBy: string)

  datatype ModelListResponse = ModelListResponse(objectType: string, data: seq<ModelInfo>)

  /** The usage every response reports: one audio input token, one output
      token. */
  function DefaultUsage(): (u: TokenUsage)
    ensures u.usageType == "tokens"
    ensures u.totalTokens == u.inputTokens + u.outputTokens == 2
    ensures u.inputTokens == u.inputTokenDetails.textTokens + u.inputTokenDetails.audioTokens
    ensures u.inputTokenDetails.textTokens == 0
  {
    TokenUsage("tokens", 1, TokenUsageDetails(0, 1), 1, 2)
  }

  /** `TranscriptionResponse(text=...)`, the usage left at its default. */
  function MakeResponse(text: string): (r: TranscriptionResponse)
    ensures r.text == text && r.usage == DefaultUsage()
  {
    TranscriptionResponse(text, DefaultUsage())
  }

  /** The usage does not depend on the text, the empty text included. */
  lemma UsageIndependentOfText(a: string, b: string)
    ensures MakeResponse(a).usage == MakeResponse(b).usage
    ensures MakeResponse(a).usage.totalTokens == 2
  {
  }

  const Created: int := 1744718400
  const OwnedBy: string := "parakeet-tdt-0.6b-v2-released-by-nvidia-with-cc-by-40-license"

  function Entry(id: string): ModelInfo {
    ModelInfo(id, "model", Created, OwnedBy)
  }

  /** `AVAILABLE_MODELS`, in catalogue order. */
  const AvailableModels: seq<ModelInfo> := [
    Entry("gpt-4o-transcribe"),
    Entry("gpt-4o-mini-transcribe"),
    Entry("parakeet-tdt-0.6b-v2"),
    Entry("whisper-1")
  ]

  /** The catalogue ids as a set. */
  function CatalogueIds(): (ids: set<string>)
    ensures forall id :: id in ids <==> exists i :: 0 <= i < |AvailableModels| && AvailableModels[i].id == id
  {
    set i | 0 <= i < |AvailableModels| :: AvailableModels[i].id
  }

  /** Four entries with distinct ids, all of one creation time and owner. */
  lemma CatalogueShape()
    ensures |AvailableModels| == 4
    ensures forall i, j :: 0 <= i < j < |AvailableModels| ==> AvailableModels[i].id != AvailableModels[j].id
    ensures forall i :: 0 <= i < |AvailableModels| ==>
      AvailableModels[i].objectType == "model" && AvailableModels[i].created == Created &&
      AvailableModels[i].ownedBy == OwnedBy
  {
  }

  /** `get_model_list`. */
  function GetModelList(): (r: ModelListResponse)
    ensures r.objectType == "list" && r.data == AvailableModels
  {
    ModelListResponse("list", AvailableModels)
  }

  /** The first entry of `models` with the given id, found by a forward
      scan as `get_model_info` does. */
  method FindModel(models: seq<ModelInfo>, id: string) returns (r: Option<ModelInfo>)
    ensures r.None? <==> forall i :: 0 <= i < |models| ==> models[i].id != id
    ensures r.Some? ==> r.value.id == id
    ensures r.Some? ==>
      exists k :: 0 <= k < |models| && models[k] == r.value && (forall j :: 0 <= j < k ==> models[j].id != id)
  {
    var i := 0;
    while i < |models|
      invariant 0 <= i <= |models|
      invariant forall j :: 0 <= j < i ==> models[j].id != id
    {
      if models[i].id == id {
        return Some(models[i]);
      }
      i := i + 1;
    }
    return None;
  }

  /** `get_model_info`: the catalogue entry with that id, if there is one. */
  method GetModelInfo(id: string) returns (r: Option<ModelInfo>)
    ensures r.Some? <==> id in CatalogueIds()
    ensures r.Some? ==> r.value == Entry(id)
  {
    r := FindModel(AvailableModels, id);
  }
}

=== FILE: routes.dfy ===
/** The validation stage of the transcription route
    (src/api/routes/transcription.py:124-171): the form fields become a
    `TranscriptionRequest`, and a refused form is answered with an HTTP
    status before the upload is looked at. */
module Routes {
  import opened Wrappers
  import opened Exceptions
  import opened Requests
  import EH = ErrorHandler

  /** The form of `transcribe_audio` after its defaults apply. `model`,
      `response_format` and `stream` have form defaults, so they are always
      present; the two list fields are already parsed. */
  datatype Form = Form(
    model: string, language: Option<string>, prompt: Option<string>,
    responseFormat: string, temperature: Option<real>,
    timestampGranularities: Option<seq<string>>, chunkingStrategy: Option<string>,
    includes: Option<seq<string>>, stream: bool)

  /** A form value passed as a keyword argument: `None` is sent as null. */
  function Sent<T>(o: Option<T>): (f: Field<T>)
    ensures f != Absent
    ensures f.Given? <==> o.Some?
    ensures f.Given? ==> f.value == o.value
  {
    match o
    case None => Null
    case Some(v) => Given(v)
  }

  /** The keyword arguments of `TranscriptionRequest(...)` in the route:
      every field is passed explicitly. */
  function ToRaw(form: Form): (raw: RawRequest)
    ensures raw.model == Given(form.model) && raw.responseFormat == Given(form.responseFormat)
    ensures raw.stream == Given(form.stream)
    ensures raw.language.Given? <==> form.language.Some?
    ensures raw.timestampGranularities.Given? <==> form.timestampGranularities.Some?
  {
    RawRequest(Given(form.model), Sent(form.language), Sent(form.prompt),
      Given(form.responseFormat), Sent(form.temperature),
      Sent(form.timestampGranularities), Sent(form.chunkingStrategy),
      Sent(form.includes), Given(form.stream))
  }

  /** The status of a refused form, as written: an
      `UnsupportedParameterError` goes through `get_status_code`, which
      does not list it, and any other validation failure is a plain 400. */
  function RefusalStatusAsWritten(rej: Rejection): (code: int)
    ensures rej.Invalid? ==> code == 400
    ensures rej.Unsupported? && rej.error.UnsupportedParameterError? ==>
      code == 500 && code != StatusCode(rej.error)
  {
    match rej
    case Unsupported(e) => EH.GetStatusCode(Typed(e))
    case Invalid(_) => 400
  }

  /** The status of a refused form with the corrected mapping: the status
      the raised exception carries, or 400 for pydantic's own errors. */
  function RefusalStatus(rej: Rejection): (code: int)
    ensures rej.Unsupported? && rej.error.UnsupportedParameterError? ==> code == StatusCode(rej.error)
    ensures rej.Invalid? ==> code == 400
  {
    match rej
    case Unsupported(e) => EH.GetStatusCodeCorrected(Typed(e))
    case Invalid(_) => 400
  }

  /** As written, every form a field validator refuses is answered 500
      although the exception carries 400. */
  lemma UnsupportedAnswered500(form: Form)
    requires Validate(ToRaw(form)).Err? && Validate(ToRaw(form)).error.Unsupported?
    ensures var e := Validate(ToRaw(form)).error.error;
      RefusalStatusAsWritten(Validate(ToRaw(form)).error) == 500 && StatusCode(e) == 400
  {
  }

  /** With the corrected mapping, every refused form is answered 400. */
  lemma EveryRefusalAnswers400(form: Form)
    requires Validate(ToRaw(form)).Err?
    ensures RefusalStatus(Validate(ToRaw(form)).error) == 400
  {
  }

  /** A form with everything at its default except `language`. */
  function WithLanguage(language: string): Form {
    Form("whisper-1", Some(language), None, "json", None, None, None, None, false)
  }

  /** The French form of the route tests: refused by the language validator
      and, as written, answered 500. */
  lemma FrenchCounterexample()
    ensures Validate(ToRaw(WithLanguage("fr"))).Err?
    ensures Validate(ToRaw(WithLanguage("fr"))).error.Unsupported?
    ensures RefusalStatusAsWritten(Validate(ToRaw(WithLanguage("fr"))).error) == 500
    ensures RefusalStatus(Validate(ToRaw(WithLanguage("fr"))).error) == 400
  {
    var raw := ToRaw(WithLanguage("fr"));
    LanguageReportedFirst(raw);
  }

  /** The other three refused forms of the route tests: JSON-only output,
      no streaming from gpt-4o-transcribe, and no timestamp granularities.
      Each is refused by a field validator, so it is answered 500 as
      written and 400 with the corrected mapping. */
  lemma OtherTestFormsRefused()
    ensures var forms := [
        Form("whisper-1", None, None, "text", None, None, None, None, false),
        Form("gpt-4o-transcribe", None, None, "json", None, None, None, None, true),
        Form("whisper-1", None, None, "json", None, Some(["word"]), None, None, false)];
      forall i :: 0 <= i < |forms| ==>
        && Validate(ToRaw(forms[i])).Err? && Validate(ToRaw(forms[i])).error.Unsupported?
        && RefusalStatusAsWritten(Validate(ToRaw(forms[i])).error) == 500
        && RefusalStatus(Validate(ToRaw(forms[i])).error) == 400
  {
  }
}

=== FILE: text.dfy ===
/** String helpers shared by the validators, the configuration checks and the
    error classifier. Case mapping is ASCII-only: Python's `str.lower` and
    `str.upper` agree with it on every ASCII character. */
module Text {

  predicate IsUpper(c: char) { 'A' <= c <= 'Z' }
  predicate IsLower(c: char) { 'a' <= c <= 'z' }
  predicate IsDigit(c: char) { '0' <= c <= '9' }

  function LowerChar(c: char): (d: char)
    ensures !IsUpper(d)
    ensures IsLower(c) || IsDigit(c) ==> d == c
  {
    if IsUpper(c) then (c as int + 32) as char else c
  }

  function UpperChar(c: char): (d: char)
    ensures !IsLower(d)
  {
    if IsLower(c) then (c as int - 32) as char else c
  }

  /** Lower-casing forgets an earlier upper-casing. */
  lemma LowerOfUpper(c: char)
    ensures LowerChar(UpperChar(c)) == LowerChar(c)
  {
  }

  /** Upper-casing forgets the case the character had. */
  lemma UpperOfLower(c: char)
    ensures UpperChar(LowerChar(c)) == UpperChar(c)
    ensures UpperChar(UpperChar(c)) == UpperChar(c)
    ensures LowerChar(LowerChar(c)) == LowerChar(c)
  {
  }

  /** `s.lower()` restricted to ASCII case mapping. */
  function Lower(s: string): (r: string)
    ensures |r| == |s|
    ensures forall i :: 0 <= i < |s| ==> r[i] == LowerChar(s[i])
  {
    seq(|s|, i requires 0 <= i < |s| => LowerChar(s[i]))
  }

  /** Lower-casing leaves a leading dot in front of the lowered rest. */
  lemma LowerAfterDot(s: string)
    requires |s| > 0 && s[0] == '.'
    ensures Lower(s) == "." + Lower(s[1..])
  {
    var r := "." + Lower(s[1..]);
    assert forall i :: 0 <= i < |s| ==> Lower(s)[i] == r[i];
  }

  /** `s.upper()` restricted to ASCII case mapping. */
  function Upper(s: string): (r: string)
    ensures |r| == |s|
    ensures forall i :: 0 <= i < |s| ==> r[i] == UpperChar(s[i])
  {
    seq(|s|, i requires 0 <= i < |s| => UpperChar(s[i]))
  }

  /** The ASCII characters for which Python's `str.isspace` holds; these are
      what `str.strip()` and `str.split()` treat as whitespace. */
  predicate IsSpace(c: char) {
    c == ' ' || (9 <= c as int <= 13) || (28 <= c as int <= 31)
  }

  /** Python `s.strip()`. */
  function Strip(s: string): (r: string)
    ensures |r| <= |s|
    ensures |r| > 0 ==> !IsSpace(r[0]) && !IsSpace(r[|r| - 1])
    decreases |s|
  {
    if |s| > 0 && IsSpace(s[0]) then Strip(s[1..])
    else if |s| > 0 && IsSpace(s[|s| - 1]) then Strip(s[..|s| - 1])
    else s
  }

  /** Python `s.lstrip(c)` for a single character `c`. */
  function LStrip(s: string, c: char): (r: string)
    ensures |r| <= |s|
    ensures |r| > 0 ==> r[0] != c
    ensures r == s[|s| - |r|..]
  {
    if |s| > 0 && s[0] == c then LStrip(s[1..], c) else s
  }

  predicate StartsWith(s: string, prefix: string) {
    |prefix| <= |s| && s[..|prefix|] == prefix
  }

  /** Python's `sub in s`. */
  predicate Contains(s: string, sub: string)
    decreases |s|
  {
    StartsWith(s, sub) || (|s| > 0 && Contains(s[1..], sub))
  }

  /** `sep.join(words)`. */
  function Join(sep: string, words: seq<string>): string {
    if |words| == 0 then ""
    else if |words| == 1 then words[0]
    else words[0] + sep + Join(sep, words[1..])
  }

  function DigitChar(d: nat): (c: char)
    requires d < 10
    ensures IsDigit(c)
  {
    ('0' as int + d) as char
  }

  function DigitValue(c: char): (d: nat)
    requires IsDigit(c)
    ensures d < 10
  {
    c as int - '0' as int
  }

  /** Python's `str(n)` for a non-negative integer. */
  function NatToString(n: nat): (s: string)
    ensures |s| > 0
    ensures forall i :: 0 <= i < |s| ==> IsDigit(s[i])
    decreases n
  {
    if n < 10 then [DigitChar(n)] else NatToString(n / 10) + [DigitChar(n % 10)]
  }

  /** The number a non-empty string of decimal digits denotes. */
  function DecimalValue(s: string): nat
    requires forall i :: 0 <= i < |s| ==> IsDigit(s[i])
  {
    if |s| == 0 then 0 else DecimalValue(s[..|s| - 1]) * 10 + DigitValue(s[|s| - 1])
  }

  /** Reading back the decimal rendering gives the number, and the rendering
      has no leading zero. */
  lemma {:induction false} NatToStringRoundTrip(n: nat)
    ensures DecimalValue(NatToString(n)) == n
    ensures NatToString(n)[0] == '0' ==> n == 0
    decreases n
  {
    var s := NatToString(n);
    if n >= 10 {
      NatToStringRoundTrip(n / 10);
      var p := NatToString(n / 10);
      assert s[..|s| - 1] == p;
      assert s[0] == p[0];
    }
  }
}

=== FILE: transcription.dfy ===
/** The transcription workflow of src/services/transcription.py: sanitise
    and validate the upload, save it, process it, ask the model, and clean
    up whatever was created. The request's parameters only reach logging,
    so they are not inputs here; the upload is represented by its size. */
module Transcription {
  import opened Wrappers
  import opened Paths
  import opened Exceptions
  import opened AudioProcessor
  import opened Validators
  import MM = ModelManager
  import opened Responses

  /** `get_supported_models`: the four aliases, in the order listed. */
  const SupportedModels: seq<string> :=
    ["gpt-4o-transcribe", "gpt-4o-mini-transcribe", "parakeet-tdt-0.6b-v2", "whisper-1"]

  /** `is_model_supported`: membership in that list. */
  predicate IsModelSupported(name: string) {
    name in SupportedModels
  }

  /** The service's list names exactly the catalogue's models, in
      catalogue order. */
  lemma SupportedModelsAreCatalogue()
    ensures |SupportedModels| == |AvailableModels|
    ensures forall i :: 0 <= i < |SupportedModels| ==> SupportedModels[i] == AvailableModels[i].id
    ensures forall name :: IsModelSupported(name) <==> name in CatalogueIds()
  {
  }

  /** The effects one request has, in order: the upload was saved, it was
      converted, a failed write or conversion left a new file behind, the
      model was asked, a file was cleaned up. */
  datatype Event =
    | Saved(path: Path) | Converted(path: Path) | Stranded(path: Path)
    | Transcribed(path: Path) | Cleaned(path: Path)

  /** The event for `p` when a failed step made it a new file. */
  function StrandedIfNew(p: Path, before: Disk, after: Disk): (t: seq<Event>)
    ensures t == [] || t == [Stranded(p)]
    ensures t == [Stranded(p)] <==> p in after.files && p !in before.files
  {
    if p in after.files && p !in before.files then [Stranded(p)] else []
  }

  /** What the outside world does during one request: the random upload
      token, the write, the `exists()` check, ffprobe, ffmpeg, the engine. */
  datatype Environment = Environment(
    token: string, write: WriteRun, statError: Option<string>,
    probe: ProbeRun, ffmpeg: FfmpegRun, engine: MM.EngineRun)

  /** The outcome of `transcribe_audio`: the text or the exception, the
      events, and the file system afterwards. */
  datatype Run = Run(result: Result<TranscriptionResponse, Failure>, trace: seq<Event>, disk: Disk)

  /** The state the `try` block leaves for the `finally` clause. */
  datatype Attempt = Attempt(
    outcome: Result<TranscriptionResponse, Failure>, processed: Option<Path>, needsCleanup: bool,
    events: seq<Event>, disk: Disk)

  /** The four classes the service re-raises unchanged. */
  predicate Expected(f: Failure) {
    f.Typed? &&
    (f.error.AudioValidationError? || f.error.AudioProcessingError? ||
     f.error.ModelError? || f.error.ModelNotLoadedError?)
  }

  /** The `except` clauses of the `try` block: expected classes pass, any
      other exception becomes a `ModelError` quoting its text. */
  function Reraise(f: Failure): (g: Failure)
    ensures Expected(g)
    ensures Expected(f) ==> g == f
    ensures !Expected(f) ==> g == Typed(ModelFailure("Transcription failed: " + TextOf(f)))
  {
    if Expected(f) then f else Typed(ModelFailure("Transcription failed: " + TextOf(f)))
  }

  /** `transcriptions[0] if transcriptions else ""`. */
  function FirstOrEmpty(ts: seq<string>): (t: string)
    ensures ts == [] ==> t == ""
    ensures ts != [] ==> t == ts[0]
  {
    if ts == [] then "" else ts[0]
  }

  /** The rest of the `try` block once `p` is the processed file: check the
      model, ask it, and take the first transcription. */
  function AskModel(m: MM.Manager, p: Path, conv: bool, engine: MM.EngineRun, disk: Disk): (a: Attempt)
    requires MM.Valid(m)
    ensures a.processed == Some(p) && a.needsCleanup == conv && a.disk == disk
    ensures a.outcome.Err? ==> Expected(a.outcome.error)
    ensures a.events == (if conv then [Converted(p)] else []) + (if MM.IsLoaded(m) then [Transcribed(p)] else [])
    ensures !MM.IsLoaded(m) ==> a.outcome == Err(Typed(ModelNotLoadedError))
    ensures a.outcome.Ok? <==> MM.IsLoaded(m) && engine.Returned?
    ensures a.outcome.Ok? ==> a.outcome.value == MakeResponse(FirstOrEmpty(MM.NormaliseOutput(engine.raw)))
  {
    var ev := if conv then [Converted(p)] else [];
    if !MM.IsLoaded(m) then Attempt(Err(Typed(ModelNotLoadedError)), Some(p), conv, ev, disk)
    else
      match MM.Transcribe(m, MM.Single(MM.PathValue(p)), engine).result
      case Err(e) => Attempt(Err(Reraise(Typed(e))), Some(p), conv, ev + [Transcribed(p)], disk)
      case Ok(ts) => Attempt(Ok(MakeResponse(FirstOrEmpty(ts))), Some(p), conv, ev + [Transcribed(p)], disk)
  }

  /** The `try` block, from processing the saved upload to the response. */
  function ProcessAndTranscribe(proc: Processor, m: MM.Manager, uploaded: Path, env: Environment, disk: Disk)
    : (a: Attempt)
    requires MM.Valid(m)
    ensures a.outcome.Err? ==> Expected(a.outcome.error)
    ensures a.processed.None? ==> !a.needsCleanup && a.outcome.Err? && a.disk.undeletable == disk.undeletable
    ensures !MM.IsLoaded(m) ==> a.outcome.Err?
    ensures a.processed.Some? <==>
      ProcessAudioFile(proc, uploaded, disk, env.statError, env.probe, env.ffmpeg).0.Ok?
    ensures !MM.IsLoaded(m) && a.processed.Some? ==> a.outcome == Err(Typed(ModelNotLoadedError))
    ensures a.processed.None? ==> a.events == StrandedIfNew(ConvertedPath(proc, uploaded), disk, a.disk)
    ensures a.processed.None? ==> a.disk.files == disk.files + Made(a)
    ensures a.processed.Some? && !a.needsCleanup ==> a.processed.value == uploaded && a.disk == disk
    ensures a.processed.Some? && a.needsCleanup ==>
      && a.processed.value == ConvertedPath(proc, uploaded)
      && a.disk == disk.(files := disk.files + {a.processed.value})
    ensures a.processed.Some? ==>
      a.events == (if a.needsCleanup then [Converted(a.processed.value)] else []) +
                  (if MM.IsLoaded(m) then [Transcribed(a.processed.value)] else [])
  {
    var (pr, d) := ProcessAudioFile(proc, uploaded, disk, env.statError, env.probe, env.ffmpeg);
    match pr
    case Err(f) =>
      var c := ConvertedPath(proc, uploaded);
      StrandedAccounts(c, disk, d);
      Attempt(Err(Reraise(f)), None, false, StrandedIfNew(c, disk, d), d)
    case Ok((p, conv)) => AskModel(m, p, conv, env.engine, d)
  }

  /** A failed step that may have left `c` behind grows the disk by
      exactly the file its event names. */
  lemma StrandedAccounts(c: Path, before: Disk, after: Disk)
    requires after == before || after == before.(files := before.files + {c})
    ensures after.undeletable == before.undeletable
    ensures after.files == before.files + (if StrandedIfNew(c, before, after) == [] then {} else {c})
  {
  }

  /** `_cleanup_files`: the upload is always cleaned; the processed file
      too when it was converted and differs from the upload. Cleaning
      cannot fail (`cleanup_temp_file` swallows its own errors). */
  function CleanupFiles(proc: Processor, uploaded: Path, processed: Option<Path>, needsCleanup: bool, disk: Disk)
    : (r: (seq<Event>, Disk))
    ensures |r.0| >= 1 && r.0[0] == Cleaned(uploaded)
    ensures forall e :: e in r.0 ==> e.Cleaned?
    ensures Cleaned(uploaded) in r.0
    ensures needsCleanup && processed.Some? ==> Cleaned(processed.value) in r.0
    ensures forall p :: Cleaned(p) in r.0 ==> p == uploaded || (needsCleanup && processed == Some(p))
    ensures |r.0| == 2 <==> needsCleanup && processed.Some? && processed.value != uploaded
    ensures |r.0| <= 2
    ensures r.1.undeletable == disk.undeletable
    ensures r.1.files <= disk.files
    ensures forall p :: Cleaned(p) in r.0 && p.parent == proc.tempDir && p !in disk.undeletable ==> p !in r.1.files
    ensures forall p :: p in disk.files && p !in r.1.files ==> Cleaned(p) in r.0
  {
    var d1 := CleanupTempFile(proc, uploaded, disk);
    if needsCleanup && processed.Some? && processed.value != uploaded then
      ([Cleaned(uploaded), Cleaned(processed.value)], CleanupTempFile(proc, processed.value, d1))
    else ([Cleaned(uploaded)], d1)
  }

  /** What `ProcessAndTranscribe` leaves for the `finally` clause, for an
      upload `u` in the temporary directory and a model that is or is not
      loaded. */
  ghost predicate AttemptShape(proc: Processor, u: Path, loaded: bool, a: Attempt) {
    && u.parent == proc.tempDir
    && (a.processed.None? ==> !a.needsCleanup && a.outcome.Err?)
    && (!loaded ==> a.outcome.Err?)
    && (a.processed.None? ==>
          a.events == [] ||
          (a.events == [Stranded(ConvertedPath(proc, u))] && ConvertedPath(proc, u) != u
           && ConvertedPath(proc, u).parent == proc.tempDir))
    && (a.processed.Some? && !a.needsCleanup ==> a.processed.value == u)
    && (a.processed.Some? && a.needsCleanup ==>
          a.processed.value != u && a.processed.value.parent == proc.tempDir)
    && (a.processed.Some? ==>
          a.events == (if a.needsCleanup then [Converted(a.processed.value)] else []) +
                      (if loaded then [Transcribed(a.processed.value)] else []))
  }

  /** The `finally` clause after a saved upload `u`. */
  function Finish(proc: Processor, u: Path, a: Attempt): (r: Run)
    ensures r.result == a.outcome
    ensures |r.trace| >= 2 && r.trace[0] == Saved(u)
  {
    var cleanup := CleanupFiles(proc, u, a.processed, a.needsCleanup, a.disk);
    Run(a.outcome, [Saved(u)] + a.events + cleanup.0, cleanup.1)
  }

  /** The steps of `transcribe_audio` before its `try` block: the filename
      is sanitised (by the code as written), its extension and then the
      size are checked, and the upload is saved under the random token. A
      failed write may leave the file it had opened. */
  function Admit(proc: Processor, size: nat, filename: string, maxSize: int, env: Environment, disk: Disk)
    : (r: (Result<Path, Failure>, Disk))
    requires IsHexToken(env.token)
    ensures r.0.Ok? <==>
      ValidateFileExtension(SanitizeFilenameAsWritten(filename)).Ok? && size <= maxSize && env.write.Written?
    ensures r.0.Ok? ==> r.0.value == UploadPath(proc, SanitizeFilenameAsWritten(filename), env.token)
    ensures r.0.Ok? ==> r.0.value.parent == proc.tempDir && r.1 == disk.(files := disk.files + {r.0.value})
    ensures r.0.Err? ==> Expected(r.0.error)
    ensures r.0.Err? && (ValidateFileExtension(SanitizeFilenameAsWritten(filename)).Err? || size > maxSize) ==>
      r.0.error.error.AudioValidationError? && r.1 == disk
    ensures r.0.Err? && ValidateFileExtension(SanitizeFilenameAsWritten(filename)).Ok? && size <= maxSize ==>
      && r.0.error.error.AudioProcessingError?
      && r.1 == AddIf(disk, UploadPath(proc, SanitizeFilenameAsWritten(filename), env.token), env.write.created)
    ensures ValidateFileExtension(SanitizeFilenameAsWritten(filename)).Err? ==>
      r.0 == Err(Typed(ValidateFileExtension(SanitizeFilenameAsWritten(filename)).error))
  {
    var safe := SanitizeFilenameAsWritten(filename);
    match ValidateFileExtension(safe)
    case Err(e) => (Err(Typed(e)), disk)
    case Ok(_) =>
      match ValidateFileSize(size, maxSize)
      case Err(e) => (Err(Typed(e)), disk)
      case Ok(_) => SaveUploadedFile(proc, safe, env.token, env.write, disk)
  }

  /** `transcribe_audio`: once the upload is saved, the `finally` clause
      cleans up the upload and the converted copy. A failed save happens
      outside the `try`, so nothing cleans the file it may have left. */
  function TranscribeAudio(
    proc: Processor, m: MM.Manager, size: nat, filename: string, maxSize: int, env: Environment, disk: Disk)
    : (r: Run)
    requires IsHexToken(env.token) && MM.Valid(m)
    ensures r.result.Err? ==> Expected(r.result.error)
    ensures r.trace == [] ==> r.disk == disk && r.result.Err?
    ensures Admit(proc, size, filename, maxSize, env, disk).0.Err? ==>
      && r.result == Err(Admit(proc, size, filename, maxSize, env, disk).0.error)
      && r.disk == Admit(proc, size, filename, maxSize, env, disk).1
      && r.trace == StrandedIfNew(UploadPath(proc, SanitizeFilenameAsWritten(filename), env.token), disk, r.disk)
    ensures Admit(proc, size, filename, maxSize, env, disk).0.Ok? ==>
      |r.trace| >= 2 && r.trace[0] == Saved(Admit(proc, size, filename, maxSize, env, disk).0.value)
  {
    var (adm, d) := Admit(proc, size, filename, maxSize, env, disk);
    match adm
    case Err(f) => Run(Err(f), StrandedIfNew(UploadPath(proc, SanitizeFilenameAsWritten(filename), env.token), disk, d), d)
    case Ok(u) => Finish(proc, u, ProcessAndTranscribe(proc, m, u, env, d))
  }

  /** The file the `try` block made, if any: the converted copy, or the
      partial output a failed conversion left. */
  function Made(a: Attempt): set<Path> {
    if a.processed.Some? && a.needsCleanup then {a.processed.value}
    else if a.processed.None? && a.events != [] then {a.events[0].path}
    else {}
  }

  /** The saved upload is `u`, its `try` block ran on the disk with `u`
      added, and the run is what the `finally` clause makes of it. */
  lemma SavedRun(
    proc: Processor, m: MM.Manager, size: nat, filename: string, maxSize: int, env: Environment, disk: Disk)
    returns (u: Path, a: Attempt)
    requires IsHexToken(env.token) && MM.Valid(m)
    requires Admit(proc, size, filename, maxSize, env, disk).0.Ok?
    ensures u == Admit(proc, size, filename, maxSize, env, disk).0.value
    ensures a == ProcessAndTranscribe(proc, m, u, env, disk.(files := disk.files + {u}))
    ensures AttemptShape(proc, u, MM.IsLoaded(m), a)
    ensures a.disk.undeletable == disk.undeletable
    ensures a.disk.files == disk.files + {u} + Made(a)
    ensures forall p :: Stranded(p) in a.events ==> p !in disk.files && p != u
    ensures TranscribeAudio(proc, m, size, filename, maxSize, env, disk) == Finish(proc, u, a)
  {
    u := Admit(proc, size, filename, maxSize, env, disk).0.value;
    a := ProcessAndTranscribe(proc, m, u, env, disk.(files := disk.files + {u}));
    ProcessShape(proc, m, u, env, disk.(files := disk.files + {u}));
  }

  /** `ProcessAndTranscribe` on an upload in the temporary directory. */
  lemma ProcessShape(proc: Processor, m: MM.Manager, u: Path, env: Environment, d1: Disk)
    requires MM.Valid(m) && u.parent == proc.tempDir
    ensures var a := ProcessAndTranscribe(proc, m, u, env, d1);
      && AttemptShape(proc, u, MM.IsLoaded(m), a)
      && a.disk.undeletable == d1.undeletable
      && a.disk.files == d1.files + Made(a)
      && (forall p :: Stranded(p) in a.events ==> p !in d1.files)
  {
    var a := ProcessAndTranscribe(proc, m, u, env, d1);
    if a.processed.Some? && a.needsCleanup {
      assert a.processed.value == ConvertedPath(proc, u);
    }
  }

  /** A request refused before its `try` block fails, and records at most
      the upload `u` a failed write left behind. */
  lemma RejectedRun(
    proc: Processor, m: MM.Manager, size: nat, filename: string, maxSize: int, env: Environment, disk: Disk)
    returns (u: Path)
    requires IsHexToken(env.token) && MM.Valid(m)
    requires Admit(proc, size, filename, maxSize, env, disk).0.Err?
    ensures var r := TranscribeAudio(proc, m, size, filename, maxSize, env, disk);
      && r.result.Err?
      && (r.trace == [] || r.trace == [Stranded(u)])
      && r.disk.undeletable == disk.undeletable
      && u.parent == proc.tempDir
      && (r.trace == [] ==> r.disk == disk)
      && (r.trace == [Stranded(u)] ==> u !in disk.files && r.disk.files == disk.files + {u})
  {
    u := UploadPath(proc, SanitizeFilenameAsWritten(filename), env.token);
  }

  /** A file the request created: the saved upload or the converted copy. */
  predicate Created(trace: seq<Event>, p: Path) {
    Saved(p) in trace || Converted(p) in trace
  }

  /** A rejected extension or size ends the request before anything is
      written, and the extension is checked first. */
  lemma ValidationFailureTouchesNothing(
    proc: Processor, m: MM.Manager, size: nat, filename: string, maxSize: int, env: Environment, disk: Disk)
    requires IsHexToken(env.token) && MM.Valid(m)
    requires ValidateFileExtension(SanitizeFilenameAsWritten(filename)).Err? || size > maxSize
    ensures var r := TranscribeAudio(proc, m, size, filename, maxSize, env, disk);
      && r.trace == [] && r.disk == disk
      && r.result.Err? && r.result.error.Typed? && r.result.error.error.AudioValidationError?
    ensures var ext := ValidateFileExtension(SanitizeFilenameAsWritten(filename));
      ext.Err? ==> TranscribeAudio(proc, m, size, filename, maxSize, env, disk).result == Err(Typed(ext.error))
  {
  }

  /** Every file the request created is cleaned up exactly once, only
      created files are cleaned, and cleaning comes after everything else. */
  lemma {:induction false} EveryCreatedFileCleanedOnce(
    proc: Processor, m: MM.Manager, size: nat, filename: string, maxSize: int, env: Environment, disk: Disk)
    requires IsHexToken(env.token) && MM.Valid(m)
    ensures CleansEachCreatedOnce(TranscribeAudio(proc, m, size, filename, maxSize, env, disk).trace)
  {
    if Admit(proc, size, filename, maxSize, env, disk).0.Ok? {
      var u, a := SavedRun(proc, m, size, filename, maxSize, env, disk);
      FinishCleansOnce(proc, u, MM.IsLoaded(m), a);
    } else {
      var u := RejectedRun(proc, m, size, filename, maxSize, env, disk);
      NothingCreated(u);
    }
  }

  /** A refused request created and cleaned nothing. */
  lemma NothingCreated(u: Path)
    ensures CleansEachCreatedOnce([]) && CleansEachCreatedOnce([Stranded(u)])
  {
    assert forall p :: !Created([Stranded(u)], p);
  }

  /** Every created file is cleaned exactly once, only created files are
      cleaned, and no other event follows a cleaning. */
  ghost predicate CleansEachCreatedOnce(trace: seq<Event>) {
    && (forall p :: Created(trace, p) ==> multiset(trace)[Cleaned(p)] == 1)
    && (forall p :: Cleaned(p) in trace ==> Created(trace, p))
    && (forall i, j :: 0 <= i < j < |trace| && trace[i].Cleaned? ==> trace[j].Cleaned?)
  }

  /** A temporary file outlives the request only when it could not be
      deleted or when a failed step left it behind; only files the request
      created are removed. */
  lemma NoTemporaryFileLeaks(
    proc: Processor, m: MM.Manager, size: nat, filename: string, maxSize: int, env: Environment, disk: Disk)
    requires IsHexToken(env.token) && MM.Valid(m)
    ensures var r := TranscribeAudio(proc, m, size, filename, maxSize, env, disk);
      forall p :: p in r.disk.files ==> p in disk.files || p in disk.undeletable || Stranded(p) in r.trace
    ensures var r := TranscribeAudio(proc, m, size, filename, maxSize, env, disk);
      forall p :: p in disk.files && p !in r.disk.files ==> Created(r.trace, p)
    ensures TranscribeAudio(proc, m, size, filename, maxSize, env, disk).disk.undeletable == disk.undeletable
  {
    if Admit(proc, size, filename, maxSize, env, disk).0.Ok? {
      var u, a := SavedRun(proc, m, size, filename, maxSize, env, disk);
      FinishLeavesNothing(proc, u, MM.IsLoaded(m), a, disk);
    } else {
      var u := RejectedRun(proc, m, size, filename, maxSize, env, disk);
    }
  }

  /** A file a failed step left behind is new, sits in the temporary
      directory, is never cleaned, and is still there when the request has
      failed. */
  lemma StrandedFilesOutliveRequest(
    proc: Processor, m: MM.Manager, size: nat, filename: string, maxSize: int, env: Environment, disk: Disk)
    requires IsHexToken(env.token) && MM.Valid(m)
    ensures var r := TranscribeAudio(proc, m, size, filename, maxSize, env, disk);
      forall p :: Stranded(p) in r.trace ==>
        && p !in disk.files && p in r.disk.files && p.parent == proc.tempDir
        && Cleaned(p) !in r.trace && r.result.Err?
  {
    if Admit(proc, size, filename, maxSize, env, disk).0.Ok? {
      StrandedAfterSave(proc, m, size, filename, maxSize, env, disk);
    } else {
      StrandedAfterRejection(proc, m, size, filename, maxSize, env, disk);
    }
  }

  lemma StrandedAfterRejection(
    proc: Processor, m: MM.Manager, size: nat, filename: string, maxSize: int, env: Environment, disk: Disk)
    requires IsHexToken(env.token) && MM.Valid(m)
    requires Admit(proc, size, filename, maxSize, env, disk).0.Err?
    ensures var r := TranscribeAudio(proc, m, size, filename, maxSize, env, disk);
      forall p :: Stranded(p) in r.trace ==>
        && p !in disk.files && p in r.disk.files && p.parent == proc.tempDir
        && Cleaned(p) !in r.trace && r.result.Err?
  {
    var u := RejectedRun(proc, m, size, filename, maxSize, env, disk);
  }

  lemma StrandedAfterSave(
    proc: Processor, m: MM.Manager, size: nat, filename: string, maxSize: int, env: Environment, disk: Disk)
    requires IsHexToken(env.token) && MM.Valid(m)
    requires Admit(proc, size, filename, maxSize, env, disk).0.Ok?
    ensures var r := TranscribeAudio(proc, m, size, filename, maxSize, env, disk);
      forall p :: Stranded(p) in r.trace ==>
        && p !in disk.files && p in r.disk.files && p.parent == proc.tempDir
        && Cleaned(p) !in r.trace && r.result.Err?
  {
    var u, a := SavedRun(proc, m, size, filename, maxSize, env, disk);
    FinishKeepsStranded(proc, u, MM.IsLoaded(m), a, disk);
  }

  /** A write that fails after `open` created the upload leaves it on disk:
      the save sits before the `try`, so the `finally` clause never sees it. */
  lemma PartialUploadLeaks(
    proc: Processor, m: MM.Manager, size: nat, filename: string, maxSize: int, env: Environment, disk: Disk)
    requires IsHexToken(env.token) && MM.Valid(m)
    requires ValidateFileExtension(SanitizeFilenameAsWritten(filename)).Ok? && size <= maxSize
    requires env.write.WriteRaised? && env.write.created
    requires UploadPath(proc, SanitizeFilenameAsWritten(filename), env.token) !in disk.files
    ensures var r := TranscribeAudio(proc, m, size, filename, maxSize, env, disk);
      var u := UploadPath(proc, SanitizeFilenameAsWritten(filename), env.token);
      && r.result.Err? && r.result.error.error.AudioProcessingError?
      && u in r.disk.files && r.trace == [Stranded(u)]
  {
  }

  /** An ffmpeg run that fails after creating its output leaves that file
      on disk: the processed path is still unset, so the `finally` clause
      cleans the upload alone. */
  lemma PartialConversionLeaks(
    proc: Processor, m: MM.Manager, size: nat, filename: string, maxSize: int, env: Environment, disk: Disk)
    requires IsHexToken(env.token) && MM.Valid(m)
    requires Admit(proc, size, filename, maxSize, env, disk).0.Ok?
    requires var u := Admit(proc, size, filename, maxSize, env, disk).0.value;
      var v := ValidateAudioFile(u, disk.(files := disk.files + {u}), env.statError, env.probe);
      && v.Ok? && NeedsConversion(u, v.value)
    requires !LeavesOutput(env.ffmpeg) || env.ffmpeg.FfmpegRaised? || env.ffmpeg.returnCode != 0
    requires env.ffmpeg.partial
    requires ConvertedPath(proc, Admit(proc, size, filename, maxSize, env, disk).0.value) !in disk.files
    ensures var r := TranscribeAudio(proc, m, size, filename, maxSize, env, disk);
      var c := ConvertedPath(proc, Admit(proc, size, filename, maxSize, env, disk).0.value);
      && r.result.Err? && c in r.disk.files && Stranded(c) in r.trace && Cleaned(c) !in r.trace
  {
    var u, a := SavedRun(proc, m, size, filename, maxSize, env, disk);
    var c := ConvertedPath(proc, u);
    assert a.processed.None? && a.events == [Stranded(c)];
    FinishKeepsStranded(proc, u, MM.IsLoaded(m), a, disk);
  }

  /** The files a run's failed steps left behind, in trace order. */
  function StrandedPaths(trace: seq<Event>): (ps: seq<Path>)
    ensures forall p :: p in ps <==> Stranded(p) in trace
  {
    if trace == [] then []
    else (if trace[0].Stranded? then [trace[0].path] else []) + StrandedPaths(trace[1..])
  }

  /** `cleanup_temp_file` on each path in turn. */
  function CleanupEach(proc: Processor, ps: seq<Path>, disk: Disk): (r: (seq<Event>, Disk))
    ensures |r.0| == |ps| && forall i :: 0 <= i < |ps| ==> r.0[i] == Cleaned(ps[i])
    ensures r.1.undeletable == disk.undeletable
    ensures r.1.files <= disk.files
    ensures forall p :: p in disk.files && p !in r.1.files ==> p in ps
    ensures forall p :: p in ps && p.parent == proc.tempDir && p !in disk.undeletable ==> p !in r.1.files
  {
    if ps == [] then ([], disk)
    else
      var rest := CleanupEach(proc, ps[1..], CleanupTempFile(proc, ps[0], disk));
      ([Cleaned(ps[0])] + rest.0, rest.1)
  }

  /** `transcribe_audio` with the leak closed: the `finally` clause also
      removes whatever a failed write or conversion left behind, as it
      would if the save sat inside the `try` and the conversion target were
      known before ffmpeg ran. Responses are those of the code as written. */
  function TranscribeAudioDiscarding(
    proc: Processor, m: MM.Manager, size: nat, filename: string, maxSize: int, env: Environment, disk: Disk)
    : (r: Run)
    requires IsHexToken(env.token) && MM.Valid(m)
    ensures r.result == TranscribeAudio(proc, m, size, filename, maxSize, env, disk).result
  {
    var w := TranscribeAudio(proc, m, size, filename, maxSize, env, disk);
    var (cleaned, d) := CleanupEach(proc, StrandedPaths(w.trace), w.disk);
    Run(w.result, w.trace + cleaned, d)
  }

  /** With the leak closed no temporary file outlives the request unless it
      could not be deleted, every file left behind is cleaned, and only
      files the request created are removed. */
  lemma {:induction false} DiscardingLeavesNothing(
    proc: Processor, m: MM.Manager, size: nat, filename: string, maxSize: int, env: Environment, disk: Disk)
    requires IsHexToken(env.token) && MM.Valid(m)
    ensures var r := TranscribeAudioDiscarding(proc, m, size, filename, maxSize, env, disk);
      forall p :: p in r.disk.files ==> p in disk.files || p in disk.undeletable
    ensures var r := TranscribeAudioDiscarding(proc, m, size, filename, maxSize, env, disk);
      forall p :: p in disk.files && p !in r.disk.files ==> Created(r.trace, p)
    ensures var r := TranscribeAudioDiscarding(proc, m, size, filename, maxSize, env, disk);
      forall p :: Stranded(p) in r.trace ==> Cleaned(p) in r.trace
    ensures TranscribeAudioDiscarding(proc, m, size, filename, maxSize, env, disk).disk.undeletable
      == disk.undeletable
  {
    var w := TranscribeAudio(proc, m, size, filename, maxSize, env, disk);
    NoTemporaryFileLeaks(proc, m, size, filename, maxSize, env, disk);
    StrandedFilesOutliveRequest(proc, m, size, filename, maxSize, env, disk);
    DiscardCloses(proc, w, disk);
  }

  /** Cleaning the stranded files of a run that kept every other promise
      of `NoTemporaryFileLeaks` closes the leak. */
  lemma DiscardCloses(proc: Processor, w: Run, disk: Disk)
    requires forall p :: p in w.disk.files ==> p in disk.files || p in disk.undeletable || Stranded(p) in w.trace
    requires forall p :: p in disk.files && p !in w.disk.files ==> Created(w.trace, p)
    requires w.disk.undeletable == disk.undeletable
    requires forall p :: Stranded(p) in w.trace ==> p !in disk.files && p.parent == proc.tempDir
    ensures var (cleaned, d) := CleanupEach(proc, StrandedPaths(w.trace), w.disk);
      && (forall p :: p in d.files ==> p in disk.files || p in disk.undeletable)
      && (forall p :: p in disk.files && p !in d.files ==> Created(w.trace + cleaned, p))
      && (forall p :: Stranded(p) in w.trace + cleaned ==> Cleaned(p) in w.trace + cleaned)
      && d.undeletable == disk.undeletable
  {
    var ps := StrandedPaths(w.trace);
    var (cleaned, d) := CleanupEach(proc, ps, w.disk);
    forall p | p in d.files ensures p in disk.files || p in disk.undeletable {
      assert p in w.disk.files;
    }
    forall p | p in disk.files && p !in d.files ensures Created(w.trace + cleaned, p) {
      assert p !in w.disk.files;
      assert Created(w.trace, p);
    }
    forall p | Stranded(p) in w.trace + cleaned ensures Cleaned(p) in w.trace + cleaned {
      assert Stranded(p) in w.trace;
      var i :| 0 <= i < |ps| && ps[i] == p;
      assert (w.trace + cleaned)[|w.trace| + i] == Cleaned(p);
    }
  }

  /** With the model not loaded the model is never asked and the request
      fails, with `ModelNotLoadedError` once the audio was processed. */
  lemma NotLoadedNeverTranscribes(
    proc: Processor, m: MM.Manager, size: nat, filename: string, maxSize: int, env: Environment, disk: Disk)
    requires IsHexToken(env.token) && MM.Valid(m) && !MM.IsLoaded(m)
    ensures var r := TranscribeAudio(proc, m, size, filename, maxSize, env, disk);
      r.result.Err? && forall e :: e in r.trace ==> !e.Transcribed?
    ensures var adm := Admit(proc, size, filename, maxSize, env, disk).0;
      adm.Ok? &&
      ProcessAudioFile(proc, adm.value, disk.(files := disk.files + {adm.value}),
                       env.statError, env.probe, env.ffmpeg).0.Ok? ==>
      TranscribeAudio(proc, m, size, filename, maxSize, env, disk).result == Err(Typed(ModelNotLoadedError))
  {
    if Admit(proc, size, filename, maxSize, env, disk).0.Ok? {
      var u, a := SavedRun(proc, m, size, filename, maxSize, env, disk);
      FinishTranscribedOnlyIfLoaded(proc, u, a);
      assert Finish(proc, u, a).result == a.outcome;
    } else {
      var u := RejectedRun(proc, m, size, filename, maxSize, env, disk);
    }
  }

  /** The request succeeds exactly when every stage does, and its text is
      the first transcription (or empty when the model returned none). */
  lemma SuccessIsFirstTranscription(
    proc: Processor, m: MM.Manager, size: nat, filename: string, maxSize: int, env: Environment, disk: Disk)
    requires IsHexToken(env.token) && MM.Valid(m)
    ensures var r := TranscribeAudio(proc, m, size, filename, maxSize, env, disk);
      var safe := SanitizeFilenameAsWritten(filename);
      var u := UploadPath(proc, safe, env.token);
      r.result.Ok? <==>
        && ValidateFileExtension(safe).Ok? && size <= maxSize && env.write.Written?
        && ProcessAudioFile(proc, u, disk.(files := disk.files + {u}), env.statError, env.probe, env.ffmpeg).0.Ok?
        && MM.IsLoaded(m) && env.engine.Returned?
    ensures var r := TranscribeAudio(proc, m, size, filename, maxSize, env, disk);
      r.result.Ok? ==>
        && r.result.value.text == FirstOrEmpty(MM.NormaliseOutput(env.engine.raw))
        && r.result.value.usage == DefaultUsage()
  {
  }

  /** The `finally` clause cleans each created file exactly once, cleans
      nothing else, and does so after every other event. */
  lemma FinishCleansOnce(proc: Processor, u: Path, loaded: bool, a: Attempt)
    requires AttemptShape(proc, u, loaded, a)
    ensures CleansEachCreatedOnce(Finish(proc, u, a).trace)
  {
    var t := if loaded then [Transcribed(a.processed.GetOr(u))] else [];
    var tr := FinishTrace(proc, u, loaded, a);
    if a.processed.Some? && a.needsCleanup {
      TwoFilesCleaned(u, a.processed.value, t);
    } else {
      OneFileCleaned(u, if a.processed.Some? then t else a.events);
    }
  }

  /** The events of the `finally` clause's run, spelled out. */
  lemma FinishTrace(proc: Processor, u: Path, loaded: bool, a: Attempt) returns (tr: seq<Event>)
    requires AttemptShape(proc, u, loaded, a)
    ensures tr == Finish(proc, u, a).trace
    ensures var t := if loaded then [Transcribed(a.processed.GetOr(u))] else [];
      && (a.processed.Some? && a.needsCleanup ==>
            tr == [Saved(u), Converted(a.processed.value)] + t + [Cleaned(u), Cleaned(a.processed.value)])
      && (a.processed.Some? && !a.needsCleanup ==> tr == [Saved(u)] + t + [Cleaned(u)])
      && (a.processed.None? ==> tr == [Saved(u)] + a.events + [Cleaned(u)])
  {
    tr := Finish(proc, u, a).trace;
    var cleaned := CleanupFiles(proc, u, a.processed, a.needsCleanup, a.disk).0;
    assert tr == [Saved(u)] + a.events + cleaned;
    if a.processed.Some? && a.needsCleanup {
      assert cleaned == [Cleaned(u), Cleaned(a.processed.value)];
    } else {
      assert cleaned == [Cleaned(u)];
    }
  }

  /** The trace shape of a request whose upload was not converted; `t` is
      the transcription, or the partial output of a failed conversion. */
  lemma OneFileCleaned(u: Path, t: seq<Event>)
    requires |t| <= 1 && forall e :: e in t ==> e.Transcribed? || (e.Stranded? && e.path != u)
    ensures CleansEachCreatedOnce([Saved(u)] + t + [Cleaned(u)])
  {
    var tr := [Saved(u)] + t + [Cleaned(u)];
    assert multiset(tr) == multiset{Saved(u)} + multiset(t) + multiset{Cleaned(u)};
    forall p | Created(tr, p) ensures p == u {
      assert Converted(p) !in tr;
    }
    assert Cleaned(u) !in t;
    assert multiset(t)[Cleaned(u)] == 0;
  }

  /** The trace shape of a request whose upload was converted to `c`. */
  lemma TwoFilesCleaned(u: Path, c: Path, t: seq<Event>)
    requires c != u
    requires |t| <= 1 && forall e :: e in t ==> e.Transcribed?
    ensures CleansEachCreatedOnce([Saved(u), Converted(c)] + t + [Cleaned(u), Cleaned(c)])
  {
    var tr := [Saved(u), Converted(c)] + t + [Cleaned(u), Cleaned(c)];
    assert multiset(tr) == multiset{Saved(u), Converted(c)} + multiset(t) + multiset{Cleaned(u), Cleaned(c)};
    forall p | Created(tr, p) ensures p == u || p == c {
    }
    assert Cleaned(u) !in t && Cleaned(c) !in t;
    assert multiset(t)[Cleaned(u)] == 0 && multiset(t)[Cleaned(c)] == 0;
  }

  /** The run `r` left on disk only what was there before `d0`, what could
      not be deleted and what a failed step stranded, and removed only files
      it created. */
  ghost predicate LeavesOnly(d0: Disk, r: Run) {
    && (forall p :: p in r.disk.files ==> p in d0.files || p in d0.undeletable || Stranded(p) in r.trace)
    && (forall p :: p in d0.files && p !in r.disk.files ==> Created(r.trace, p))
    && r.disk.undeletable == d0.undeletable
  }

  /** The `finally` clause removes only created files and every created
      file it may delete, given the disk `d0` before the upload was saved. */
  lemma FinishLeavesNothing(proc: Processor, u: Path, loaded: bool, a: Attempt, d0: Disk)
    requires AttemptShape(proc, u, loaded, a)
    requires a.disk.undeletable == d0.undeletable
    requires a.disk.files == d0.files + {u} + Made(a)
    ensures LeavesOnly(d0, Finish(proc, u, a))
  {
    if a.processed.Some? && a.needsCleanup {
      FinishConvertedCase(proc, u, loaded, a, d0);
    } else {
      FinishUnconvertedCase(proc, u, loaded, a, d0);
    }
  }

  lemma FinishConvertedCase(proc: Processor, u: Path, loaded: bool, a: Attempt, d0: Disk)
    requires AttemptShape(proc, u, loaded, a)
    requires a.processed.Some? && a.needsCleanup
    requires a.disk.undeletable == d0.undeletable
    requires a.disk.files == d0.files + {u} + Made(a)
    ensures LeavesOnly(d0, Finish(proc, u, a))
  {
    var r := Finish(proc, u, a);
    var c := a.processed.value;
    assert CleanupFiles(proc, u, a.processed, a.needsCleanup, a.disk) ==
      ([Cleaned(u), Cleaned(c)], CleanupTempFile(proc, c, CleanupTempFile(proc, u, a.disk)));
    assert r.trace == [Saved(u)] + a.events + [Cleaned(u), Cleaned(c)];
    CleanTwoLeaves(proc, u, c, d0, a.disk);
    assert Saved(u) in r.trace && Converted(c) in r.trace;
  }

  lemma FinishUnconvertedCase(proc: Processor, u: Path, loaded: bool, a: Attempt, d0: Disk)
    requires AttemptShape(proc, u, loaded, a)
    requires !(a.processed.Some? && a.needsCleanup)
    requires a.disk.undeletable == d0.undeletable
    requires a.disk.files == d0.files + {u} + Made(a)
    ensures LeavesOnly(d0, Finish(proc, u, a))
  {
    var r := Finish(proc, u, a);
    assert CleanupFiles(proc, u, a.processed, a.needsCleanup, a.disk) ==
      ([Cleaned(u)], CleanupTempFile(proc, u, a.disk));
    assert r.trace == [Saved(u)] + a.events + [Cleaned(u)];
    CleanOneLeaves(proc, u, Made(a), d0, a.disk);
    assert Saved(u) in r.trace;
    if a.processed.None? && a.events != [] {
      assert Stranded(a.events[0].path) in r.trace;
    }
  }

  /** The `finally` clause leaves alone the file a failed conversion left:
      it is new, in the temporary directory, and never cleaned. */
  lemma FinishKeepsStranded(proc: Processor, u: Path, loaded: bool, a: Attempt, d0: Disk)
    requires AttemptShape(proc, u, loaded, a)
    requires a.disk.undeletable == d0.undeletable
    requires a.disk.files == d0.files + {u} + Made(a)
    requires forall p :: Stranded(p) in a.events ==> p !in d0.files && p != u
    ensures var r := Finish(proc, u, a);
      forall p :: Stranded(p) in r.trace ==>
        && p !in d0.files && p in r.disk.files && p.parent == proc.tempDir
        && Cleaned(p) !in r.trace && r.result.Err?
  {
    if a.processed.None? && a.events != [] {
      FinishStrandedCase(proc, u, loaded, a, d0);
    } else {
      FinishStrandsNothing(proc, u, loaded, a);
    }
  }

  /** After a failed conversion that left its output `c`, the `finally`
      clause's run is saving, stranding `c`, and cleaning the upload. */
  lemma FinishStrandedCase(proc: Processor, u: Path, loaded: bool, a: Attempt, d0: Disk)
    requires AttemptShape(proc, u, loaded, a)
    requires a.processed.None? && a.events != []
    requires a.disk.undeletable == d0.undeletable
    requires a.disk.files == d0.files + {u} + Made(a)
    requires forall p :: Stranded(p) in a.events ==> p !in d0.files && p != u
    ensures var r := Finish(proc, u, a);
      forall p :: Stranded(p) in r.trace ==>
        && p !in d0.files && p in r.disk.files && p.parent == proc.tempDir
        && Cleaned(p) !in r.trace && r.result.Err?
  {
    var c := ConvertedPath(proc, u);
    var r := Finish(proc, u, a);
    assert a.events == [Stranded(c)] && Made(a) == {c};
    assert CleanupFiles(proc, u, a.processed, a.needsCleanup, a.disk) ==
      ([Cleaned(u)], CleanupTempFile(proc, u, a.disk));
    assert r.trace == [Saved(u), Stranded(c), Cleaned(u)];
    CleanOneLeaves(proc, u, {c}, d0, a.disk);
  }

  /** Without a failed conversion the `finally` clause's run records no
      stranded file. */
  lemma FinishStrandsNothing(proc: Processor, u: Path, loaded: bool, a: Attempt)
    requires AttemptShape(proc, u, loaded, a)
    requires a.processed.Some? || a.events == []
    ensures forall e :: e in Finish(proc, u, a).trace ==> !e.Stranded?
  {
    var r := Finish(proc, u, a);
    var (cleaned, d2) := CleanupFiles(proc, u, a.processed, a.needsCleanup, a.disk);
    assert r.trace == [Saved(u)] + a.events + cleaned;
    assert forall e :: e in a.events ==> !e.Stranded?;
  }

  /** Cleaning the upload `u` from a disk that grew by `u` and `extra`. */
  lemma CleanOneLeaves(proc: Processor, u: Path, extra: set<Path>, d0: Disk, disk: Disk)
    requires u.parent == proc.tempDir
    requires disk.undeletable == d0.undeletable && disk.files == d0.files + {u} + extra
    ensures var d := CleanupTempFile(proc, u, disk);
      && d.undeletable == d0.undeletable
      && (forall p :: p in d.files ==> p in d0.files || p in d0.undeletable || p in extra)
      && (forall p :: p in d0.files && p !in d.files ==> p == u)
      && (forall p :: p in extra && p != u ==> p in d.files)
  {
  }

  /** Cleaning the upload `u` and then its converted copy `c` from a disk
      that grew by both. */
  lemma CleanTwoLeaves(proc: Processor, u: Path, c: Path, d0: Disk, disk: Disk)
    requires u.parent == proc.tempDir && c.parent == proc.tempDir
    requires disk.undeletable == d0.undeletable && disk.files == d0.files + {u} + {c}
    ensures var d := CleanupTempFile(proc, c, CleanupTempFile(proc, u, disk));
      && d.undeletable == d0.undeletable
      && (forall p :: p in d.files ==> p in d0.files || p in d0.undeletable)
      && (forall p :: p in d0.files && p !in d.files ==> p == u || p == c)
  {
  }

  /** Without a loaded model the `try` block records no transcription. */
  lemma FinishTranscribedOnlyIfLoaded(proc: Processor, u: Path, a: Attempt)
    requires AttemptShape(proc, u, false, a)
    ensures forall e :: e in Finish(proc, u, a).trace ==> !e.Transcribed?
  {
    var r := Finish(proc, u, a);
    var (cleaned, d2) := CleanupFiles(proc, u, a.processed, a.needsCleanup, a.disk);
    assert r.trace == [Saved(u)] + a.events + cleaned;
  }
}

=== FILE: validators.dfy ===
/** Upload validation and string utilities (src/utils/validators.py):
    extension and size checks, filename sanitising and transcript
    normalisation. */
module Validators {
  import opened Wrappers
  import opened Text
  import opened Paths
  import opened Exceptions
  import opened AudioProcessor

  // ---------------------------------------------------------------------
  // Extension and size
  // ---------------------------------------------------------------------

  /** `validate_file_extension`: the lower-cased final suffix of the base
      name without its dot, provided it is one of the supported formats. */
  function ValidateFileExtension(filename: string): (r: Result<string, ApiError>)
    ensures r.Ok? ==> r.value == NameExtension(BaseName(filename))
    ensures NameExtension(BaseName(filename)) == "" ==>
      r == Err(ValidationError("No file extension found. Supported formats: " + FormatList))
    ensures r.Err? ==> r.error.AudioValidationError?
    ensures r.Err? && NameExtension(BaseName(filename)) != "" ==>
      StartsWith(Message(r.error), UnsupportedPrefix)
  {
    var ext := NameExtension(BaseName(filename));
    if ext == "" then
      Err(ValidationError("No file extension found. Supported formats: " + FormatList))
    else if ext !in SupportedFormats then
      Err(ValidationError(UnsupportedMessage(ext)))
    else Ok(ext)
  }

  /** A name is accepted exactly when its extension is a supported format. */
  lemma AcceptsExactlySupported(filename: string)
    ensures ValidateFileExtension(filename).Ok? <==> NameExtension(BaseName(filename)) in SupportedFormats
  {
    var ext := NameExtension(BaseName(filename));
    if ext in SupportedFormats {
      assert ext != "";
      assert ValidateFileExtension(filename) == Ok(ext);
    }
  }

  /** Matching is case-insensitive: any casing of a supported format after
      a non-empty stem is accepted and reported in lower case. */
  lemma {:induction false} ExtensionCaseInsensitive(stem: string, v: string)
    requires stem != "" && '/' !in stem
    requires '/' !in v && '.' !in v
    requires Lower(v) in SupportedFormats
    ensures ValidateFileExtension(stem + "." + v) == Ok(Lower(v))
  {
    assert |v| > 0;
    var name := stem + "." + v;
    DotSplit(stem, v);
    assert BaseName(name) == name;
    assert Suffix(name)[1..] == v;
  }

  /** Joining a stem and a dot-free, slash-free extension with a dot gives a
      plain name whose suffix is that dot and extension. */
  lemma DotSplit(stem: string, v: string)
    requires stem != "" && '/' !in stem
    requires v != "" && '/' !in v && '.' !in v
    ensures var name := stem + "." + v;
      && '/' !in name && name != "."
      && LastIndexOf(name, '.') == |stem|
      && Suffix(name) == "." + v
  {
    var name := stem + "." + v;
    assert name[|stem|] == '.';
    assert forall j :: |stem| < j < |name| ==> name[j] == v[j - |stem| - 1];
    assert forall j :: 0 <= j < |stem| ==> name[j] == stem[j];
    assert name[|stem|..] == "." + v;
  }

  /** `validate_file_size`: rejects exactly the sizes above the maximum, so
      an empty upload and one of exactly the maximum size pass. */
  function ValidateFileSize(size: int, maxSize: int): (r: Result<(), ApiError>)
    ensures r.Ok? <==> size <= maxSize
    ensures r.Err? ==> r.error.AudioValidationError?
  {
    if size > maxSize then Err(ValidationError("File too large")) else Ok(())
  }

  // ---------------------------------------------------------------------
  // Filename sanitising
  // ---------------------------------------------------------------------

  const MaxFilenameLength: int := 255

  /** The characters `[a-zA-Z0-9._-]` that survive sanitising. */
  predicate IsSafeChar(c: char) {
    IsUpper(c) || IsLower(c) || IsDigit(c) || c == '.' || c == '_' || c == '-'
  }

  predicate AllSafe(s: string) {
    forall i :: 0 <= i < |s| ==> IsSafeChar(s[i])
  }

  /** `re.sub(r'[^a-zA-Z0-9._-]', '_', s)`. */
  function ReplaceUnsafe(s: string): (r: string)
    ensures |r| == |s|
    ensures AllSafe(r)
    ensures forall i :: 0 <= i < |s| ==> (r[i] == '.' <==> s[i] == '.')
    ensures AllSafe(s) ==> r == s
  {
    seq(|s|, i requires 0 <= i < |s| => if IsSafeChar(s[i]) then s[i] else '_')
  }

  /** The name before any length limit: the base name with unsafe
      characters replaced, and ".audio" appended when it has no dot. */
  function Untruncated(filename: string): (f: string)
    ensures AllSafe(f) && '.' in f && |f| >= 2
  {
    var b := BaseName(filename);
    var n := ReplaceUnsafe(b);
    if '.' in n then
      DottedIsLong(b, n);
      n
    else
      AudioSuffixSafe(n);
      n + ".audio"
  }

  /** A replaced name with a dot is not the bare "." it cannot come from. */
  lemma DottedIsLong(b: string, n: string)
    requires b != "." && n == ReplaceUnsafe(b) && '.' in n
    ensures |n| >= 2
  {
    var i :| 0 <= i < |n| && n[i] == '.';
    assert b[i] == '.';
  }

  /** Appending ".audio" to a safe name keeps it safe and gives it a dot. */
  lemma AudioSuffixSafe(n: string)
    requires AllSafe(n)
    ensures AllSafe(n + ".audio") && '.' in n + ".audio" && |n + ".audio"| >= 2
  {
    var r := n + ".audio";
    assert r[|n|] == '.';
    forall i | 0 <= i < |r| ensures IsSafeChar(r[i]) {
      if i >= |n| {
        assert r[i] == ".audio"[i - |n|];
      }
    }
  }

  /** The extension the length limit tries to keep: what follows the last
      dot of a name. */
  function ExtensionAfterLastDot(f: string): (ext: string)
    ensures '.' !in ext
    ensures |ext| < |f| ==> f[|f| - |ext| - 1] == '.'
    ensures |ext| <= |f| && ext == f[|f| - |ext|..]
  {
    var i := LastIndexOf(f, '.');
    f[i + 1..]
  }

  function FinalExtension(filename: string): string {
    ExtensionAfterLastDot(Untruncated(filename))
  }

  /** Python's `s[:k]`, where a negative `k` counts from the end. */
  function PyPrefix(s: string, k: int): (r: string)
    ensures k >= 0 ==> |r| == if k <= |s| then k else |s|
    ensures k < 0 ==> |r| == if |s| + k >= 0 then |s| + k else 0
    ensures r == s[..|r|]
  {
    if k >= 0 then (if k <= |s| then s[..k] else s)
    else if |s| + k >= 0 then s[..|s| + k] else ""
  }

  /** The name part and the extension of a name with a dot, as
      `name.rsplit('.', 1)` splits it. */
  lemma RSplitFacts(f: string)
    requires AllSafe(f) && '.' in f
    ensures var i := LastIndexOf(f, '.');
      && 0 <= i
      && |ExtensionAfterLastDot(f)| == |f| - i - 1
      && AllSafe(f[..i]) && AllSafe(ExtensionAfterLastDot(f))
  {
  }

  /** Joins a safe name part and a safe extension with a dot. */
  function DotJoin(name: string, ext: string): (r: string)
    requires AllSafe(name) && AllSafe(ext)
    ensures AllSafe(r) && '.' in r && |r| == |name| + 1 + |ext|
    ensures r[|name|] == '.' && r[|name| + 1..] == ext
  {
    var r := name + "." + ext;
    assert r[|name|] == '.';
    r
  }

  /** The length limit exactly as written: `name[:255 - len(ext) - 1]`,
      a negative slice once the extension is 255 characters or longer. */
  function LimitLengthAsWritten(f: string): (r: string)
    requires AllSafe(f) && '.' in f
    ensures AllSafe(r) && '.' in r
    ensures |f| <= MaxFilenameLength ==> r == f
    ensures |f| > MaxFilenameLength && |ExtensionAfterLastDot(f)| >= MaxFilenameLength ==>
      |r| >= |ExtensionAfterLastDot(f)| + 1
  {
    if |f| > MaxFilenameLength then
      RSplitFacts(f);
      var i := LastIndexOf(f, '.');
      var ext := ExtensionAfterLastDot(f);
      var kept := PyPrefix(f[..i], MaxFilenameLength - |ext| - 1);
      DotJoin(kept, ext)
    else f
  }

  /** The length limit enforced for every extension: one longer than 254
      characters is cut to 254, so the name part is never sliced with a
      negative bound. */
  function LimitLength(f: string): (r: string)
    requires AllSafe(f) && '.' in f && |f| >= 2
    ensures AllSafe(r) && '.' in r
    ensures 2 <= |r| <= MaxFilenameLength
    ensures |f| <= MaxFilenameLength ==> r == f
  {
    if |f| > MaxFilenameLength then
      RSplitFacts(f);
      var i := LastIndexOf(f, '.');
      var ext := ExtensionAfterLastDot(f);
      var keptExt := if |ext| <= MaxFilenameLength - 1 then ext else ext[..MaxFilenameLength - 1];
      DotJoin(f[..i][..MaxFilenameLength - 1 - |keptExt|], keptExt)
    else f
  }

  /** An extension of at most 254 characters survives the length limit. */
  lemma LimitLengthKeepsExtension(f: string)
    requires AllSafe(f) && '.' in f && |f| >= 2
    requires |ExtensionAfterLastDot(f)| <= MaxFilenameLength - 1
    ensures var r := LimitLength(f);
      var ext := ExtensionAfterLastDot(f);
      |r| > |ext| && r[|r| - |ext| - 1..] == "." + ext
  {
    var r := LimitLength(f);
    var ext := ExtensionAfterLastDot(f);
    if |f| > MaxFilenameLength {
      var i := LastIndexOf(f, '.');
      var kept := f[..i][..MaxFilenameLength - 1 - |ext|];
      assert r == DotJoin(kept, ext) by { RSplitFacts(f); }
      DotThenTail(r, |kept|, ext);
    } else {
      var i := LastIndexOf(f, '.');
      assert 0 <= i && f[i + 1..] == ext by { RSplitFacts(f); }
      DotThenTail(f, i, ext);
    }
  }

  /** A dot at `k` followed by exactly `ext` ends the string. */
  lemma DotThenTail(r: string, k: nat, ext: string)
    requires k < |r| && r[k] == '.' && r[k + 1..] == ext
    ensures |r| > |ext| && r[|r| - |ext| - 1..] == "." + ext
  {
    assert r[k..] == [r[k]] + r[k + 1..];
  }

  /** Up to 254 characters of extension, the corrected limit and the limit
      as written agree. */
  lemma LimitLengthAgreesAsWritten(f: string)
    requires AllSafe(f) && '.' in f && |f| >= 2
    requires |ExtensionAfterLastDot(f)| <= MaxFilenameLength - 1
    ensures LimitLength(f) == LimitLengthAsWritten(f)
  {
    if |f| > MaxFilenameLength {
      RSplitFacts(f);
      var i := LastIndexOf(f, '.');
      var ext := ExtensionAfterLastDot(f);
      assert PyPrefix(f[..i], MaxFilenameLength - |ext| - 1) == f[..i][..MaxFilenameLength - 1 - |ext|];
    }
  }

  /** `sanitize_filename` exactly as written. */
  function SanitizeFilenameAsWritten(filename: string): (r: string)
    ensures AllSafe(r) && '.' in r
  {
    LimitLengthAsWritten(Untruncated(filename))
  }

  /** `sanitize_filename` with the length limit enforced for every
      extension. */
  function SanitizeFilename(filename: string): (r: string)
    ensures AllSafe(r) && '.' in r
    ensures 2 <= |r| <= MaxFilenameLength
    ensures |Untruncated(filename)| <= MaxFilenameLength ==> r == Untruncated(filename)
  {
    LimitLength(Untruncated(filename))
  }

  /** The final extension survives sanitising when it has at most 254
      characters. */
  lemma SanitizeKeepsExtension(filename: string)
    requires |FinalExtension(filename)| <= MaxFilenameLength - 1
    ensures var r := SanitizeFilename(filename);
      var ext := FinalExtension(filename);
      |r| > |ext| && r[|r| - |ext| - 1..] == "." + ext
  {
    LimitLengthKeepsExtension(Untruncated(filename));
  }

  /** For extensions of at most 254 characters the corrected function is
      the function as written. */
  lemma AsWrittenAgreesForShortExtensions(filename: string)
    requires |FinalExtension(filename)| <= MaxFilenameLength - 1
    ensures SanitizeFilenameAsWritten(filename) == SanitizeFilename(filename)
  {
    LimitLengthAgreesAsWritten(Untruncated(filename));
  }

  /** A safe name has no slash, so it is its own base name. */
  lemma SafeHasNoSlash(s: string)
    requires AllSafe(s)
    ensures '/' !in s
  {
    forall i | 0 <= i < |s| ensures s[i] != '/' { assert IsSafeChar(s[i]); }
  }

  /** A safe name with a dot, no longer than the limit, is left alone. */
  lemma SanitizedIsFixed(s: string)
    requires AllSafe(s) && '.' in s && 2 <= |s| <= MaxFilenameLength
    ensures Untruncated(s) == s
    ensures SanitizeFilename(s) == s
  {
    SafeHasNoSlash(s);
  }

  /** Sanitising is idempotent. */
  lemma {:induction false} SanitizeIdempotent(filename: string)
    ensures SanitizeFilename(SanitizeFilename(filename)) == SanitizeFilename(filename)
  {
    SanitizedIsFixed(SanitizeFilename(filename));
  }

  /** A safe name with a dot at `dot` and none after it: its last dot is at
      `dot`, it is its own untruncated form, and its extension is what
      follows that dot. */
  lemma PlainName(s: string, dot: nat)
    requires AllSafe(s) && dot < |s| && s[dot] == '.' && |s| >= 2
    requires forall j :: dot < j < |s| ==> s[j] != '.'
    ensures LastIndexOf(s, '.') == dot
    ensures Untruncated(s) == s
    ensures FinalExtension(s) == s[dot + 1..]
  {
    PlainUntruncated(s, dot);
    LastIndexAt(s, '.', dot);
    PlainExtension(s, dot);
  }

  lemma PlainUntruncated(s: string, dot: nat)
    requires AllSafe(s) && dot < |s| && s[dot] == '.' && |s| >= 2
    ensures Untruncated(s) == s
  {
    SafeHasNoSlash(s);
    assert s != "." && BaseName(s) == s;
    assert ReplaceUnsafe(s) == s && '.' in s;
  }

  lemma PlainExtension(s: string, dot: nat)
    requires Untruncated(s) == s && dot < |s| && LastIndexOf(s, '.') == dot
    ensures FinalExtension(s) == s[dot + 1..]
  {
    ExtensionAt(s, dot);
    assert FinalExtension(s) == ExtensionAfterLastDot(Untruncated(s));
  }

  lemma ExtensionAt(f: string, dot: nat)
    requires dot < |f| && LastIndexOf(f, '.') == dot
    ensures ExtensionAfterLastDot(f) == f[dot + 1..]
  {
  }

  /** A name ending in a dot and a dot-free extension has that extension. */
  lemma EndsWithExtension(r: string, ext: string)
    requires |r| > |ext| && r[|r| - |ext| - 1..] == "." + ext && '.' !in ext
    ensures ExtensionAfterLastDot(r) == ext
  {
    var dot := |r| - |ext| - 1;
    var tail := r[dot..];
    assert r[dot] == tail[0] == '.';
    forall j | dot < j < |r| ensures r[j] != '.' {
      assert r[j] == tail[j - dot] == ext[j - dot - 1];
    }
    LastIndexAt(r, '.', dot);
    ExtensionAt(r, dot);
    assert r[dot + 1..] == tail[1..] == ext;
  }

  /** Sanitising a name whose extension has at most 254 characters leaves
      that extension as the final one. */
  lemma {:induction false} SanitizeKeepsFinalExtension(filename: string)
    requires |FinalExtension(filename)| <= MaxFilenameLength - 1
    ensures FinalExtension(SanitizeFilename(filename)) == FinalExtension(filename)
  {
    LimitLengthKeepsFinalExtension(Untruncated(filename));
  }

  /** The length limit keeps an extension of at most 254 characters as the
      final extension of its result. */
  lemma LimitLengthKeepsFinalExtension(f: string)
    requires AllSafe(f) && '.' in f && |f| >= 2
    requires |ExtensionAfterLastDot(f)| <= MaxFilenameLength - 1
    ensures FinalExtension(LimitLength(f)) == ExtensionAfterLastDot(f)
  {
    LimitLengthKeepsExtension(f);
    FinalOfFixed(LimitLength(f), ExtensionAfterLastDot(f));
  }

  /** A name sanitising leaves unchanged, ending in a dot and `ext`, has
      `ext` as its final extension. */
  lemma FinalOfFixed(r: string, ext: string)
    requires AllSafe(r) && '.' in r && 2 <= |r| <= MaxFilenameLength
    requires |r| > |ext| && r[|r| - |ext| - 1..] == "." + ext && '.' !in ext
    ensures FinalExtension(r) == ext
  {
    SanitizedIsFixed(r);
    EndsWithExtension(r, ext);
  }

  /** The function as written keeps the 255-character bound and is
      idempotent whenever the extension has at most 254 characters. */
  lemma {:induction false} AsWrittenShortExtensionProperties(filename: string)
    requires |FinalExtension(filename)| <= MaxFilenameLength - 1
    ensures |SanitizeFilenameAsWritten(filename)| <= MaxFilenameLength
    ensures SanitizeFilenameAsWritten(SanitizeFilenameAsWritten(filename))
         == SanitizeFilenameAsWritten(filename)
  {
    AsWrittenAgreesForShortExtensions(filename);
    SanitizeKeepsFinalExtension(filename);
    AsWrittenAgreesForShortExtensions(SanitizeFilename(filename));
    SanitizeIdempotent(filename);
  }

  /** With an extension of 255 characters or more, the function as written
      returns a name longer than 255 characters. */
  lemma {:induction false} AsWrittenLongExtensionOverflows(filename: string)
    requires |FinalExtension(filename)| >= MaxFilenameLength
    ensures |SanitizeFilenameAsWritten(filename)| > MaxFilenameLength
  {
    var f := Untruncated(filename);
    RSplitFacts(f);
  }

  function Repeat(c: char, n: nat): (s: string)
    ensures |s| == n && forall i :: 0 <= i < n ==> s[i] == c
  {
    seq(n, _ => c)
  }

  /** What the function as written makes of a safe name part, a dot and a
      long dot-free extension. */
  lemma AsWrittenOnLongName(name: string, ext: string)
    requires AllSafe(name) && AllSafe(ext) && '.' !in ext
    requires |name| + 1 + |ext| > MaxFilenameLength
    ensures SanitizeFilenameAsWritten(name + "." + ext)
         == PyPrefix(name, MaxFilenameLength - |ext| - 1) + "." + ext
  {
    var s := SafeDotJoin(name, ext);
    assert Untruncated(s) == s && LastIndexOf(s, '.') == |name| by { PlainName(s, |name|); }
    assert ExtensionAfterLastDot(s) == ext by { ExtensionAt(s, |name|); }
    assert s[..|name|] == name;
    assert SanitizeFilenameAsWritten(name + "." + ext) == LimitLengthAsWritten(s);
  }

  /** A safe name part, a dot and a dot-free safe extension make a safe name
      whose last dot is the joining one. */
  lemma SafeDotJoin(name: string, ext: string) returns (s: string)
    requires AllSafe(name) && AllSafe(ext) && '.' !in ext
    ensures s == name + "." + ext
    ensures AllSafe(s) && s[|name|] == '.' && s[|name| + 1..] == ext
    ensures forall j :: |name| < j < |s| ==> s[j] != '.'
  {
    s := name + "." + ext;
    assert forall j :: |name| < j < |s| ==> s[j] == ext[j - |name| - 1];
    assert forall j :: 0 <= j < |name| ==> s[j] == name[j];
  }

  /** A run of one safe character other than the dot is a safe, dot-free
      extension. */
  lemma RepeatIsPlain(c: char, n: nat)
    requires IsSafeChar(c) && c != '.'
    ensures AllSafe(Repeat(c, n)) && '.' !in Repeat(c, n)
  {
  }

  /** "." followed by 255 letters comes back 256 characters long. */
  lemma AsWrittenBoundCounterexample()
    ensures |SanitizeFilenameAsWritten("." + Repeat('b', 255))| == 256
  {
    var ext := Repeat('b', 255);
    assert SanitizeFilenameAsWritten("." + ext) == PyPrefix("", -1) + "." + ext by {
      RepeatIsPlain('b', 255);
      AsWrittenOnLongName("", ext);
      assert "" + "." == ".";
    }
    assert PyPrefix("", -1) == "";
  }

  /** The function as written is not idempotent once the extension has 255
      characters or more and the first pass keeps part of the name: the
      second pass cuts the name part again. */
  lemma {:induction false} AsWrittenNotIdempotent(name: string, ext: string)
    requires AllSafe(name) && AllSafe(ext) && '.' !in ext
    requires |ext| >= MaxFilenameLength
    requires |name| + MaxFilenameLength - |ext| - 1 >= 1
    ensures var once := SanitizeFilenameAsWritten(name + "." + ext);
      SanitizeFilenameAsWritten(once) != once
  {
    var k := MaxFilenameLength - |ext| - 1;
    var once := SanitizeFilenameAsWritten(name + "." + ext);
    var kept := PyPrefix(name, k);
    assert once == kept + "." + ext by { AsWrittenOnLongName(name, ext); }
    assert AllSafe(kept) by {
      forall j | 0 <= j < |kept| ensures IsSafeChar(kept[j]) { assert kept[j] == name[j]; }
    }
    var twice := PyPrefix(kept, k) + "." + ext;
    assert SanitizeFilenameAsWritten(kept + "." + ext) == twice by { AsWrittenOnLongName(kept, ext); }
    assert |twice| < |once|;
  }

  /** Sanitising "ab." followed by 255 letters twice does not give what
      sanitising it once gives. */
  lemma AsWrittenIdempotenceCounterexample()
    ensures var x := "ab." + Repeat('c', 255);
      SanitizeFilenameAsWritten(SanitizeFilenameAsWritten(x)) != SanitizeFilenameAsWritten(x)
  {
    var ext := Repeat('c', 255);
    RepeatIsPlain('c', 255);
    AbIsSafe(ext);
    AsWrittenNotIdempotent("ab", ext);
  }

  lemma AbIsSafe(ext: string)
    ensures AllSafe("ab") && |"ab"| == 2
    ensures "ab" + "." + ext == "ab." + ext
  {
  }

  /** Path traversal is stripped: "../../../etc/passwd" becomes "passwd.audio". */
  lemma TraversalExample()
    ensures SanitizeFilename("../../../etc/passwd") == "passwd.audio"
  {
    TraversalBaseName();
    PasswdIsPlain();
    NoDotGetsAudioSuffix("../../../etc/passwd");
  }

  lemma PasswdIsPlain()
    ensures AllSafe("passwd") && '.' !in "passwd"
    ensures "passwd" + ".audio" == "passwd.audio"
  {
  }

  lemma TraversalBaseName()
    ensures BaseName("../../../etc/passwd") == "passwd"
  {
    var s := "../../../etc/passwd";
    assert s[12] == '/';
    assert forall j :: 12 < j < |s| ==> s[j] != '/';
    assert LastIndexOf(s, '/') == 12;
    assert s[13..] == "passwd";
  }

  /** A safe base name without a dot gets ".audio" appended. */
  lemma NoDotGetsAudioSuffix(filename: string)
    requires var b := BaseName(filename); AllSafe(b) && '.' !in b && |b| <= MaxFilenameLength - 6
    ensures SanitizeFilename(filename) == BaseName(filename) + ".audio"
  {
  }

  // ---------------------------------------------------------------------
  // Transcript normalisation
  // ---------------------------------------------------------------------

  predicate IsWordChar(c: char) { IsLower(c) || IsDigit(c) }

  /** One character after `lower()` and `re.sub(r'[^a-z0-9\s]', ' ', ...)`.
      Whitespace the substitution keeps is only ever a separator for the
      following `split()`, so it is mapped to a space here. */
  function CleanChar(c: char): (d: char)
    ensures IsWordChar(d) || d == ' '
    ensures IsWordChar(LowerChar(c)) ==> d == LowerChar(c)
    ensures !IsWordChar(LowerChar(c)) ==> d == ' '
    ensures IsWordChar(c) ==> d == c
  {
    var l := LowerChar(c);
    if IsWordChar(l) then l else ' '
  }

  function CleanText(s: string): (r: string)
    ensures |r| == |s|
    ensures forall i :: 0 <= i < |s| ==> r[i] == CleanChar(s[i])
  {
    if |s| == 0 then "" else [CleanChar(s[0])] + CleanText(s[1..])
  }

  predicate IsWord(w: string) {
    |w| > 0 && forall i :: 0 <= i < |w| ==> IsWordChar(w[i])
  }

  predicate CleanedChars(s: string) {
    forall i :: 0 <= i < |s| ==> IsWordChar(s[i]) || s[i] == ' '
  }

  /** `str.split()` on a cleaned string, with the word read so far in `cur`. */
  function SplitWords(s: string, cur: string): (ws: seq<string>)
    requires CleanedChars(s)
    requires cur == "" || IsWord(cur)
    ensures forall k :: 0 <= k < |ws| ==> IsWord(ws[k])
    decreases |s|
  {
    if |s| == 0 then (if cur == "" then [] else [cur])
    else if s[0] == ' ' then
      (if cur == "" then SplitWords(s[1..], "") else [cur] + SplitWords(s[1..], ""))
    else SplitWords(s[1..], cur + [s[0]])
  }

  /** Only lower-case letters, digits and single inner spaces. */
  predicate IsNormalForm(s: string) {
    && CleanedChars(s)
    && (|s| > 0 ==> s[0] != ' ' && s[|s| - 1] != ' ')
    && (forall i :: 0 <= i < |s| - 1 && s[i] == ' ' ==> s[i + 1] != ' ')
  }

  /** `normalize_transcription`. */
  function NormalizeTranscription(text: string): (r: string)
    ensures IsNormalForm(r)
  {
    var cleaned := CleanText(text);
    var words := SplitWords(cleaned, "");
    JoinIsNormal(words);
    Strip(Join(" ", words))
  }

  lemma {:induction false} JoinIsNormal(ws: seq<string>)
    requires forall k :: 0 <= k < |ws| ==> IsWord(ws[k])
    ensures IsNormalForm(Join(" ", ws))
    ensures |ws| > 0 ==> |Join(" ", ws)| > 0
    ensures Strip(Join(" ", ws)) == Join(" ", ws)
  {
    if |ws| > 1 {
      JoinIsNormal(ws[1..]);
      var rest := Join(" ", ws[1..]);
      var j := ws[0] + " " + rest;
      assert j == Join(" ", ws);
      assert IsWord(ws[0]);
      forall i | 0 <= i < |j| - 1 && j[i] == ' '
        ensures j[i + 1] != ' '
      {
        if i == |ws[0]| { assert j[i + 1] == rest[0]; }
        else if i > |ws[0]| 
{ assert j[i] == rest[i - |ws[0]| - 1]; assert j[i + 1] == rest[i - |ws[0]|]; }
      }
      assert CleanedChars(j) by {
        forall i | 0 <= i < |j| ensures IsWordChar(j[i]) || j[i] == ' ' {
          if i < |ws[0]| { assert j[i] == ws[0][i]; }
          else if i > |ws[0]| { assert j[i] == rest[i - |ws[0]| - 1]; }
        }
      }
      assert j[0] == ws[0][0];
      assert j[|j| - 1] == rest[|rest| - 1];
    } else if |ws| == 1 {
      assert IsWord(ws[0]);
    }
  }

  /** Splitting a normal-form text and joining it again gives it back. */
  lemma {:induction false} SplitJoinNormal(s: string, cur: string)
    requires CleanedChars(s)
    requires cur == "" || IsWord(cur)
    requires |s| > 0 ==> s[|s| - 1] != ' '
    requires forall i :: 0 <= i < |s| - 1 && s[i] == ' ' ==> s[i + 1] != ' '
    requires cur == "" ==> |s| == 0 || s[0] != ' '
    ensures Join(" ", SplitWords(s, cur)) == cur + s
    ensures cur + s != "" ==> |SplitWords(s, cur)| > 0
    decreases |s|
  {
    if |s| == 0 {
    } else if s[0] == ' ' {
      var t := s[1..];
      assert |t| > 0 && t[0] != ' ';
      SplitJoinNormal(t, "");
      var ws := SplitWords(t, "");
      assert SplitWords(s, cur) == [cur] + ws;
      assert Join(" ", [cur] + ws) == cur + " " + Join(" ", ws);
      assert cur + " " + t == cur + s;
    } else {
      var c2 := cur + [s[0]];
      SplitJoinNormal(s[1..], c2);
      assert c2 + s[1..] == cur + s;
    }
  }

  /** Normalisation is idempotent. */
  lemma {:induction false} NormalizeIdempotent(text: string)
    ensures NormalizeTranscription(NormalizeTranscription(text)) == NormalizeTranscription(text)
  {
    var n := NormalizeTranscription(text);
    assert CleanText(n) == n by {
      forall i | 0 <= i < |n| ensures CleanText(n)[i] == n[i] {
        assert IsWordChar(n[i]) || n[i] == ' ';
      }
    }
    SplitJoinNormal(n, "");
    JoinIsNormal(SplitWords(n, ""));
  }

  /** A text already in normal form is its own normalisation. */
  lemma {:induction false} NormalFormIsFixed(text: string)
    requires IsNormalForm(text)
    ensures NormalizeTranscription(text) == text
  {
    assert CleanText(text) == text by {
      forall i | 0 <= i < |text| ensures CleanText(text)[i] == text[i] {
        assert IsWordChar(text[i]) || text[i] == ' ';
      }
    }
    SplitJoinNormal(text, "");
    JoinIsNormal(SplitWords(text, ""));
  }

  /** The text with its spaces taken out. */
  function WithoutSpaces(s: string): (r: string)
    ensures |r| <= |s|
    ensures ' ' !in r
  {
    if |s| == 0 then "" else (if s[0] == ' ' then "" else [s[0]]) + WithoutSpaces(s[1..])
  }

  lemma {:induction false} WithoutSpacesAppend(a: string, b: string)
    ensures WithoutSpaces(a + b) == WithoutSpaces(a) + WithoutSpaces(b)
    decreases |a|
  {
    if |a| > 0 {
      assert (a + b)[1..] == a[1..] + b;
      WithoutSpacesAppend(a[1..], b);
    } else {
      assert a + b == b;
    }
  }

  /** Splitting a cleaned text and joining the words with single spaces
      keeps every word character, in order. */
  lemma {:induction false} SplitJoinKeepsChars(s: string, cur: string)
    requires CleanedChars(s)
    requires cur == "" || IsWord(cur)
    ensures WithoutSpaces(Join(" ", SplitWords(s, cur))) == cur + WithoutSpaces(s)
    decreases |s|
  {
    if |s| == 0 {
      if cur != "" {
        assert SplitWords(s, cur) == [cur];
        NoSpaceInWord(cur);
      }
    } else if s[0] == ' ' {
      var ws := SplitWords(s[1..], "");
      SplitJoinKeepsChars(s[1..], "");
      assert WithoutSpaces(s) == WithoutSpaces(s[1..]);
      if cur != "" {
        assert SplitWords(s, cur) == [cur] + ws;
        if |ws| == 0 {
          assert Join(" ", [cur] + ws) == cur;
          NoSpaceInWord(cur);
        } else {
          assert Join(" ", [cur] + ws) == cur + " " + Join(" ", ws);
          WordThenSpace(cur, Join(" ", ws));
        }
      }
    } else {
      assert IsWordChar(s[0]);
      var c2 := cur + [s[0]];
      assert IsWord(c2);
      SplitJoinKeepsChars(s[1..], c2);
      assert WithoutSpaces(s) == [s[0]] + WithoutSpaces(s[1..]);
      assert c2 + WithoutSpaces(s[1..]) == cur + ([s[0]] + WithoutSpaces(s[1..]));
    }
  }

  /** A word and a space in front of a text add just the word's characters. */
  lemma {:induction false} WordThenSpace(w: string, j: string)
    requires IsWord(w)
    ensures WithoutSpaces(w + " " + j) == w + WithoutSpaces(j)
  {
    WithoutSpacesAppend(w + " ", j);
    WordThenBlank(w);
  }

  lemma WordThenBlank(w: string)
    requires IsWord(w)
    ensures WithoutSpaces(w + " ") == w
  {
    WithoutSpacesAppend(w, " ");
    SpaceVanishes();
    NoSpaceInWord(w);
    assert w + "" == w;
  }

  lemma SpaceVanishes()
    ensures WithoutSpaces(" ") == ""
  {
    assert " "[1..] == "";
  }

  lemma {:induction false} NoSpaceInWord(w: string)
    requires IsWord(w)
    ensures WithoutSpaces(w) == w
    decreases |w|
  {
    if |w| > 0 {
      assert IsWordChar(w[0]);
      if |w| > 1 {
        NoSpaceInWord(w[1..]);
      }
      assert w == [w[0]] + w[1..];
    }
  }

  /** Normalisation keeps exactly the word characters of the lower-cased
      text, in order: only the separators change. */
  lemma {:induction false} NormalizeKeepsWordChars(text: string)
    ensures WithoutSpaces(NormalizeTranscription(text)) == WithoutSpaces(CleanText(text))
  {
    var words := SplitWords(CleanText(text), "");
    JoinIsNormal(words);
    SplitJoinKeepsChars(CleanText(text), "");
  }

  /** An example: punctuation becomes a separator and case
      goes, giving "hello world". */
  lemma NormalizeExample()
    ensures NormalizeTranscription("Hello, World!") == "hello" + " " + "world"
  {
    var ws := ["hello", "world"];
    var c := CleanText("Hello, World!");
    ExampleCleaned();
    ExampleSplit();
    assert SplitWords(c, "") == ws;
    JoinIsNormal(ws);
    assert Join(" ", ws) == "hello" + " " + "world";
    NormalizeIsJoinedWords("Hello, World!");
  }

  /** Normalisation joins the words of the cleaned text with single spaces. */
  lemma NormalizeIsJoinedWords(text: string)
    ensures NormalizeTranscription(text) == Join(" ", SplitWords(CleanText(text), ""))
  {
    JoinIsNormal(SplitWords(CleanText(text), ""));
  }

  lemma ExampleCleaned()
    ensures CleanText("Hello, World!") == "hello" + (" " + (" " + ("world" + " ")))
  {
    ExampleParts();
    ExampleTailCleaned();
    CleanTextAppend("Hello", ", " + ("World" + "!"));
    ExampleWordsCleaned();
  }

  lemma ExampleParts()
    ensures "Hello, World!" == "Hello" + (", " + ("World" + "!"))
  {
  }

  lemma ExampleTailCleaned()
    ensures CleanText(", " + ("World" + "!")) == " " + (" " + ("world" + " "))
  {
    CleanTextAppend(", ", "World" + "!");
    CleanTextAppend("World", "!");
    ExampleWordsCleaned();
    ExamplePunctuationCleaned();
  }

  lemma ExampleWordsCleaned()
    ensures CleanText("Hello") == "hello" && CleanText("World") == "world"
  {
  }

  lemma ExamplePunctuationCleaned()
    ensures CleanText(", ") == " " + " " && CleanText("!") == " "
  {
  }

  lemma ExampleSplit()
    ensures CleanedChars("hello" + (" " + (" " + ("world" + " "))))
    ensures SplitWords("hello" + (" " + (" " + ("world" + " "))), "") == ["hello", "world"]
  {
    var tail := " " + ("world" + " ");
    WordRun("world", " ", "");
    assert CleanedChars(tail);
    assert "" + "world" == "world" && "" + "hello" == "hello";
    assert SplitWords(" ", "world") == ["world"];
    assert SplitWords(tail, "") == SplitWords("world" + " ", "") == ["world"];
    assert CleanedChars(" " + tail);
    WordRun("hello", " " + tail, "");
    assert SplitWords(" " + tail, "hello") == ["hello"] + SplitWords(tail, "");
  }

  lemma CleanTextAppend(a: string, b: string)
    ensures CleanText(a + b) == CleanText(a) + CleanText(b)
  {
    var l := CleanText(a + b);
    var r := CleanText(a) + CleanText(b);
    forall i | 0 <= i < |a + b| ensures l[i] == r[i] {
      if i < |a| { assert (a + b)[i] == a[i]; } else { assert (a + b)[i] == b[i - |a|]; }
    }
  }

  /** A run of word characters extends the word being read. */
  lemma {:induction false} WordRun(w: string, s: string, cur: string)
    requires IsWord(w) && CleanedChars(s) && (cur == "" || IsWord(cur))
    ensures CleanedChars(w + s)
    ensures SplitWords(w + s, cur) == SplitWords(s, cur + w)
    decreases |w|
  {
    assert CleanedChars(w + s) by {
      forall i | 0 <= i < |w + s| ensures IsWordChar((w + s)[i]) || (w + s)[i] == ' ' {
        if i < |w| { assert (w + s)[i] == w[i]; } else { assert (w + s)[i] == s[i - |w|]; }
      }
    }
    assert IsWordChar(w[0]);
    var c2 := cur + [w[0]];
    assert IsWord(c2);
    if |w| == 1 {
      assert (w + s)[0] == w[0] && (w + s)[1..] == s;
      assert w == [w[0]];
    } else {
      assert IsWord(w[1..]);
      WordRun(w[1..], s, c2);
      assert (w + s)[0] == w[0] && (w + s)[1..] == w[1..] + s;
      assert c2 + w[1..] == cur + w;
    }
  }

  /** Letter case does not matter after normalisation. */
  lemma NormalizeIgnoresCase(text: string)
    ensures NormalizeTranscription(Upper(text)) == NormalizeTranscription(text)
  {
    CleanIgnoresCase(text);
  }

  lemma CleanIgnoresCase(text: string)
    ensures CleanText(Upper(text)) == CleanText(text)
  {
    var u := Upper(text);
    forall i | 0 <= i < |text| ensures CleanChar(u[i]) == CleanChar(text[i]) {
      LowerOfUpper(text[i]);
    }
  }

  /** `compare_transcriptions`. */
  function CompareTranscriptions(actual: string, expected: string, strict: bool): bool {
    if strict then actual == expected
    else NormalizeTranscription(actual) == NormalizeTranscription(expected)
  }

  /** Comparison is reflexive and symmetric in both modes, and an exact
      match is also a normalised match. */
  lemma CompareIsEquivalence(a: string, b: string, c: string, strict: bool)
    ensures CompareTranscriptions(a, a, strict)
    ensures CompareTranscriptions(a, b, strict) == CompareTranscriptions(b, a, strict)
    ensures CompareTranscriptions(a, b, strict) && CompareTranscriptions(b, c, strict) ==>
      CompareTranscriptions(a, c, strict)
    ensures CompareTranscriptions(a, b, true) ==> CompareTranscriptions(a, b, false)
  {
  }

  /** A text compares equal, non-strictly, to its own normal form and to
      its upper-cased form. */
  lemma CompareWithNormalized(a: string)
    ensures CompareTranscriptions(a, NormalizeTranscription(a), false)
    ensures CompareTranscriptions(Upper(a), a, false)
  {
    NormalizeIdempotent(a);
    NormalizeIgnoresCase(a);
  }
}

=== FILE: wrappers.dfy ===
/** Optional values and success/failure results, used wherever the
    original code returns `None` or raises an exception. */
module Wrappers {

  datatype Option<+T> = None | Some(value: T) {

    /** Python truthiness of an optional value: `None` is falsy. */
    predicate IsSome() {
      Some?
    }

    function GetOr(default: T): T {
      match this
      case Some(v) => v
      case None => default
    }
  }

  /** A call either returns a value or raises an error. */
  datatype Result<+R, +E> = Ok(value: R) | Err(error: E) {

    predicate IsFailure() {
      Err?
    }

    function PropagateFailure<U>(): Result<U, E>
      requires Err?
    {
      Err(error)
    }

    function Extract(): R
      requires Ok?
    {
      value
    }
  }
}
